=== FILE: README.md ===
# Timber business dashboard: cashflow ledger and material stock, in Dafny

This project models the business core of a small timber-trading dashboard. The
core has two halves.

- **The cashflow ledger.** The `cashflow_entries` table and its API
  (`api/cashflow.ts`) hold dated income and expense entries. A GET lists one
  reporting window: all time, the last 7, 30 or 90 days, or a custom date range.
  The log comes newest first, each entry carrying the running balance of the
  whole ledger up to it. The GET also returns the income and expense breakdown
  of the window, grouped by category. POST, PUT and DELETE validate a body and
  then change the table.
- **The material stock book.** The `stock_entries` table and its API
  (`api/material.ts`) record timber deliveries. Each delivery has a supplier, a
  driver, an origin and an instant, and one log of count, volume and price for
  each of two quality grades, Super and Rijek. A GET lists one page of
  deliveries, newest first, optionally filtered by origin. Alongside the page it
  returns totals over every matching delivery and the list of all origins. A
  POST validates a delivery and stores it.

Both browser pages are modelled without their DOM. The cashflow page
(`cashflow.ts`) covers:
- the sort state of the log table;
- the selection of entries and the tri-state select-all box;
- the timeframe filter and the query it sends;
- the top-five breakdown lists and the totals;
- bulk delete;
- the add, revise and close buttons of the entry form, and its submit guard.

The material page (`material.ts`) covers:
- the page counter and its pagination buttons;
- the form's field checks, which collect every problem before refusing;
- what the form sends;
- what a save does to the page counter and to the delivery being revised.

## How it is modelled

Each module follows one source file, plus shared support modules.

| module | file | models |
|---|---|---|
| `Js` | js.dfy | JSON bodies and the JavaScript runtime the core relies on: truthiness, property access, `trim`, `parseInt`, `parseFloat`, `String(number)` and `split('.')[1]` |
| `Types` | types.dfy | The record shapes of `types.ts` and the column limits |
| `Ordering` | ordering.dfy | A stable insertion sort by a two-part key, as used by `ORDER BY date, id` and `Array.prototype.sort` |
| `Ledger` | ledger.dfy | Signed sums, chronological order, `WHERE` filtering |
| `Breakdown` | breakdown.dfy | `GROUP BY type, category` and the split into income and expense lists |
| `Validation` | validation.dfy | Validators that report the first failing check |
| `CashflowApi` | cashflow_api.dfy | `api/cashflow.ts` |
| `MaterialApi` | material_api.dfy | `api/material.ts` |
| `CashflowPage` | cashflow_page.dfy | `cashflow.ts` |
| `MaterialPage` | material_page.dfy | `material.ts` |

**Values.** JSON numbers are exact finite decimals `Num(digits, scale)`, kept in
lowest terms. Integrality, comparisons with the column bounds, and the number
of decimals `String(x)` prints are therefore exact. Volumes are stored in
hundredths, as a `NUMERIC(10, 2)` column holds them. Dates are day numbers and
instants are integers.

**Parameters for the outside world.**
- A `DateReader` function stands for `new Date(s)` and for the database's
  casting of a string to a date or timestamp.
- `today` stands for `NOW()`.
- An `ilike` predicate stands for `ILIKE` matching.
- Whether a request the page sends is accepted by the server is a boolean or a
  `SaveOutcome` argument.

**Mutable state.** Each database table is a class holding a sequence of rows
and the last id its `SERIAL` sequence handed out. Its `Valid()` invariant says:
- ids are distinct, positive and at most the last id;
- every row satisfies the column constraints.

Every handler keeps `Valid()`. Each page's module-level state is also a class
whose methods are the event handlers.

The server side's "throw, then answer 500" paths are explicit `ServerError`
results. They cover:
- a body the database refuses, such as a fractional amount, an over-long
  category, or a text holding the character U+0000 (which no PostgreSQL text
  column can hold);
- a date range the database cannot cast;
- an origin filter holding U+0000;
- negative paging parameters.

**What the code does and does not do.** The two tables are independent: no
handler writes the other table, and no handler uses a transaction. A stock
delivery creates no cashflow entry. The material endpoint answers PUT and
DELETE with 405, so stock entries cannot be revised or deleted through it. The
material form's message "Date and time must form a valid timestamp." can only
be pushed when the date or the time is blank. When both are given but do not
form a timestamp, `toISOString()` throws first and the submit handler ends
without an alert of collected errors. `MaterialPage.CheckForm` returns
`Threw` in that case.

## Model

| member | source | states |
|---|---|---|
| CashflowApi.ChooseWindow | api/cashflow.ts:166-184 | A `period` of exactly "7", "30" or "90" wins and is read with parseInt as 7, 30 or 90. Otherwise a non-empty `from` and `to` select that date range. Otherwise all time. All three cases hold as if-and-only-if |
| CashflowApi.PeriodDays | api/cashflow.ts:172-173 | parseInt reads the accepted period texts as 7, 30 and 90 days |
| CashflowApi.WindowSelection | api/cashflow.ts:172-184 | A row is in the window a GET reads iff one of three holds. For a period: its date is on or after today minus the days. For a range: its date is between the two dates, inclusive. Otherwise: always |
| CashflowApi.WindowBalance | api/cashflow.ts:51-80 | The starting balance plus the window's running sum up to an entry is the balance of the whole ledger up to that entry. The starting balance is 0 for all time, else the signed sum of the rows before the window |
| CashflowApi.FetchLogRows | api/cashflow.ts:55-58 | The fetched log is a permutation of the window's rows, and its ids are distinct |
| CashflowApi.FetchLogNewestFirst | api/cashflow.ts:56 | The fetched log strictly decreases in (date, id), i.e. `ORDER BY date DESC, id DESC` |
| CashflowApi.FetchLogBalance | api/cashflow.ts:72-87 | Each fetched row's running balance, computed over the window from the starting balance, equals the balance of the whole ledger up to and including that row |
| CashflowApi.RecordBalances | api/cashflow.ts:75-80 | The walk over the chronological copy maps each entry's id to the starting balance plus the signed sum of the entries up to and including it |
| CashflowApi.SplitGroups | api/cashflow.ts:89-98 | The walk over the grouped sums puts exactly the income groups, in order, in the income list and the others in the expense list |
| CashflowApi.GetFilteredCashflowData | api/cashflow.ts:42-105 | `dailyLog` keeps the log's entries in the log's order. Each entry's balance is the starting balance plus the signed sum of the log entries no later than it, whatever the fetched order. `income` and `expenses` hold the groups of each type, in order |
| CashflowApi.ValidateEntry | api/cashflow.ts:107-131 | The result is the message of the first failing check, in the source's order. It is None iff all of these hold: an update has a positive numeric id; the date is readable; the type is income or expense; the category is a non-blank string; the description is a string; and the amount is a number in (0, 2^63 - 1] |
| CashflowApi.UpdateBodyInsertable | api/cashflow.ts:107-131 | A body accepted as an update is also accepted as an insert |
| CashflowApi.EntryFromBody | api/cashflow.ts:200-207 | The row an accepted body is stored as has its category and description trimmed, a non-blank category within VARCHAR(255), no U+0000 in either text, and an amount in (0, 2^63 - 1] |
| CashflowApi.NulTextRefused | api/cashflow.ts:202-206 | A category or description holding U+0000 keeps it after trimming, so the database refuses the INSERT or UPDATE whatever else the body holds |
| CashflowApi.IndexOfId | api/cashflow.ts:231-240 | Finds a position holding the id, or reports that no row has it |
| CashflowApi.InsertKeepsInvariant | api/cashflow.ts:141-148 | Appending a stored row under the next id keeps ids distinct, positive and at most the last id |
| CashflowApi.UpdateKeepsInvariant | api/cashflow.ts:231-237 | Overwriting the row with an existing id keeps the table invariant |
| CashflowApi.DeleteKeepsInvariant | api/cashflow.ts:255-260 | Any `DELETE ... WHERE` keeps the table invariant |
| CashflowApi.DeleteRemovesListed | api/cashflow.ts:250-260 | A delete by id list keeps exactly the rows whose id is not listed |
| CashflowApi.UpdateChangesOneRow | api/cashflow.ts:231-237 | With distinct ids, an update replaces exactly the row with that id and leaves the others unchanged |
| CashflowApi.CashflowTable.constructor | api/cashflow.ts:140-149 | The table starts empty with an unused id sequence, and valid |
| CashflowApi.CashflowTable.HandleGet | api/cashflow.ts:165-188 | The answer is a server error iff a range bound cannot be cast. Otherwise it is the listing of the resolved window: newest first, each row with the ledger balance up to it, and the window's grouped breakdown |
| CashflowApi.CashflowTable.ListWindow | api/cashflow.ts:186-187 | The data of one window is its listing, as above |
| CashflowApi.CashflowTable.HandlePost | api/cashflow.ts:190-217 | A falsy body gives 400 "Request body is missing."; a validation failure gives 400 with its message; a body the database refuses (a fractional amount, a category over 255 characters, U+0000 in the category or description) gives 500. Otherwise the trimmed row is appended under the next id and returned (201). Only a 201 changes the table |
| CashflowApi.CashflowTable.HandlePut | api/cashflow.ts:219-245 | Errors as for POST, plus 404 "Entry not found" for an unknown id. Otherwise the row with that id is overwritten and returned. The id sequence never changes, and only a 200 changes the rows |
| CashflowApi.CashflowTable.HandleDelete | api/cashflow.ts:247-269 | An all-numeric `ids` array deletes the listed rows (204), or nothing when empty. A numeric `id` deletes its row (204), or gives 404 when none has it. Anything else gives 400 "Invalid ID or IDs provided." A null body, or ids the INT column refuses, give 500 |
| CashflowApi.CashflowTable.Handle | api/cashflow.ts:134-283 | Any other method gives 405 with Allow GET, POST, PUT, DELETE and changes nothing. GET changes nothing. Every request keeps the table valid |
| Ledger.SumUpToPermutation | api/cashflow.ts:74-80 | The balance up to an entry depends on which entries there are, not on their order |
| Ledger.SortedPrefixSum | api/cashflow.ts:74-79 | In chronological order, the balance up to entry k is the sum of the first k + 1 entries, which the walk computes |
| Ledger.Chronological | api/cashflow.ts:74 | The sorted copy is a permutation of the log; with distinct ids it is strictly increasing in (date, id) |
| Ledger.WhereMembers | api/cashflow.ts:56 | A `WHERE` filter keeps exactly the rows that satisfy it |
| Ledger.WhereIds | api/cashflow.ts:56 | Filtering keeps the ids distinct |
| Ordering.SortBy | api/cashflow.ts:74 | The sort returns a permutation, sorted by key, and strictly sorted when keys are distinct |
| Breakdown.GroupTotalsCorrect | api/cashflow.ts:60-63 | `GROUP BY type, category` yields each pair of the window once and no other pair. Each pair carries the sum of its entries' amounts |
| Breakdown.BreakdownCorrect | api/cashflow.ts:89-98 | Each type's list names each of that type's categories once and no other. Each item carries its category's sum, and the list adds up to the window's total for the type |
| Breakdown.ItemsPartition | api/cashflow.ts:91-98 | Every group lands in exactly one of the two lists |
| Breakdown.TotalOfItems | cashflow.ts:221-222 | The reduce over a list is the window's total for that type |
| Breakdown.SignedSumByKind | cashflow.ts:223 | Income minus expenses is the signed sum of the entries |
| Validation.FirstFailureMeaning | api/cashflow.ts:107-131 | A validator returns nothing iff every check passes. Otherwise it returns the message of a failing check all of whose predecessors pass |
| Validation.FirstFailureAppend | api/material.ts:57-87 | Validating two groups of checks in a row means validating the second only when the first passes |
| Js.Trim | api/cashflow.ts:120 | The trimmed text has no whitespace at either end and is empty iff the text is blank |
| Js.TrimIdempotent | cashflow.ts:470-471 | Trimming twice, on the page and again on the server, is trimming once |
| Js.ParseInt | api/material.ts:126-127 | parseInt is NaN iff no digit follows the optional whitespace and sign |
| Js.ParseIntOfToString | material.ts:17-20 | parseInt reads back a number written by `toString` |
| Js.NatToString | material.ts:362 | `toString` of a non-negative integer writes digits with no leading zero |
| Js.ParseFloatOfToString | material.ts:363 | parseFloat reads `String(x)` back as x wherever `String` writes plain notation |
| Js.SecondPieceOfPoint | api/material.ts:72 | `split('.')[1]` of whole digits, a point and fraction digits is the fraction digits |
| MaterialApi.ValidateQualityLog | api/material.ts:68-75 | (Intended rule for the decimals, see Findings.) A grade's log gives the message of its first failing check. It gives None iff all of these hold: it is an object; the count is an integer in [0, 2^31 - 1]; the volume is in [0, 10^8) with at most two decimals; the price is an integer in [0, 2^63 - 1] |
| MaterialApi.ValidateStockEntry | api/material.ts:57-87 | The message of the first failing check in source order: date, supplier, driver, origin, then the Super log, then the Rijek log. None iff the delivery passes them all. The volume checks use the intended decimals rule |
| MaterialApi.StockChecksInOrder | api/material.ts:63-84 | The Rijek log is looked at only when every earlier check passes |
| MaterialApi.VolumeRulesAgree | api/material.ts:71-74 | Where `String` writes plain notation (integers, and fractions from 10^-6 up), the rule as written holds iff the volume has at most two decimals |
| MaterialApi.TinyVolumeSlipsThrough | api/material.ts:71-74 | A volume d * 10^-s (1 <= d <= 9, s >= 7) passes the rule as written, although it has s decimals and is stored as 0 |
| MaterialApi.TinyVolumeText | api/material.ts:71-72 | `String` writes such a volume as `de-s`, with no '.' |
| MaterialApi.TinyVolumeStoredAsZero | api/material.ts:104 | NUMERIC(10, 2) rounds such a volume to 0 |
| MaterialApi.StoredVolumeExact | api/material.ts:104 | A volume with at most two decimals is stored exactly: its hundredths times 10^scale are 100 times its digits |
| MaterialApi.RowRoundTrip | api/material.ts:37-55 | Flattening the mapped delivery gives back the row |
| MaterialApi.EntryRoundTrip | api/material.ts:37-55 | Mapping the flattened delivery gives back the delivery |
| MaterialApi.Entries | api/material.ts:160 | The page's rows are mapped one by one, in order |
| MaterialApi.StoredLogOf | api/material.ts:199-203 | An accepted grade's log is stored within its columns, with its count, price and exact volume |
| MaterialApi.VarcharStore | api/material.ts:99-101 | A VARCHAR(255) column stores a text that fits unchanged. It cuts a longer text to 255 characters when only spaces follow them, and refuses it otherwise. What it stores is a prefix of the text, and only spaces are dropped |
| MaterialApi.VarcharKeepsNonBlank | api/material.ts:64-66 | A name that passes the non-blank check is still not blank once its column has cut its trailing spaces |
| MaterialApi.RowFromBody | api/material.ts:197-204 | An accepted delivery is stored under the given id. Its names are as sent, or cut by their columns when only spaces pass 255 characters. The row satisfies every column constraint, including no U+0000 in a name |
| MaterialApi.VarcharKeepsStorable | api/material.ts:99-101 | Cutting a name to its column keeps it free of U+0000 |
| MaterialApi.NulNameRefused | api/material.ts:197-204 | A supplier, driver or origin holding U+0000 is not taken by its column, so the INSERT fails |
| MaterialApi.StockInsertKeepsInvariant | api/material.ts:97-110 | Appending a stored row under the next id keeps ids distinct, positive and at most the last id |
| MaterialApi.IntParamOr | api/material.ts:126-127 | `parseInt(x, 10) \|\| d` is the default d when the parameter is missing, and is never 0 when d is not |
| MaterialApi.Page | api/material.ts:138 | `LIMIT/OFFSET` returns at most `limit` rows, starting at the offset, in order |
| MaterialApi.NewestFirstFacts | api/material.ts:138 | The newest-first listing is a permutation of the rows and strictly decreases in (date, id) |
| MaterialApi.MatchingMembers | api/material.ts:133-136 | The origin filter keeps each matching row as often as it occurs, and no other row |
| MaterialApi.SelectedIds | api/material.ts:133-136 | The selection keeps the ids distinct |
| MaterialApi.PageOfRow | api/material.ts:126-138 | Row i of the listing appears on page i / limit + 1, at position i % limit |
| MaterialApi.PageCount | material.ts:78 | `Math.ceil(n / limit)` pages hold n rows, and one page fewer does not |
| MaterialApi.PagesUpToPrefix | api/material.ts:129-138 | Pages 1 to k together are the first k * limit rows |
| MaterialApi.PagesCoverListing | api/material.ts:129-138 | Walking every page lists every selected row exactly once, in order |
| MaterialApi.SummaryCoversEveryPage | api/material.ts:140-149 | A column summed page by page over every page equals the summary's `SUM` over the selection |
| MaterialApi.SumOfPermutation | api/material.ts:140-149 | A column's sum does not depend on row order |
| MaterialApi.DistinctOrigins | api/material.ts:150 | `SELECT DISTINCT origin` lists each origin of the table exactly once |
| MaterialApi.StockTable.constructor | api/material.ts:96-111 | The table starts empty with an unused id sequence, and valid |
| MaterialApi.StockTable.HandleGet | api/material.ts:125-185 | The answer is a server error iff the paging parameters are negative or exceed 2^63 - 1, or a non-empty origin holds U+0000. Otherwise it is the page of the selection, newest first; the selection's size; totals over the whole selection; and all origins of the table |
| MaterialApi.StockTable.HandlePost | api/material.ts:187-211 | A falsy body gives 400 "Request body is missing."; a validation failure gives 400 with its message; a name longer than 255 characters with anything but spaces past them, or a name holding U+0000, gives 500. Otherwise the row is appended under the next id and the mapped delivery returned (201). Only a 201 changes the table |
| MaterialApi.StockTable.Handle | api/material.ts:125-214 | Any other method gives 405 with Allow GET, POST and changes nothing. GET changes nothing. Every request keeps the table valid |
| CashflowPage.RequestSelectsWindow | cashflow.ts:282-288 | The query the page sends selects on the server the window the page shows. A fixed timeframe gives its last days; a custom range with both dates gives that range; anything else gives all time |
| CashflowPage.SelectAllStates | cashflow.ts:101-113 | The box is checked iff rows are shown and all are selected; indeterminate iff some but not all are selected; clear iff none is selected |
| CashflowPage.TopFive | cashflow.ts:125 | The list holds min(5, n) of the items, from the items, in non-increasing amount |
| CashflowPage.TopFiveIsTop | cashflow.ts:125 | No item left out has a larger amount than an item shown |
| CashflowPage.NetProfitOfWindow | cashflow.ts:220-223 | For the breakdown the server returns, net profit is the window's signed sum |
| CashflowPage.FormBodyFields | cashflow.ts:467-474 | The body sends the date, the type, the trimmed category and description, and the amount read by parseInt |
| CashflowPage.GuardKeepsAccepted | cashflow.ts:476-479 | The guard refuses no new-entry form that the server would accept |
| CashflowPage.GuardedFormAccepted | cashflow.ts:476-479 | A guarded form is accepted by the server when it also has a readable date, a known type and an amount within BIGINT |
| CashflowPage.SetToList | cashflow.ts:453 | `Array.from` lists every selected id exactly once |
| CashflowPage.CashflowPageState.constructor | cashflow.ts:10-18 | The page starts unsorted, ascending, all time, with nothing selected, shown, fetched or revised |
| CashflowPage.CashflowPageState.Loaded | cashflow.ts:292-294 | Fetched data replaces the daily log kept, and nothing else changes |
| CashflowPage.CashflowPageState.AddNew | cashflow.ts:389-397 | The add button forgets the entry being revised |
| CashflowPage.CashflowPageState.CloseModal | cashflow.ts:379-387 | Closing the form forgets the entry being revised |
| CashflowPage.CashflowPageState.Revise | cashflow.ts:420-437 | Returns the first fetched log entry with that id, and revises that id, iff fetched data holds it. Otherwise nothing changes |
| CashflowPage.RevisedFormRoundTrip | cashflow.ts:420-474 | A revise form saved unchanged passes the guard. The server accepts it as an update of that id, and the row written is the entry the form was filled from |
| CashflowPage.CashflowPageState.HandleSort | cashflow.ts:260-270 | No key changes nothing. The active key flips the direction. Another key becomes active, ascending. Nothing else changes |
| CashflowPage.CashflowPageState.ShowLog | cashflow.ts:207 | The visible ids are the rendered entries' ids, in order |
| CashflowPage.CashflowPageState.ClickRow | cashflow.ts:409-414 | A row checkbox adds or removes exactly its id |
| CashflowPage.CashflowPageState.ClickSelectAll | cashflow.ts:415-419 | Select-all adds or removes every visible id and leaves hidden selections alone. Afterwards the box reads checked when rows are shown, or clear |
| CashflowPage.CashflowPageState.ClickFilter | cashflow.ts:337-354 | Re-clicking the active non-custom button does nothing. Otherwise the timeframe changes, the inputs clear, sorting resets to date descending, the selection empties, and the request for the timeframe is sent |
| CashflowPage.CashflowPageState.EditDateRange | cashflow.ts:369-371 | Typing a date changes only the inputs |
| CashflowPage.CashflowPageState.ApplyDateRange | cashflow.ts:356-367 | Only two readable dates with from <= to switch to the custom range: the sort resets, the selection empties and the range is requested. Otherwise nothing changes |
| CashflowPage.CashflowPageState.BulkDelete | cashflow.ts:449-458 | An empty selection or a declined confirmation does nothing. Otherwise every selected id is sent once, and the selection is emptied only when the server deletes them |
| CashflowPage.CashflowPageState.Submit | cashflow.ts:460-496 | A form refused by the guard sends nothing. Otherwise the body is sent with PUT and the id when an entry is being revised, and with POST otherwise. An accepted save forgets the entry being revised |
| CashflowPage.PutCarriesId | cashflow.ts:473-487 | The request is a PUT exactly when its body carries an id, and that id is the entry being revised |
| MaterialPage.PaginationMatchesHandlers | material.ts:77-88 | The bar shows iff there are more than six deliveries. On a page within range, prev is enabled iff the page is past the first, and next iff it is before the last |
| MaterialPage.FetchQueryReadBack | material.ts:16-21 | The endpoint reads back the requested page and a limit of 6, so the offset is (page - 1) * 6 |
| MaterialPage.IntegerFieldErrorsMeaning | material.ts:280-291 | An integer field pushes no message iff it is acceptable, and one message otherwise |
| MaterialPage.VolumeFieldErrorsMeaning | material.ts:264-278 | A volume field pushes no message iff it is acceptable, and one message otherwise |
| MaterialPage.ValidateIntegerField | material.ts:280-291 | Appends the field's message and returns parseInt's value iff the field is acceptable |
| MaterialPage.ValidateVolumeField | material.ts:264-278 | Appends the field's messages. Returns parseFloat's value iff the text is non-blank and reads as a non-negative number, even with too many decimals |
| MaterialPage.FormVolumeHasTwoDecimals | material.ts:269-276 | A volume accepted by the form has at most two decimal places, so the endpoint's rule takes it |
| MaterialPage.TextErrorsMeaning | material.ts:252-261 | The date, time and name fields push nothing iff none is blank, and at least one message per blank field |
| MaterialPage.FormErrorsMeaning | material.ts:246-300 | The form collects no message iff every field is acceptable |
| MaterialPage.FormErrorsCoverFailures | material.ts:246-300 | The form reports at least one message for every field that is not acceptable, rather than stopping at the first |
| MaterialPage.CheckForm | material.ts:246-303 | Throws iff date and time are given but form no timestamp. Refuses, with every collected message, iff some field fails. Otherwise the draft holds the timestamp, the trimmed names and the parsed counts, volumes and prices |
| MaterialPage.DraftBodyFields | material.ts:310-314 | The posted body carries the instant, the names and both logs |
| MaterialPage.FormLogAccepted | material.ts:310-313 | A grade the form accepted, within the column bounds, passes the endpoint's checks for that grade |
| MaterialPage.ReadyDraftAccepted | material.ts:300-319 | A ready draft with a readable instant and logs within the column bounds passes validateStockEntry |
| MaterialPage.PrefilledInteger | material.ts:362 | A stored count or price written by `toString` passes the integer check and reads back as itself |
| MaterialPage.PrefilledVolume | material.ts:363 | A stored volume written by `String` passes the volume check and reads back as the same number of hundredths |
| MaterialPage.PrefilledFormOk | material.ts:353-368 | Saving a revise form unchanged passes every field check and reads back the stored counts, volumes and prices |
| MaterialPage.MaterialPageState.constructor | material.ts:9-12 | The page starts on page 1, with nothing revised or loaded |
| MaterialPage.MaterialPageState.Loaded | material.ts:184-186 | A loaded listing replaces the data and changes nothing else |
| MaterialPage.MaterialPageState.Prev | material.ts:386-391 | Goes back one page iff past page 1, and then refetches |
| MaterialPage.MaterialPageState.Next | material.ts:393-400 | Goes forward one page iff a listing is loaded and the page is before the last, and then refetches. It never passes the last page |
| MaterialPage.MaterialPageState.AddNew | material.ts:222-234 | Adding forgets the delivery being revised |
| MaterialPage.MaterialPageState.Revise | material.ts:344-371 | Returns the first loaded delivery with that id, a stored one, and revises it iff the listing holds the id. Otherwise nothing changes |
| MaterialPage.MaterialPageState.CloseModal | material.ts:216-220 | Closing the form forgets the delivery being revised |
| MaterialPage.MaterialPageState.SubmitAsWritten | material.ts:316-335 | As written: a ready form sends a create or an update. Every successful save, an edit included, returns to page 1. Afterwards nothing is being revised |
| MaterialPage.MaterialPageState.Submit | material.ts:316-335 | As intended: a successful save of a new delivery returns to page 1, and a successful revision stays on its page. Afterwards nothing is being revised |
| MaterialPage.RevisionSaveKeepsPage | material.ts:322-326 | On page 3, revising delivery 7 and saving successfully: as written the page becomes 1, as intended it stays 3 |
| MaterialPage.SubmitToEndpoint | material.ts:316-335 | Sent to the stock endpoint, a revision goes out as PUT and is answered 405. The table is unchanged and the page stays where it was. A new delivery goes back to page 1 iff the endpoint stores it |

## Left out

- `CREATE TABLE`, connection pooling and releasing, and seeding: every request first inserts example rows into a table it finds empty (api/cashflow.ts:151-160, api/material.ts:113-122), so, for instance, the GET after a delete that empties the cashflow table lists the example rows again. The model's tables start empty and are never seeded.
- Concurrency between requests: the three queries of a GET are read as one consistent snapshot.
- Query-string values given as arrays (`?period=7&period=30`): the query is a map from names to single strings.
- The SQL text itself: the `WHERE`, `ORDER BY`, `GROUP BY` and `LIMIT/OFFSET` clauses are modelled by what they select.
- The order of `GROUP BY` rows and of `SELECT DISTINCT` rows: the model fixes one order (first occurrence); the contracts say nothing that depends on it.
- Double-precision arithmetic:
  - JSON numbers and sums are exact decimals and integers.
  - `Number()` of a BIGINT sum is not rounded.
  - `Number()` of the NUMERIC volume and price columns when a row is read back is exact, so `MaterialApi.RowRoundTrip` and `MaterialApi.EntryRoundTrip` only regroup columns.
  - The JavaScript `MAX_BIGINT` literal is the double 2^63 rather than 2^63 - 1; the model compares with 2^63 - 1, as the column does.
- `parseFloat` of exponent notation, `Infinity` and hexadecimal text; `String(x)` of numbers of 10^21 and above.
- JavaScript dates compared with database dates, time zones, `toISOString` formatting and `created_at`: dates and instants are numbers read through a `DateReader` parameter.
- `NOW()`, `ILIKE` and the browser's timestamp parsing are parameters.
- MaterialApi.StockTable.HandleGet: does not answer 500 for an origin pattern that ends in an unescaped backslash. PostgreSQL's `ILIKE` raises "LIKE pattern must not end with escape character" for it, but only once some row's origin matches the pattern up to that backslash. The `ilike` parameter is a total predicate, and when the error happens depends on how far the matcher gets on each row.
- Gaps the `SERIAL` sequence leaves after a failed insert: the model only advances the id on success.
- The DOM, alerts, confirmations, button texts and disabled states, charts, percentages and the health bar.
- The category datalist fetch (`updateCategoryDatalist`) and the refreshes after a save.
- The display sort of the cashflow table with `localeCompare`: only the sort state (`HandleSort`) is modelled, not the rendered order.
- `FormData` fields that are absent (null): every field is text.
- The single-entry delete button of the cashflow page (an API call and a refresh).
- The material page's delete button and its DELETE request: the material endpoint answers every method other than GET and POST with 405, which `MaterialApi.StockTable.Handle` states (the revise form's PUT is in `MaterialPage.SubmitToEndpoint`).
- The local-time date and time text the revise form is filled with: a parameter of `MaterialPage.PrefilledForm`.
- MaterialPage.ReadyDraftAccepted: requires the logs to fit the columns (`WithinColumns`), because the page checks no upper bounds on counts, volumes or prices and the endpoint does.
- CashflowPage.GuardedFormAccepted: requires a readable date, a known type and an amount within BIGINT, because the page's guard does not check them and the server does.
- MaterialApi.ValidateStockEntry: applies the intended decimals rule (at most two decimals) and not the rule as written, so it refuses a volume such as `1e-7` that the code accepts (see Findings).
- MaterialApi.StockTable.HandlePost: answers 400 for a volume such as `1e-7`, where the code stores 0.00 and answers 201, because its validation applies the intended decimals rule (see Findings).
- MaterialApi.VolumeRulesAgree: is stated only for volumes `String` writes in plain notation; below 10^-6 the rules disagree (see Findings).

## Findings

| source | as written | input that shows it | evidently intended | confidence | as-written member | corrected member |
|---|---|---|---|---|---|---|
| api/material.ts:71-74 | The decimals check looks for a '.' in `String(volume)` | A volume of `1e-7` (any d * 10^-s with s >= 7): `String` writes "1e-7", which has no '.', so it passes and the NUMERIC(10, 2) column stores 0 | A volume with more than two decimal places is refused | not executed | MaterialApi.TinyVolumeSlipsThrough | MaterialApi.ValidateQualityLog |
| material.ts:322-326 | `closeModal()` sets `currentEditingId` to null before `if (!currentEditingId)` tests it | Revising a delivery on page 3 and saving it successfully returns to page 1. The defect is latent: the stock endpoint answers the revision's PUT with 405, so no revision is ever saved. It shows once the endpoint accepts PUT | "stay on current page on edit": a revision keeps the page | not executed | MaterialPage.MaterialPageState.SubmitAsWritten | MaterialPage.MaterialPageState.Submit |

For the first finding:
- `MaterialApi.VolumeDecimalsAsWritten` models the check as written.
- `MaterialApi.TinyVolumeSlipsThrough` proves that the input above passes it,
  has more than two decimals, and is stored as 0.
- `MaterialApi.VolumeDecimalsOk` is the intended rule. The endpoint's
  validation uses it.
- `MaterialApi.StoredVolumeExact` proves that every volume it accepts is stored
  exactly.
- `MaterialApi.VolumeRulesAgree` proves that the two rules agree wherever
  `String` writes plain notation.

For the second finding, `MaterialPage.SubmitToEndpoint` proves that against
the stock endpoint as it stands, a revision fails with 405 and the page stays.
`MaterialPage.RevisionSaveKeepsPage` runs both
versions on the input above.

=== FILE: breakdown.dfy ===
/**
 * The income and expense breakdown of a query window: the window's entries
 * grouped by (type, category) with their amounts summed, then split into an
 * income list and an expense list.
 */
module Breakdown {
  import opened Types
  import opened Ledger

  /** A row of the grouping query: one (type, category) pair and its summed amount. */
  datatype Group = Group(kind: EntryType, category: string, total: int)

  /** The sum of the amounts of the entries of s with this type and category. */
  function SumWhere(s: seq<CashflowEntry>, kind: EntryType, category: string): int {
    if s == [] then 0
    else
      var e := s[|s| - 1];
      SumWhere(s[..|s| - 1], kind, category) + (if e.kind == kind && e.category == category then e.amount else 0)
  }

  /** The sum of the amounts of the entries of s with this type. */
  function KindSum(s: seq<CashflowEntry>, kind: EntryType): int {
    if s == [] then 0
    else KindSum(s[..|s| - 1], kind) + (if s[|s| - 1].kind == kind then s[|s| - 1].amount else 0)
  }

  /** Some entry of s has this type and category. */
  predicate HasEntry(s: seq<CashflowEntry>, kind: EntryType, category: string) {
    exists i :: 0 <= i < |s| && s[i].kind == kind && s[i].category == category
  }

  /** The totals of the groups with this key, added up (at most one when keys are unique). */
  function GroupTotal(gs: seq<Group>, kind: EntryType, category: string): int {
    if gs == [] then 0
    else
      var g := gs[|gs| - 1];
      GroupTotal(gs[..|gs| - 1], kind, category) + (if g.kind == kind && g.category == category then g.total else 0)
  }

  predicate HasGroup(gs: seq<Group>, kind: EntryType, category: string) {
    exists i :: 0 <= i < |gs| && gs[i].kind == kind && gs[i].category == category
  }

  /** No (type, category) pair occurs twice. */
  predicate KeysUnique(gs: seq<Group>) {
    forall i, j :: 0 <= i < j < |gs| ==> gs[i].kind != gs[j].kind || gs[i].category != gs[j].category
  }

  /** Account for one more entry: add it to its group, or start a group for it. */
  function AddEntry(gs: seq<Group>, e: CashflowEntry): seq<Group> {
    if gs == [] then [Group(e.kind, e.category, e.amount)]
    else
      var g := gs[|gs| - 1];
      if g.kind == e.kind && g.category == e.category then gs[..|gs| - 1] + [Group(g.kind, g.category, g.total + e.amount)]
      else AddEntry(gs[..|gs| - 1], e) + [g]
  }

  /** AddEntry keeps the groups' keys unique and leaves all other groups as they were. */
  lemma {:induction false} AddEntryFacts(gs: seq<Group>, e: CashflowEntry)
    requires KeysUnique(gs)
    ensures KeysUnique(AddEntry(gs, e))
    ensures forall k, c ::
      GroupTotal(AddEntry(gs, e), k, c) == GroupTotal(gs, k, c) + (if e.kind == k && e.category == c then e.amount else 0)
    ensures forall k, c :: HasGroup(AddEntry(gs, e), k, c) <==> HasGroup(gs, k, c) || (e.kind == k && e.category == c)
  {
    AddEntryTotal(gs, e);
    AddEntryHas(gs, e);
    AddEntryUnique(gs, e);
  }

  lemma {:induction false} AddEntryTotal(gs: seq<Group>, e: CashflowEntry)
    ensures forall k, c ::
      GroupTotal(AddEntry(gs, e), k, c) == GroupTotal(gs, k, c) + (if e.kind == k && e.category == c then e.amount else 0)
  {
    var r := AddEntry(gs, e);
    if gs == [] {
      assert r[..|r| - 1] == [];
    } else {
      var g := gs[|gs| - 1];
      var init := gs[..|gs| - 1];
      if g.kind == e.kind && g.category == e.category {
        assert r[..|r| - 1] == init;
      } else {
        AddEntryTotal(init, e);
        assert r[..|r| - 1] == AddEntry(init, e);
      }
    }
  }

  /** Splitting a sequence at its last element, for the existential predicates. */
  lemma HasGroupLast(gs: seq<Group>, k: EntryType, c: string)
    requires gs != []
    ensures HasGroup(gs, k, c) <==>
      HasGroup(gs[..|gs| - 1], k, c) || (gs[|gs| - 1].kind == k && gs[|gs| - 1].category == c)
  {
    var init := gs[..|gs| - 1];
    if HasGroup(gs, k, c) {
      var i :| 0 <= i < |gs| && gs[i].kind == k && gs[i].category == c;
      if i < |init| { assert init[i] == gs[i]; }
    }
    if HasGroup(init, k, c) {
      var i :| 0 <= i < |init| && init[i].kind == k && init[i].category == c;
      assert gs[i] == init[i];
    }
  }

  lemma {:induction false} AddEntryHas(gs: seq<Group>, e: CashflowEntry)
    ensures forall k, c :: HasGroup(AddEntry(gs, e), k, c) <==> HasGroup(gs, k, c) || (e.kind == k && e.category == c)
  {
    var r := AddEntry(gs, e);
    if gs == [] {
      forall k, c ensures HasGroup(r, k, c) <==> e.kind == k && e.category == c {
        if e.kind == k && e.category == c { assert r[0].kind == k && r[0].category == c; }
      }
    } else {
      var g := gs[|gs| - 1];
      var init := gs[..|gs| - 1];
      if g.kind == e.kind && g.category == e.category {
        assert r[..|r| - 1] == init;
        forall k, c ensures HasGroup(r, k, c) <==> HasGroup(gs, k, c) || (e.kind == k && e.category == c) {
          HasGroupLast(r, k, c);
          HasGroupLast(gs, k, c);
        }
      } else {
        AddEntryHas(init, e);
        assert r[..|r| - 1] == AddEntry(init, e);
        forall k, c ensures HasGroup(r, k, c) <==> HasGroup(gs, k, c) || (e.kind == k && e.category == c) {
          HasGroupLast(r, k, c);
          HasGroupLast(gs, k, c);
        }
      }
    }
  }

  lemma {:induction false} AddEntryUnique(gs: seq<Group>, e: CashflowEntry)
    requires KeysUnique(gs)
    ensures KeysUnique(AddEntry(gs, e))
  {
    var r := AddEntry(gs, e);
    if gs != [] {
      var g := gs[|gs| - 1];
      var init := gs[..|gs| - 1];
      assert KeysUnique(init);
      if g.kind == e.kind && g.category == e.category {
        assert forall i :: 0 <= i < |init| ==> r[i] == gs[i];
      } else {
        var r' := AddEntry(init, e);
        AddEntryUnique(init, e);
        AddEntryHas(init, e);
        assert r == r' + [g];
        forall i | 0 <= i < |init| ensures init[i].kind != g.kind || init[i].category != g.category {
          assert gs[i] == init[i];
        }
        forall i | 0 <= i < |r'| ensures r'[i].kind != g.kind || r'[i].category != g.category {
          if r'[i].kind == g.kind && r'[i].category == g.category {
            assert HasGroup(r', g.kind, g.category);
          }
        }
      }
    }
  }

  /** The grouping query: every entry of s accounted for in its (type, category) group. */
  function GroupTotals(s: seq<CashflowEntry>): seq<Group> {
    if s == [] then [] else AddEntry(GroupTotals(s[..|s| - 1]), s[|s| - 1])
  }

  /**
   * The grouping is correct: each (type, category) pair of s appears exactly
   * once, no other pair appears, and each carries the sum of its entries' amounts.
   */
  lemma {:induction false} GroupTotalsCorrect(s: seq<CashflowEntry>)
    ensures KeysUnique(GroupTotals(s))
    ensures forall k, c :: GroupTotal(GroupTotals(s), k, c) == SumWhere(s, k, c)
    ensures forall k, c :: HasGroup(GroupTotals(s), k, c) <==> HasEntry(s, k, c)
  {
    if s != [] {
      var init := s[..|s| - 1];
      var e := s[|s| - 1];
      GroupTotalsCorrect(init);
      AddEntryFacts(GroupTotals(init), e);
      forall k, c ensures HasEntry(s, k, c) <==> HasEntry(init, k, c) || (e.kind == k && e.category == c) {
        if HasEntry(init, k, c) {
          var i :| 0 <= i < |init| && init[i].kind == k && init[i].category == c;
          assert s[i] == init[i];
        }
        if HasEntry(s, k, c) {
          var i :| 0 <= i < |s| && s[i].kind == k && s[i].category == c;
          if i < |init| { assert init[i] == s[i]; }
        }
      }
    }
  }

  /** The breakdown list of one type: its groups, in order, as items. */
  function Items(gs: seq<Group>, kind: EntryType): seq<CashflowItem> {
    if gs == [] then []
    else
      var g := gs[|gs| - 1];
      Items(gs[..|gs| - 1], kind) + (if g.kind == kind then [CashflowItem(g.category, g.total)] else [])
  }

  /** The sum of the item amounts: `items.reduce((sum, item) => sum + item.amount, 0)`. */
  function Total(items: seq<CashflowItem>): int {
    if items == [] then 0 else Total(items[..|items| - 1]) + items[|items| - 1].amount
  }

  predicate HasItem(items: seq<CashflowItem>, category: string) {
    exists i :: 0 <= i < |items| && items[i].category == category
  }

  /** The amounts of the items with this category, added up. */
  function ItemTotal(items: seq<CashflowItem>, category: string): int {
    if items == [] then 0
    else ItemTotal(items[..|items| - 1], category) + (if items[|items| - 1].category == category then items[|items| - 1].amount else 0)
  }

  predicate CategoriesUnique(items: seq<CashflowItem>) {
    forall i, j :: 0 <= i < j < |items| ==> items[i].category != items[j].category
  }

  /** Every group lands in exactly one of the two lists. */
  lemma {:induction false} ItemsPartition(gs: seq<Group>)
    ensures |Items(gs, Income)| + |Items(gs, Expense)| == |gs|
  {
    if gs != [] {
      ItemsPartition(gs[..|gs| - 1]);
    }
  }

  lemma ItemsFacts(gs: seq<Group>, kind: EntryType)
    requires KeysUnique(gs)
    ensures CategoriesUnique(Items(gs, kind))
    ensures forall c :: ItemTotal(Items(gs, kind), c) == GroupTotal(gs, kind, c)
    ensures forall c :: HasItem(Items(gs, kind), c) <==> HasGroup(gs, kind, c)
  {
    ItemsTotal(gs, kind);
    ItemsHas(gs, kind);
    ItemsUnique(gs, kind);
  }

  /** Items(gs, kind) is Items of the prefix, followed by the last group's item when it has this type. */
  lemma ItemsLast(gs: seq<Group>, kind: EntryType)
    requires gs != []
    ensures var g := gs[|gs| - 1];
      Items(gs, kind) == Items(gs[..|gs| - 1], kind) + (if g.kind == kind then [CashflowItem(g.category, g.total)] else [])
  {
  }

  lemma {:induction false} ItemsTotal(gs: seq<Group>, kind: EntryType)
    ensures forall c :: ItemTotal(Items(gs, kind), c) == GroupTotal(gs, kind, c)
  {
    if gs != [] {
      var g := gs[|gs| - 1];
      var prev := Items(gs[..|gs| - 1], kind);
      ItemsTotal(gs[..|gs| - 1], kind);
      ItemsLast(gs, kind);
      var items := Items(gs, kind);
      if g.kind == kind {
        assert items[..|items| - 1] == prev;
        forall c ensures ItemTotal(items, c) == GroupTotal(gs, kind, c) {
          assert ItemTotal(items, c) == ItemTotal(prev, c) + (if g.category == c then g.total else 0);
        }
      } else {
        assert items == prev;
      }
    }
  }

  lemma {:induction false} ItemsHas(gs: seq<Group>, kind: EntryType)
    ensures forall c :: HasItem(Items(gs, kind), c) <==> HasGroup(gs, kind, c)
  {
    if gs != [] {
      var g := gs[|gs| - 1];
      var prev := Items(gs[..|gs| - 1], kind);
      var items := Items(gs, kind);
      ItemsHas(gs[..|gs| - 1], kind);
      ItemsLast(gs, kind);
      forall c ensures HasItem(items, c) <==> HasGroup(gs, kind, c) {
        HasGroupLast(gs, kind, c);
        if HasItem(prev, c) {
          var i :| 0 <= i < |prev| && prev[i].category == c;
          assert items[i] == prev[i];
        }
        if HasItem(items, c) {
          var i :| 0 <= i < |items| && items[i].category == c;
          if i < |prev| { assert prev[i] == items[i]; }
        }
        if g.kind == kind && g.category == c {
          assert items[|prev|].category == c;
        }
      }
    }
  }

  lemma {:induction false} ItemsUnique(gs: seq<Group>, kind: EntryType)
    requires KeysUnique(gs)
    ensures CategoriesUnique(Items(gs, kind))
  {
    if gs != [] {
      var init := gs[..|gs| - 1];
      var g := gs[|gs| - 1];
      var prev := Items(init, kind);
      assert KeysUnique(init);
      ItemsUnique(init, kind);
      ItemsLast(gs, kind);
      if g.kind == kind {
        ItemsHas(init, kind);
        forall i | 0 <= i < |init| ensures init[i].kind != g.kind || init[i].category != g.category {
          assert gs[i] == init[i];
        }
        forall i | 0 <= i < |prev| ensures prev[i].category != g.category {
          if prev[i].category == g.category { assert HasItem(prev, g.category); }
        }
      }
    }
  }

  /** With unique categories, the lookup total of an item's category is that item's amount. */
  lemma {:induction false} ItemTotalAt(items: seq<CashflowItem>, i: int)
    requires CategoriesUnique(items)
    requires 0 <= i < |items|
    ensures ItemTotal(items, items[i].category) == items[i].amount
  {
    var init := items[..|items| - 1];
    if i < |items| - 1 {
      assert init[i] == items[i];
      assert CategoriesUnique(init);
      ItemTotalAt(init, i);
    } else {
      ItemTotalZero(init, items[i].category);
    }
  }

  lemma {:induction false} ItemTotalZero(items: seq<CashflowItem>, c: string)
    requires forall i :: 0 <= i < |items| ==> items[i].category != c
    ensures ItemTotal(items, c) == 0
  {
    if items != [] {
      ItemTotalZero(items[..|items| - 1], c);
    }
  }

  /** Adding up one list is the same as adding up the window's entries of that type. */
  lemma {:induction false} TotalOfItems(s: seq<CashflowEntry>, kind: EntryType)
    ensures Total(Items(GroupTotals(s), kind)) == KindSum(s, kind)
  {
    if s != [] {
      TotalOfItems(s[..|s| - 1], kind);
      TotalAddEntry(GroupTotals(s[..|s| - 1]), s[|s| - 1], kind);
    }
  }

  lemma {:induction false} TotalAddEntry(gs: seq<Group>, e: CashflowEntry, kind: EntryType)
    ensures Total(Items(AddEntry(gs, e), kind)) == Total(Items(gs, kind)) + (if e.kind == kind then e.amount else 0)
  {
    if gs != [] {
      var g := gs[|gs| - 1];
      var init := gs[..|gs| - 1];
      if g.kind == e.kind && g.category == e.category {
        var r := AddEntry(gs, e);
        assert r[..|r| - 1] == init;
      } else {
        TotalAddEntry(init, e, kind);
        var r := AddEntry(gs, e);
        assert r[..|r| - 1] == AddEntry(init, e);
        var tail := if g.kind == kind then [CashflowItem(g.category, g.total)] else [];
        TotalAppend(Items(AddEntry(init, e), kind), tail);
        TotalAppend(Items(init, kind), tail);
      }
    }
  }

  lemma {:induction false} TotalAppend(a: seq<CashflowItem>, b: seq<CashflowItem>)
    ensures Total(a + b) == Total(a) + Total(b)
  {
    if b != [] {
      assert (a + b)[..|a + b| - 1] == a + b[..|b| - 1];
      TotalAppend(a, b[..|b| - 1]);
    } else {
      assert a + b == a;
    }
  }

  /** The net of a window, income minus expenses, is the signed sum of its entries. */
  lemma {:induction false} SignedSumByKind(s: seq<CashflowEntry>)
    ensures SignedSum(s) == KindSum(s, Income) - KindSum(s, Expense)
  {
    if s != [] {
      SignedSumByKind(s[..|s| - 1]);
    }
  }

  /**
   * The breakdown list of one type names each category of that type in the
   * window exactly once, and no other, with the sum of that category's
   * amounts; the list adds up to the window's total for that type.
   */
  lemma BreakdownCorrect(s: seq<CashflowEntry>, kind: EntryType)
    ensures CategoriesUnique(Items(GroupTotals(s), kind))
    ensures forall i :: 0 <= i < |Items(GroupTotals(s), kind)| ==>
      Items(GroupTotals(s), kind)[i].amount == SumWhere(s, kind, Items(GroupTotals(s), kind)[i].category)
    ensures forall c :: HasItem(Items(GroupTotals(s), kind), c) <==> HasEntry(s, kind, c)
    ensures Total(Items(GroupTotals(s), kind)) == KindSum(s, kind)
  {
    var items := Items(GroupTotals(s), kind);
    GroupTotalsCorrect(s);
    ItemsFacts(GroupTotals(s), kind);
    forall i | 0 <= i < |items| ensures items[i].amount == SumWhere(s, kind, items[i].category) {
      ItemTotalAt(items, i);
    }
    TotalOfItems(s, kind);
  }
}

=== FILE: cashflow_api.dfy ===
/**
 * The cashflow ledger API (`api/cashflow.ts`): choosing the reporting window
 * of a GET, the running-balance query over that window, entry validation, and
 * POST / PUT / DELETE applied to the `cashflow_entries` table, here an
 * in-memory sequence of rows.
 */
module CashflowApi {
  import opened Wrappers
  import opened Js
  import opened Types
  import opened Ordering
  import opened Ledger
  import opened Breakdown
  import opened Validation

  /** The smallest value of a PostgreSQL INT column (the type of `id`). */
  const MIN_INT: int := -2147483648

  // ---------------------------------------------------------------------------
  // The reporting window of a GET

  /** What the query string of a GET asks for. */
  datatype WindowChoice = AllTime | LastDays(days: int) | DateRange(from: string, to: string)

  /**
   * A `period` of "7", "30" or "90" wins, and is read with parseInt; otherwise
   * a non-empty `from` and `to` select a date range; otherwise all time.
   */
  function ChooseWindow(query: map<string, string>): (r: WindowChoice)
    ensures r.LastDays? <==> "period" in query && query["period"] in ["7", "30", "90"]
    ensures r.LastDays? ==> ParseInt(query["period"]) == Some(r.days) && r.days in {7, 30, 90}
    ensures r.DateRange? <==> !r.LastDays? && HasParam(query, "from") && HasParam(query, "to")
    ensures r.DateRange? ==> r.from == query["from"] && r.to == query["to"]
  {
    if "period" in query && query["period"] in ["7", "30", "90"] then
      PeriodDays(query["period"]);
      LastDays(ParseInt(query["period"]).value)
    else if HasParam(query, "from") && HasParam(query, "to") then
      DateRange(query["from"], query["to"])
    else
      AllTime
  }

  /** The three accepted periods read back as their numbers of days. */
  lemma PeriodDays(p: string)
    requires p in ["7", "30", "90"]
    ensures ParseInt(p).Some? && ParseInt(p).value in {7, 30, 90}
    ensures p == "7" ==> ParseInt(p) == Some(7)
    ensures p == "30" ==> ParseInt(p) == Some(30)
    ensures p == "90" ==> ParseInt(p) == Some(90)
  {
    assert NatToString(7) == "7";
    assert NatToString(30) == "30";
    assert NatToString(90) == "90";
    ParseIntOfToString(7);
    ParseIntOfToString(30);
    ParseIntOfToString(90);
  }

  /** The rows a window covers, as day numbers. */
  datatype Window = Everything | Since(cutoff: int) | Between(lo: int, hi: int)

  /**
   * The SQL conditions the choice becomes: `date >= (NOW() - days)::date`, or
   * `date BETWEEN from AND to` with both strings cast to dates; None when the
   * database cannot cast a range bound, which ends the request with a server error.
   */
  function ResolveWindow(choice: WindowChoice, today: int, dates: DateReader): Option<Window> {
    match choice
    case AllTime => Some(Everything)
    case LastDays(days) => Some(Since(today - days))
    case DateRange(from, to) =>
      if dates(from).Some? && dates(to).Some? then Some(Between(dates(from).value, dates(to).value)) else None
  }

  /** The log and breakdown condition (`whereClause`). */
  predicate InWindow(w: Window, day: int) {
    match w
    case Everything => true
    case Since(cutoff) => day >= cutoff
    case Between(lo, hi) => lo <= day <= hi
  }

  /** The starting-balance condition (`balanceWhereClause`): strictly before the window. */
  predicate BeforeWindow(w: Window, day: int) {
    match w
    case Everything => false
    case Since(cutoff) => day < cutoff
    case Between(lo, _) => day < lo
  }

  function InWindowFilter(w: Window): CashflowEntry -> bool {
    (e: CashflowEntry) => InWindow(w, e.date)
  }

  function BeforeWindowFilter(w: Window): CashflowEntry -> bool {
    (e: CashflowEntry) => BeforeWindow(w, e.date)
  }

  function WindowRows(table: seq<CashflowEntry>, w: Window): seq<CashflowEntry> {
    Where(table, InWindowFilter(w))
  }

  function EarlierRows(table: seq<CashflowEntry>, w: Window): seq<CashflowEntry> {
    Where(table, BeforeWindowFilter(w))
  }

  /**
   * The window a GET reads, stated in terms of its query string: the last 7,
   * 30 or 90 days counted back from today, the inclusive range between the two
   * dates, or every row.
   */
  lemma WindowSelection(table: seq<CashflowEntry>, query: map<string, string>, today: int, dates: DateReader)
    requires ResolveWindow(ChooseWindow(query), today, dates).Some?
    ensures var w := ResolveWindow(ChooseWindow(query), today, dates).value;
      forall x :: x in WindowRows(table, w) <==>
        x in table &&
        if "period" in query && query["period"] in ["7", "30", "90"] then
          x.date >= today - ParseInt(query["period"]).value
        else if HasParam(query, "from") && HasParam(query, "to") then
          dates(query["from"]).value <= x.date <= dates(query["to"]).value
        else
          true
  {
    var w := ResolveWindow(ChooseWindow(query), today, dates).value;
    WhereMembers(table, InWindowFilter(w));
  }

  /** The balance carried into the window: 0 for all time, else the signed sum of the earlier rows. */
  function StartingBalance(table: seq<CashflowEntry>, w: Window): int {
    if w.Everything? then 0 else SignedSum(EarlierRows(table, w))
  }

  /** The log as fetched: the window's rows ordered by date descending, then id descending. */
  function FetchLog(table: seq<CashflowEntry>, w: Window): seq<CashflowEntry> {
    Reverse(Chronological(WindowRows(table, w)))
  }

  /**
   * The starting balance plus the window's running sum up to an entry of the
   * window is the balance of the whole ledger up to that entry.
   */
  lemma WindowBalance(table: seq<CashflowEntry>, w: Window, e: CashflowEntry)
    requires InWindow(w, e.date)
    ensures StartingBalance(table, w) + SumUpTo(WindowRows(table, w), e) == SumUpTo(table, e)
  {
    BalanceSplit(table, w, e);
  }

  lemma {:induction false} BalanceSplit(table: seq<CashflowEntry>, w: Window, e: CashflowEntry)
    requires InWindow(w, e.date)
    ensures SignedSum(EarlierRows(table, w)) + SumUpTo(WindowRows(table, w), e) == SumUpTo(table, e)
    ensures w.Everything? ==> EarlierRows(table, w) == []
  {
    if table != [] {
      var init := table[..|table| - 1];
      var x := table[|table| - 1];
      BalanceSplit(init, w, e);
      var earlier := EarlierRows(init, w);
      var inside := WindowRows(init, w);
      if InWindow(w, x.date) {
        assert !BeforeWindow(w, x.date);
        assert EarlierRows(table, w) == earlier;
        assert WindowRows(table, w) == inside + [x];
        assert (inside + [x])[..|inside|] == inside;
      } else if BeforeWindow(w, x.date) {
        assert UpTo(x, e);
        assert EarlierRows(table, w) == earlier + [x];
        assert (earlier + [x])[..|earlier|] == earlier;
        assert WindowRows(table, w) == inside;
      } else {
        assert !UpTo(x, e);
        assert EarlierRows(table, w) == earlier;
        assert WindowRows(table, w) == inside;
      }
    }
  }

  /** The fetched log holds exactly the window's rows, each once. */
  lemma FetchLogRows(table: seq<CashflowEntry>, w: Window)
    requires IdsDistinct(table)
    ensures multiset(FetchLog(table, w)) == multiset(WindowRows(table, w))
    ensures IdsDistinct(FetchLog(table, w))
  {
    var rows := WindowRows(table, w);
    WhereIds(table, InWindowFilter(w));
    var c := Chronological(rows);
    assert IdsDistinct(c) && multiset(c) == multiset(rows);
    ReverseMultiset(c);
    ReverseIds(c);
  }

  /** The fetched log is ordered by date descending, then id descending (`ORDER BY date DESC, id DESC`). */
  lemma FetchLogNewestFirst(table: seq<CashflowEntry>, w: Window)
    requires IdsDistinct(table)
    ensures forall i, j :: 0 <= i < j < |FetchLog(table, w)| ==>
      KeyLt(ChronoKey(FetchLog(table, w)[j]), ChronoKey(FetchLog(table, w)[i]))
  {
    WhereIds(table, InWindowFilter(w));
    ReverseDescending(Chronological(WindowRows(table, w)), ChronoKey);
  }

  /**
   * The running balance of a fetched row, computed over the window alone from
   * the starting balance, is the balance of the whole ledger up to that row.
   */
  lemma FetchLogBalance(table: seq<CashflowEntry>, w: Window, i: int)
    requires IdsDistinct(table)
    requires 0 <= i < |FetchLog(table, w)|
    ensures StartingBalance(table, w) + SumUpTo(FetchLog(table, w), FetchLog(table, w)[i])
      == SumUpTo(table, FetchLog(table, w)[i])
  {
    var log := FetchLog(table, w);
    var rows := WindowRows(table, w);
    var e := log[i];
    FetchLogRows(table, w);
    assert e in multiset(rows);
    assert e in rows;
    WhereMembers(table, InWindowFilter(w));
    assert InWindow(w, e.date);
    SumUpToPermutation(log, rows, e);
    WindowBalance(table, w, e);
  }

  // ---------------------------------------------------------------------------
  // getFilteredCashflowData

  /**
   * The walk over the chronological copy: add each entry's signed amount to
   * the current balance and record the balance under the entry's id.
   */
  method RecordBalances(startingBalance: int, chronological: seq<CashflowEntry>) returns (balanceHistory: map<int, int>)
    requires IdsDistinct(chronological)
    ensures forall j :: 0 <= j < |chronological| ==>
      chronological[j].id in balanceHistory &&
      balanceHistory[chronological[j].id] == startingBalance + SignedSum(chronological[..j + 1])
  {
    balanceHistory := map[];
    var currentBalance := startingBalance;
    for k := 0 to |chronological|
      invariant currentBalance == startingBalance + SignedSum(chronological[..k])
      invariant forall j {:trigger chronological[j]} :: 0 <= j < k ==>
        chronological[j].id in balanceHistory &&
        balanceHistory[chronological[j].id] == startingBalance + SignedSum(chronological[..j + 1])
    {
      var entry := chronological[k];
      assert chronological[..k + 1][..k] == chronological[..k];
      currentBalance := currentBalance + (if entry.kind == Income then entry.amount else -entry.amount);
      forall j | 0 <= j < k ensures chronological[j].id != entry.id {
      }
      balanceHistory := balanceHistory[entry.id := currentBalance];
    }
  }

  /**
   * Attach running balances and split the breakdown. `log` is the window's
   * rows in fetched order and `groups` the grouped sums; a copy of the log is
   * sorted chronologically and walked once, recording each id's balance.
   */
  method GetFilteredCashflowData(startingBalance: int, log: seq<CashflowEntry>, groups: seq<Group>)
    returns (data: CashflowData)
    requires IdsDistinct(log)
    ensures |data.dailyLog| == |log|
    ensures forall i :: 0 <= i < |log| ==> data.dailyLog[i].entry == log[i]
    ensures forall i :: 0 <= i < |log| ==>
      data.dailyLog[i].runningBalance == startingBalance + SumUpTo(log, log[i])
    ensures data.income == Items(groups, Income) && data.expenses == Items(groups, Expense)
  {
    var chronological := Chronological(log);
    var balanceHistory := RecordBalances(startingBalance, chronological);

    var dailyLog := seq(|log|, i requires 0 <= i < |log| =>
      DailyLogEntry(log[i], if log[i].id in balanceHistory then balanceHistory[log[i].id] else 0));
    forall i | 0 <= i < |log| ensures dailyLog[i].runningBalance == startingBalance + SumUpTo(log, log[i]) {
      assert log[i] in multiset(chronological);
      var p :| 0 <= p < |chronological| && chronological[p] == log[i];
      SortedPrefixSum(chronological, p);
      SumUpToPermutation(chronological, log, log[i]);
    }

    var income, expenses := SplitGroups(groups);
    data := CashflowData(income, expenses, dailyLog);
  }

  /** The walk over the grouped sums: each goes to the income or the expense list by its type. */
  method SplitGroups(groups: seq<Group>) returns (income: seq<CashflowItem>, expenses: seq<CashflowItem>)
    ensures income == Items(groups, Income) && expenses == Items(groups, Expense)
  {
    income := [];
    expenses := [];
    for k := 0 to |groups|
      invariant income == Items(groups[..k], Income)
      invariant expenses == Items(groups[..k], Expense)
    {
      var row := groups[k];
      assert groups[..k + 1][..k] == groups[..k];
      if row.kind == Income {
        income := income + [CashflowItem(row.category, row.total)];
      } else {
        expenses := expenses + [CashflowItem(row.category, row.total)];
      }
    }
    assert groups[..|groups|] == groups;
  }

  /**
   * data is the GET listing of window w: the window's rows newest first, each
   * with the balance of the whole table up to and including it, and the
   * window's income and expense breakdown.
   */
  ghost predicate IsListing(data: CashflowData, table: seq<CashflowEntry>, w: Window) {
    var log := FetchLog(table, w);
    |data.dailyLog| == |log| &&
    (forall i :: 0 <= i < |log| ==>
      data.dailyLog[i].entry == log[i] && data.dailyLog[i].runningBalance == SumUpTo(table, log[i])) &&
    data.income == Items(GroupTotals(WindowRows(table, w)), Income) &&
    data.expenses == Items(GroupTotals(WindowRows(table, w)), Expense)
  }

  // ---------------------------------------------------------------------------
  // validateEntry

  const MSG_BODY_MISSING := "Request body is missing."
  const MSG_BAD_ID := "Invalid or missing ID for update."
  const MSG_BAD_DATE := "Invalid or missing date."
  const MSG_BAD_TYPE := "Invalid or missing type."
  const MSG_BAD_CATEGORY := "Invalid or missing category."
  const MSG_BAD_DESCRIPTION := "Invalid or missing description."
  /** The bound is printed as the double nearest to 2^63 - 1. */
  const MSG_BAD_AMOUNT := "Amount must be a positive number less than or equal to 9223372036854776000."
  const MSG_NOT_FOUND := "Entry not found"
  const MSG_BAD_IDS := "Invalid ID or IDs provided."

  predicate PositiveNumber(j: Json) {
    j.Number? && j.n.digits > 0
  }

  predicate EntryKind(j: Json) {
    j == Str("income") || j == Str("expense")
  }

  predicate AcceptedAmount(j: Json) {
    j.Number? && j.n.digits > 0 && AtMost(j.n, MAX_BIGINT)
  }

  /** The checks of validateEntry in the order it makes them, each with its message. */
  function EntryChecks(body: Json, isUpdate: bool, dates: DateReader): seq<Check> {
    (if isUpdate then [Check(PositiveNumber(Get(body, "id")), MSG_BAD_ID)] else []) + FieldChecks(body, dates)
  }

  /** The checks made of every body, update or not. */
  function FieldChecks(body: Json, dates: DateReader): seq<Check> {
    [ Check(ReadableDate(Get(body, "date"), dates), MSG_BAD_DATE),
      Check(EntryKind(Get(body, "type")), MSG_BAD_TYPE),
      Check(NonBlankString(Get(body, "category")), MSG_BAD_CATEGORY),
      Check(Get(body, "description").Str?, MSG_BAD_DESCRIPTION),
      Check(AcceptedAmount(Get(body, "amount")), MSG_BAD_AMOUNT) ]
  }

  /**
   * The message of the first failing check, or None. Nothing requires the id
   * or the amount to be a whole number.
   */
  function ValidateEntry(body: Json, isUpdate: bool, dates: DateReader): (r: Option<string>)
    ensures r == FirstFailure(EntryChecks(body, isUpdate, dates))
    ensures r.None? <==>
      (isUpdate ==> PositiveNumber(Get(body, "id"))) && ReadableDate(Get(body, "date"), dates) &&
      EntryKind(Get(body, "type")) && NonBlankString(Get(body, "category")) &&
      Get(body, "description").Str? && AcceptedAmount(Get(body, "amount"))
  {
    var id := Get(body, "id");
    var date := Get(body, "date");
    var kind := Get(body, "type");
    var category := Get(body, "category");
    var description := Get(body, "description");
    var amount := Get(body, "amount");
    var fc := FieldChecks(body, dates);
    assert FirstFailure(fc[4..]) == if !fc[4].ok then Some(fc[4].message) else FirstFailure(fc[5..]);
    assert FirstFailure(fc[3..]) == if !fc[3].ok then Some(fc[3].message) else FirstFailure(fc[4..]);
    assert FirstFailure(fc[2..]) == if !fc[2].ok then Some(fc[2].message) else FirstFailure(fc[3..]);
    assert FirstFailure(fc[1..]) == if !fc[1].ok then Some(fc[1].message) else FirstFailure(fc[2..]);
    assert FirstFailure(fc) == if !fc[0].ok then Some(fc[0].message) else FirstFailure(fc[1..]);
    var cs := EntryChecks(body, isUpdate, dates);
    assert !isUpdate ==> cs == fc;
    assert isUpdate ==> cs[1..] == fc && FirstFailure(cs) == if !cs[0].ok then Some(MSG_BAD_ID) else FirstFailure(fc);
    if isUpdate && !(id.Number? && id.n.digits > 0) then Some(MSG_BAD_ID)
    else if !date.Str? || date.s == "" || dates(date.s).None? then Some(MSG_BAD_DATE)
    else if kind != Str("income") && kind != Str("expense") then Some(MSG_BAD_TYPE)
    else if !category.Str? || category.s == "" || IsBlank(category.s) then
      Some(MSG_BAD_CATEGORY)
    else if !description.Str? then Some(MSG_BAD_DESCRIPTION)
    else if !amount.Number? || amount.n.digits <= 0 || !AtMost(amount.n, MAX_BIGINT) then Some(MSG_BAD_AMOUNT)
    else None
  }

  // ---------------------------------------------------------------------------
  // The table and the request handler

  /** What the handler answers, without the HTTP plumbing. */
  datatype Response =
    | Listed(data: CashflowData)          // 200 with the query result
    | Created(entry: CashflowEntry)        // 201 with the new row
    | Updated(entry: CashflowEntry)        // 200 with the updated row
    | NoContent                            // 204
    | BadRequest(message: string)          // 400
    | NotFound(message: string)            // 404
    | MethodNotAllowed(allow: seq<string>) // 405 with an Allow header
    | ServerError                          // 500: the database refused the statement

  /** What every stored row satisfies when rows enter only through POST and PUT. */
  predicate StoredRow(e: CashflowEntry) {
    0 < e.amount <= MAX_BIGINT && IsTrimmed(e.category) && e.category != "" && |e.category| <= MAX_VARCHAR &&
    IsTrimmed(e.description) && StorableText(e.category) && StorableText(e.description)
  }

  /** The row POST or PUT writes for an accepted body: category and description trimmed. */
  function EntryFromBody(id: int, body: Json, dates: DateReader): (e: CashflowEntry)
    requires ValidateEntry(body, false, dates).None?
    requires DatabaseAccepts(body, false)
    ensures StoredRow(e)
  {
    var category := Trim(Get(body, "category").s);
    assert category != [];
    CashflowEntry(
      id,
      dates(Get(body, "date").s).value,
      if Get(body, "type") == Str("income") then Income else Expense,
      category,
      Trim(Get(body, "description").s),
      Get(body, "amount").n.digits)
  }

  /** An accepted update body is also an accepted insert body. */
  lemma UpdateBodyInsertable(body: Json, dates: DateReader)
    requires ValidateEntry(body, true, dates).None?
    ensures ValidateEntry(body, false, dates).None?
  {
  }

  /** A whole number that fits the INT id column. */
  predicate IntId(n: Decimal) {
    IsInteger(n) && MIN_INT <= n.digits <= MAX_INT
  }

  /**
   * The database takes the statement's parameters: the amount is a whole
   * number for the BIGINT column, the trimmed category fits VARCHAR(255), the
   * trimmed category and description hold no U+0000, and an update's id fits
   * the INT column. Otherwise the statement fails.
   */
  predicate DatabaseAccepts(body: Json, isUpdate: bool) {
    var amount := Get(body, "amount");
    var category := Get(body, "category");
    var description := Get(body, "description");
    var id := Get(body, "id");
    amount.Number? && IsInteger(amount.n) &&
    category.Str? && |Trim(category.s)| <= MAX_VARCHAR && StorableText(Trim(category.s)) &&
    (description.Str? ==> StorableText(Trim(description.s))) &&
    (isUpdate ==> id.Number? && IntId(id.n))
  }

  /**
   * Trimming keeps U+0000, so a category or description holding it makes the
   * statement fail, whatever else the body holds.
   */
  lemma NulTextRefused(body: Json, isUpdate: bool)
    requires Get(body, "category").Str? || Get(body, "description").Str?
    requires Get(body, "category").Str? ==> !StorableText(Get(body, "category").s)
    requires Get(body, "description").Str? ==> !StorableText(Get(body, "description").s)
    ensures !DatabaseAccepts(body, isUpdate)
  {
    var text := if Get(body, "category").Str? then Get(body, "category").s else Get(body, "description").s;
    var k :| 0 <= k < |text| && text[k] == '\0';
    TrimKeeps(text, k);
    var j :| 0 <= j < |Trim(text)| && Trim(text)[j] == text[k];
    assert Trim(text)[j] == '\0';
  }

  /** The position of the row with this id, if there is one. */
  function IndexOfId(s: seq<CashflowEntry>, id: int): (r: Option<nat>)
    ensures r.Some? ==> r.value < |s| && s[r.value].id == id
    ensures r.None? ==> forall i :: 0 <= i < |s| ==> s[i].id != id
  {
    if s == [] then None
    else if s[|s| - 1].id == id then Some(|s| - 1)
    else IndexOfId(s[..|s| - 1], id)
  }

  /** `DELETE ... WHERE id = ANY(ids)` keeps the rows whose id is not listed. */
  function NotListed(ids: set<int>): CashflowEntry -> bool {
    (e: CashflowEntry) => e.id !in ids
  }

  /** The body asks for a bulk delete: `ids` is an array of numbers. */
  predicate IsBulk(body: Json) {
    var ids := Get(body, "ids");
    ids.Array? && forall i :: 0 <= i < |ids.items| ==> ids.items[i].Number?
  }

  function IdSet(items: seq<Json>): set<int> {
    set i | 0 <= i < |items| && items[i].Number? :: items[i].n.digits
  }

  predicate AllIntIds(items: seq<Json>) {
    forall i :: 0 <= i < |items| ==> items[i].Number? && IntId(items[i].n)
  }

  /**
   * The table's invariant: the id sequence has not gone below its start; ids
   * are distinct (the primary key), positive and no greater than the last id
   * handed out; and every row is a stored row.
   */
  predicate TableInvariant(rows: seq<CashflowEntry>, lastId: int) {
    lastId >= 0 && IdsDistinct(rows) && forall i :: 0 <= i < |rows| ==> 0 < rows[i].id <= lastId && StoredRow(rows[i])
  }

  /** POST keeps the invariant: the new row takes the next id. */
  lemma InsertKeepsInvariant(rows: seq<CashflowEntry>, lastId: int, e: CashflowEntry)
    requires TableInvariant(rows, lastId)
    requires e.id == lastId + 1 && StoredRow(e)
    ensures TableInvariant(rows + [e], lastId + 1)
  {
    var r := rows + [e];
    assert forall i :: 0 <= i < |rows| ==> r[i] == rows[i] && r[i].id != e.id;
    assert r[|rows|] == e;
  }

  /** `UPDATE ... WHERE id = e.id`: every row with that id becomes e. */
  function UpdateRows(rows: seq<CashflowEntry>, e: CashflowEntry): (r: seq<CashflowEntry>)
    ensures |r| == |rows|
  {
    seq(|rows|, i requires 0 <= i < |rows| => if rows[i].id == e.id then e else rows[i])
  }

  /** PUT keeps the invariant: the updated row keeps its id. */
  lemma UpdateKeepsInvariant(rows: seq<CashflowEntry>, lastId: int, e: CashflowEntry)
    requires TableInvariant(rows, lastId)
    requires IndexOfId(rows, e.id).Some? && StoredRow(e)
    ensures TableInvariant(UpdateRows(rows, e), lastId)
  {
    var r := UpdateRows(rows, e);
    forall i, j | 0 <= i < |r| && 0 <= j < |r| && r[i].id == r[j].id ensures i == j {
      assert rows[i].id == r[i].id && rows[j].id == r[j].id;
    }
  }

  /** DELETE keeps the invariant: what is left is part of what was there. */
  lemma DeleteKeepsInvariant(rows: seq<CashflowEntry>, lastId: int, keep: CashflowEntry -> bool)
    requires TableInvariant(rows, lastId)
    ensures TableInvariant(Where(rows, keep), lastId)
  {
    WhereIds(rows, keep);
    WhereMembers(rows, keep);
    var kept := Where(rows, keep);
    forall i | 0 <= i < |kept| ensures 0 < kept[i].id <= lastId && StoredRow(kept[i]) {
      assert kept[i] in rows;
    }
  }

  class CashflowTable {
    var rows: seq<CashflowEntry>
    /** The last value handed out by the id sequence (`SERIAL`). */
    var lastId: int

    ghost predicate Valid()
      reads this
    {
      TableInvariant(rows, lastId)
    }

    /** An empty table whose id sequence has not been used. */
    constructor()
      ensures Valid() && rows == [] && lastId == 0
    {
      rows := [];
      lastId := 0;
    }

    /**
     * GET: every row of the window, newest first, each with the balance of the
     * whole ledger up to and including it, and the window's income and expense
     * breakdown.
     */
    method HandleGet(query: map<string, string>, today: int, dates: DateReader) returns (res: Response)
      requires Valid()
      ensures res.Listed? || res.ServerError?
      ensures res.ServerError? <==> ResolveWindow(ChooseWindow(query), today, dates).None?
      ensures res.Listed? ==> IsListing(res.data, rows, ResolveWindow(ChooseWindow(query), today, dates).value)
    {
      var window := ResolveWindow(ChooseWindow(query), today, dates);
      if window.None? {
        return ServerError;
      }
      var data := ListWindow(window.value);
      res := Listed(data);
    }

    /** The listing of one resolved window. */
    method ListWindow(w: Window) returns (data: CashflowData)
      requires Valid()
      ensures IsListing(data, rows, w)
    {
      var log := FetchLog(rows, w);
      FetchLogRows(rows, w);
      data := GetFilteredCashflowData(StartingBalance(rows, w), log, GroupTotals(WindowRows(rows, w)));
      forall i | 0 <= i < |log| ensures data.dailyLog[i].runningBalance == SumUpTo(rows, log[i]) {
        FetchLogBalance(rows, w, i);
      }
    }

    /** POST: insert an accepted entry under the next id and return it. */
    method HandlePost(body: Json, dates: DateReader) returns (res: Response)
      requires Valid()
      modifies this
      ensures Valid()
      ensures !Truthy(body) ==> res == BadRequest(MSG_BODY_MISSING)
      ensures Truthy(body) && ValidateEntry(body, false, dates).Some? ==>
        res == BadRequest(ValidateEntry(body, false, dates).value)
      ensures Truthy(body) && ValidateEntry(body, false, dates).None? && !DatabaseAccepts(body, false) ==>
        res == ServerError
      ensures Truthy(body) && ValidateEntry(body, false, dates).None? && DatabaseAccepts(body, false) ==>
        res == Created(EntryFromBody(old(lastId) + 1, body, dates)) &&
        rows == old(rows) + [res.entry] && lastId == old(lastId) + 1
      ensures !res.Created? ==> rows == old(rows) && lastId == old(lastId)
    {
      if !Truthy(body) {
        return BadRequest(MSG_BODY_MISSING);
      }
      var validationError := ValidateEntry(body, false, dates);
      if validationError.Some? {
        return BadRequest(validationError.value);
      }
      if !DatabaseAccepts(body, false) {
        return ServerError;
      }
      var entry := EntryFromBody(lastId + 1, body, dates);
      InsertKeepsInvariant(rows, lastId, entry);
      lastId := lastId + 1;
      rows := rows + [entry];
      res := Created(entry);
    }

    /** PUT: overwrite the row with the body's id, keeping that id; 404 when there is none. */
    method HandlePut(body: Json, dates: DateReader) returns (res: Response)
      requires Valid()
      modifies this
      ensures Valid()
      ensures lastId == old(lastId)
      ensures !Truthy(body) ==> res == BadRequest(MSG_BODY_MISSING)
      ensures Truthy(body) && ValidateEntry(body, true, dates).Some? ==>
        res == BadRequest(ValidateEntry(body, true, dates).value)
      ensures Truthy(body) && ValidateEntry(body, true, dates).None? ==>
        var id := Get(body, "id").n;
        if !DatabaseAccepts(body, true) then res == ServerError
        else if IndexOfId(old(rows), id.digits).None? then res == NotFound(MSG_NOT_FOUND)
        else res == Updated(EntryFromBody(id.digits, body, dates)) && rows == UpdateRows(old(rows), res.entry)
      ensures !res.Updated? ==> rows == old(rows)
    {
      if !Truthy(body) {
        return BadRequest(MSG_BODY_MISSING);
      }
      var validationError := ValidateEntry(body, true, dates);
      if validationError.Some? {
        return BadRequest(validationError.value);
      }
      UpdateBodyInsertable(body, dates);
      var id := Get(body, "id").n;
      if !DatabaseAccepts(body, true) {
        return ServerError;
      }
      if IndexOfId(rows, id.digits).None? {
        return NotFound(MSG_NOT_FOUND);
      }
      var entry := EntryFromBody(id.digits, body, dates);
      UpdateKeepsInvariant(rows, lastId, entry);
      rows := UpdateRows(rows, entry);
      res := Updated(entry);
    }

    /**
     * DELETE: an array of numeric `ids` removes every listed row (an empty one
     * removes nothing, and unknown ids are ignored); otherwise a numeric `id`
     * removes its row or answers 404; anything else is a bad request.
     */
    method HandleDelete(body: Json) returns (res: Response)
      requires Valid()
      modifies this
      ensures Valid()
      ensures lastId == old(lastId)
      ensures body.Undefined? || body.Null? ==> res == ServerError
      ensures !(body.Undefined? || body.Null?) && IsBulk(body) ==>
        var items := Get(body, "ids").items;
        if items == [] then res == NoContent
        else if !AllIntIds(items) then res == ServerError
        else res == NoContent && rows == Where(old(rows), NotListed(IdSet(items)))
      ensures !(body.Undefined? || body.Null?) && !IsBulk(body) && Get(body, "id").Number? ==>
        var id := Get(body, "id").n;
        if !IntId(id) then res == ServerError
        else if IndexOfId(old(rows), id.digits).None? then res == NotFound(MSG_NOT_FOUND)
        else res == NoContent && rows == Where(old(rows), NotListed({id.digits}))
      ensures !(body.Undefined? || body.Null?) && !IsBulk(body) && !Get(body, "id").Number? ==>
        res == BadRequest(MSG_BAD_IDS)
      ensures res != NoContent || (IsBulk(body) && Get(body, "ids").items == []) ==> rows == old(rows)
    {
      if body.Undefined? || body.Null? {
        // Destructuring `undefined` or `null` throws.
        return ServerError;
      }
      var ids := Get(body, "ids");
      var id := Get(body, "id");
      if IsBulk(body) {
        if |ids.items| == 0 {
          return NoContent;
        }
        if !AllIntIds(ids.items) {
          // The `int[]` cast refuses a fraction or an out-of-range number.
          return ServerError;
        }
        DeleteKeepsInvariant(rows, lastId, NotListed(IdSet(ids.items)));
        rows := Where(rows, NotListed(IdSet(ids.items)));
        return NoContent;
      } else if id.Number? {
        if !IntId(id.n) {
          return ServerError;
        }
        if IndexOfId(rows, id.n.digits).None? {
          return NotFound(MSG_NOT_FOUND);
        }
        DeleteKeepsInvariant(rows, lastId, NotListed({id.n.digits}));
        rows := Where(rows, NotListed({id.n.digits}));
        return NoContent;
      } else {
        return BadRequest(MSG_BAD_IDS);
      }
    }

    /** The handler: dispatch on the request method; any other method is not allowed. */
    method Handle(verb: string, body: Json, query: map<string, string>, today: int, dates: DateReader)
      returns (res: Response)
      requires Valid()
      modifies this
      ensures Valid()
      ensures verb !in {"GET", "POST", "PUT", "DELETE"} ==>
        res == MethodNotAllowed(["GET", "POST", "PUT", "DELETE"]) && rows == old(rows) && lastId == old(lastId)
      ensures verb == "GET" ==> rows == old(rows) && lastId == old(lastId)
    {
      if verb == "GET" {
        res := HandleGet(query, today, dates);
      } else if verb == "POST" {
        res := HandlePost(body, dates);
      } else if verb == "PUT" {
        res := HandlePut(body, dates);
      } else if verb == "DELETE" {
        res := HandleDelete(body);
      } else {
        res := MethodNotAllowed(["GET", "POST", "PUT", "DELETE"]);
      }
    }
  }

  /** A delete removes exactly the listed rows: a row survives iff its id is not listed. */
  lemma DeleteRemovesListed(table: seq<CashflowEntry>, ids: set<int>)
    ensures forall x :: x in Where(table, NotListed(ids)) <==> x in table && x.id !in ids
  {
    WhereMembers(table, NotListed(ids));
  }

  /** An update changes only the row with the entry's id, and it then holds the entry. */
  lemma UpdateChangesOneRow(rows: seq<CashflowEntry>, e: CashflowEntry)
    requires IdsDistinct(rows)
    requires IndexOfId(rows, e.id).Some?
    ensures var k := IndexOfId(rows, e.id).value;
      UpdateRows(rows, e) == rows[k := e]
  {
  }
}

=== FILE: cashflow_page.dfy ===
/**
 * The cashflow page without its DOM: the table's sort state, the selection of
 * entries with its select-all box, the timeframe filter and the request it
 * sends, the top-five breakdown and the totals, bulk delete, and the entry
 * form's submit guard.
 */
module CashflowPage {
  import opened Wrappers
  import opened Js
  import opened Types
  import opened Ordering
  import opened Ledger
  import opened Breakdown
  import opened Validation
  import opened CashflowApi

  /** The column the log table is sorted by. */
  datatype SortKey = ByDate | ByType | ByCategory

  datatype Direction = Asc | Desc

  /** The timeframe buttons: all time, the last 90, 30 or 7 days, or a custom range. */
  datatype Timeframe = All | Last90 | Last30 | Last7 | Custom

  /** The three states of the select-all box. */
  datatype SelectAllBox = Checked | Indeterminate | Unchecked

  /** The `period` value a fixed-length timeframe sends. */
  function PeriodText(t: Timeframe): string
    requires t != All && t != Custom
  {
    match t
    case Last90 => "90"
    case Last30 => "30"
    case Last7 => "7"
  }

  /** The query string the page sends for a timeframe and the two date inputs. */
  function RequestParams(t: Timeframe, from: string, to: string): map<string, string> {
    if t == Custom && from != "" && to != "" then map["from" := from, "to" := to]
    else if t != All && t != Custom then map["period" := PeriodText(t)]
    else map[]
  }

  /**
   * The request selects on the server the window the page shows: a fixed
   * timeframe its last days, a custom range with both dates set that range,
   * and everything else all time.
   */
  lemma RequestSelectsWindow(t: Timeframe, from: string, to: string)
    ensures ChooseWindow(RequestParams(t, from, to)) ==
      match t
      case All => AllTime
      case Last90 => LastDays(90)
      case Last30 => LastDays(30)
      case Last7 => LastDays(7)
      case Custom => if from != "" && to != "" then DateRange(from, to) else AllTime
  {
    var q := RequestParams(t, from, to);
    if t != All && t != Custom {
      PeriodDays(PeriodText(t));
    }
    assert t == Custom && from != "" && to != "" ==> "period" !in q;
  }

  /** Every visible id is selected. */
  predicate AllSelected(visible: seq<int>, selected: set<int>) {
    forall i :: 0 <= i < |visible| ==> visible[i] in selected
  }

  /** Some visible id is selected. */
  predicate AnySelected(visible: seq<int>, selected: set<int>) {
    exists i :: 0 <= i < |visible| && visible[i] in selected
  }

  /** The select-all box as the selection leaves it. */
  function SelectAllState(visible: seq<int>, selected: set<int>): SelectAllBox {
    if |visible| > 0 && AllSelected(visible, selected) then Checked
    else if AnySelected(visible, selected) then Indeterminate
    else Unchecked
  }

  /**
   * The box is checked exactly when there are visible rows and all are
   * selected, indeterminate exactly when some but not all are, and clear
   * exactly when none is.
   */
  lemma SelectAllStates(visible: seq<int>, selected: set<int>)
    ensures SelectAllState(visible, selected) == Checked <==> |visible| > 0 && AllSelected(visible, selected)
    ensures SelectAllState(visible, selected) == Indeterminate <==>
      AnySelected(visible, selected) && !AllSelected(visible, selected)
    ensures SelectAllState(visible, selected) == Unchecked <==> !AnySelected(visible, selected)
  {
    if |visible| > 0 && AllSelected(visible, selected) {
      assert visible[0] in selected;
    }
  }

  /** The key that orders breakdown items by amount, largest first. */
  function ByAmountDesc(item: CashflowItem): Key {
    Key(-item.amount, 0)
  }

  /**
   * The breakdown list: the items sorted by amount, largest first (a stable
   * sort of a copy), cut to five.
   */
  function TopFive(items: seq<CashflowItem>): (r: seq<CashflowItem>)
    ensures |r| == if |items| < 5 then |items| else 5
    ensures multiset(r) <= multiset(items)
    ensures forall i, j :: 0 <= i < j < |r| ==> r[i].amount >= r[j].amount
  {
    var sorted := SortBy(items, ByAmountDesc);
    var n := if |sorted| < 5 then |sorted| else 5;
    SortedPrefix(sorted, n);
    sorted[..n]
  }

  /** A prefix of the items sorted largest first is part of them and still sorted. */
  lemma SortedPrefix(sorted: seq<CashflowItem>, n: nat)
    requires SortedBy(sorted, ByAmountDesc) && n <= |sorted|
    ensures multiset(sorted[..n]) <= multiset(sorted)
    ensures forall i, j :: 0 <= i < j < n ==> sorted[..n][i].amount >= sorted[..n][j].amount
  {
    PrefixSplit(sorted, n);
    forall i, j | 0 <= i < j < n ensures sorted[..n][i].amount >= sorted[..n][j].amount {
      assert sorted[..n][i] == sorted[i] && sorted[..n][j] == sorted[j];
      assert KeyLe(ByAmountDesc(sorted[i]), ByAmountDesc(sorted[j]));
    }
  }

  /** No item left out of the list has a larger amount than one shown. */
  lemma TopFiveIsTop(items: seq<CashflowItem>)
    ensures forall x, y :: x in multiset(items) - multiset(TopFive(items)) && y in TopFive(items) ==>
      y.amount >= x.amount
  {
    var sorted := SortBy(items, ByAmountDesc);
    var r := TopFive(items);
    var n := |r|;
    assert r == sorted[..n];
    PrefixSplit(sorted, n);
    assert multiset(items) - multiset(r) == multiset(sorted[n..]);
    PrefixIsTop(sorted, n);
    forall x, y | x in multiset(items) - multiset(r) && y in r ensures y.amount >= x.amount {
      assert x in multiset(sorted[n..]) && y in sorted[..n];
    }
  }

  /** A sequence holds its prefix and the rest, and nothing else. */
  lemma PrefixSplit<T>(s: seq<T>, n: nat)
    requires n <= |s|
    ensures multiset(s) == multiset(s[..n]) + multiset(s[n..])
  {
    assert s == s[..n] + s[n..];
  }

  /** In the items sorted by amount, largest first, a prefix holds the largest amounts. */
  lemma PrefixIsTop(sorted: seq<CashflowItem>, n: nat)
    requires SortedBy(sorted, ByAmountDesc) && n <= |sorted|
    ensures forall x, y :: x in multiset(sorted[n..]) && y in sorted[..n] ==> y.amount >= x.amount
  {
    forall x, y | x in multiset(sorted[n..]) && y in sorted[..n] ensures y.amount >= x.amount {
      assert x in sorted[n..];
      var k :| n <= k < |sorted| && sorted[k] == x;
      var i :| 0 <= i < n && sorted[i] == y;
      assert KeyLe(ByAmountDesc(sorted[i]), ByAmountDesc(sorted[k]));
    }
  }

  /** Net profit: the income items' total less the expense items' total. */
  function NetProfit(data: CashflowData): int {
    Total(data.income) - Total(data.expenses)
  }

  /**
   * For the breakdown the server returns for a window, the net profit is the
   * window's signed sum: income counted up, expenses down.
   */
  lemma NetProfitOfWindow(window: seq<CashflowEntry>, log: seq<DailyLogEntry>)
    ensures NetProfit(CashflowData(Items(GroupTotals(window), Income), Items(GroupTotals(window), Expense), log)) ==
      SignedSum(window)
  {
    TotalOfItems(window, Income);
    TotalOfItems(window, Expense);
    SignedSumByKind(window);
  }

  // ---------------------------------------------------------------------------
  // The entry form

  /** What the entry form holds when it is submitted. */
  datatype EntryForm = EntryForm(date: string, kind: string, category: string, description: string, amount: string)

  /** The amount field read with `parseInt`; NaN is sent as JSON null. */
  function AmountJson(text: string): Json {
    var n := ParseInt(text);
    if n.Some? then Number(FromInt(n.value)) else Null
  }

  /**
   * The body the form sends: category and description trimmed, the amount
   * read with `parseInt`, and the id only when an entry is being revised.
   */
  function FormBody(form: EntryForm, editingId: Option<int>): Json {
    var fields := EntryFields(Str(form.date), Str(form.kind), Str(Trim(form.category)),
      Str(Trim(form.description)), AmountJson(form.amount));
    if editingId.Some? && editingId.value != 0 then Object(fields["id" := Number(FromInt(editingId.value))])
    else Object(fields)
  }

  /** A request to the cashflow endpoint: its HTTP method and its JSON body. */
  datatype ApiCall = ApiCall(verb: string, body: Json)

  /** `if (currentEditingId)`: a revision is saved with PUT, a new entry with POST (the id 0 is falsy). */
  function SubmitVerb(editingId: Option<int>): string {
    if editingId.Some? && editingId.value != 0 then "PUT" else "POST"
  }

  /** A PUT carries the id of the entry being revised, and a POST carries no id. */
  lemma PutCarriesId(form: EntryForm, editingId: Option<int>)
    ensures SubmitVerb(editingId) == "PUT" <==> "id" in FormBody(form, editingId).fields
    ensures SubmitVerb(editingId) == "PUT" ==> Get(FormBody(form, editingId), "id") == Number(FromInt(editingId.value))
  {
    if editingId.Some? && editingId.value != 0 {
      FormBodyWithId(form, editingId.value);
    } else {
      PlainBodyHasNoId(form);
    }
  }

  /** The body of a new entry holds its five fields and no id. */
  lemma PlainBodyHasNoId(form: EntryForm)
    ensures FormBody(form, None).Object? && "id" !in FormBody(form, None).fields
  {
    EntryFieldsHaveNoId(Str(form.date), Str(form.kind), Str(Trim(form.category)),
      Str(Trim(form.description)), AmountJson(form.amount));
  }

  /** The five fields of an entry body do not include an id. */
  lemma EntryFieldsHaveNoId(date: Json, kind: Json, category: Json, description: Json, amount: Json)
    ensures "id" !in EntryFields(date, kind, category, description, amount)
  {
  }

  /** The submit guard: a date, a category that is not blank, and a positive whole amount. */
  predicate SubmitAllowed(form: EntryForm) {
    var amount := ParseInt(form.amount);
    form.date != "" && Trim(form.category) != "" && amount.Some? && amount.value > 0
  }

  /** The fields of the body the form sends, one by one. */
  lemma FormBodyFields(form: EntryForm)
    ensures Get(FormBody(form, None), "date") == Str(form.date)
    ensures Get(FormBody(form, None), "type") == Str(form.kind)
    ensures Get(FormBody(form, None), "category") == Str(Trim(form.category))
    ensures Get(FormBody(form, None), "description") == Str(Trim(form.description))
    ensures Get(FormBody(form, None), "amount") == AmountJson(form.amount)
  {
    EntryFieldsGet(Str(form.date), Str(form.kind), Str(Trim(form.category)),
      Str(Trim(form.description)), AmountJson(form.amount));
  }

  /** The five fields of an entry body. */
  function EntryFields(date: Json, kind: Json, category: Json, description: Json, amount: Json): map<string, Json> {
    map["date" := date, "type" := kind, "category" := category, "description" := description, "amount" := amount]
  }

  lemma EntryFieldsGet(date: Json, kind: Json, category: Json, description: Json, amount: Json)
    ensures
      var body := Object(EntryFields(date, kind, category, description, amount));
      Get(body, "date") == date && Get(body, "type") == kind && Get(body, "category") == category &&
      Get(body, "description") == description && Get(body, "amount") == amount
  {
  }

  /** The guard refuses nothing the server would accept from a new-entry form. */
  lemma GuardKeepsAccepted(form: EntryForm, dates: DateReader)
    requires ValidateEntry(FormBody(form, None), false, dates).None?
    ensures SubmitAllowed(form)
  {
    FormBodyFields(form);
  }

  /**
   * A new-entry form that passes the guard, with a readable date, a known
   * type and an amount within BIGINT, is accepted by the server.
   */
  lemma GuardedFormAccepted(form: EntryForm, dates: DateReader)
    requires SubmitAllowed(form)
    requires dates(form.date).Some? && form.kind in {"income", "expense"}
    requires ParseInt(form.amount).value <= MAX_BIGINT
    ensures ValidateEntry(FormBody(form, None), false, dates).None?
  {
    FormBodyFields(form);
    TrimIdempotent(form.category);
    assert !IsBlank(Trim(form.category));
  }

  /** The value the type select takes for an entry's type. */
  function KindText(k: EntryType): string {
    if k == Income then "income" else "expense"
  }

  /**
   * The form a revise button fills from a log entry: the date as the server
   * sent it, the type, category and description, and `amount.toString()`.
   */
  function RevisedForm(e: CashflowEntry, dateText: string): EntryForm
    requires e.amount >= 0
  {
    EntryForm(dateText, KindText(e.kind), e.category, e.description, NatToString(e.amount))
  }

  /**
   * Saving a revise form unchanged writes back the entry it was filled from:
   * the guard lets it through, the server accepts it as an update of that id,
   * and the row the update writes is the entry itself.
   */
  lemma RevisedFormRoundTrip(e: CashflowEntry, dateText: string, dates: DateReader)
    requires StoredRow(e) && 0 < e.id <= MAX_INT && dateText != "" && dates(dateText) == Some(e.date)
    ensures SubmitAllowed(RevisedForm(e, dateText))
    ensures ValidateEntry(FormBody(RevisedForm(e, dateText), Some(e.id)), true, dates).None?
    ensures DatabaseAccepts(FormBody(RevisedForm(e, dateText), Some(e.id)), true)
    ensures EntryFromBody(e.id, FormBody(RevisedForm(e, dateText), Some(e.id)), dates) == e
  {
    RevisedFormAllowed(e, dateText);
    var body := FormBody(RevisedForm(e, dateText), Some(e.id));
    RevisedBodyFields(e, dateText);
    CarriedEntryAccepted(body, e, dateText, dates);
    CarriedEntryStored(body, e, dateText, dates);
  }

  /** The body holds the entry's fields, its date as the given text, and its id. */
  predicate CarriesEntry(body: Json, e: CashflowEntry, dateText: string) {
    Get(body, "date") == Str(dateText) && Get(body, "type") == Str(KindText(e.kind)) &&
    Get(body, "category") == Str(e.category) && Get(body, "description") == Str(e.description) &&
    Get(body, "amount") == Number(FromInt(e.amount)) && Get(body, "id") == Number(FromInt(e.id))
  }

  /** A revise form filled from a stored entry passes the submit guard. */
  lemma RevisedFormAllowed(e: CashflowEntry, dateText: string)
    requires StoredRow(e) && dateText != ""
    ensures SubmitAllowed(RevisedForm(e, dateText))
  {
    ParseIntOfToString(e.amount);
    TrimTrimmed(e.category);
  }

  /** A body carrying a stored entry is accepted as an update of it. */
  lemma CarriedEntryAccepted(body: Json, e: CashflowEntry, dateText: string, dates: DateReader)
    requires CarriesEntry(body, e, dateText)
    requires StoredRow(e) && 0 < e.id <= MAX_INT && dateText != "" && dates(dateText) == Some(e.date)
    ensures ValidateEntry(body, true, dates).None? && ValidateEntry(body, false, dates).None?
    ensures DatabaseAccepts(body, true) && DatabaseAccepts(body, false)
  {
    TrimTrimmed(e.category);
    assert !IsBlank(e.category);
  }

  /** The row an update writes from a body carrying a stored entry is that entry. */
  lemma CarriedEntryStored(body: Json, e: CashflowEntry, dateText: string, dates: DateReader)
    requires CarriesEntry(body, e, dateText) && StoredRow(e) && dates(dateText) == Some(e.date)
    requires ValidateEntry(body, false, dates).None? && DatabaseAccepts(body, false)
    ensures EntryFromBody(e.id, body, dates) == e
  {
    TrimTrimmed(e.category);
    TrimTrimmed(e.description);
  }

  /** The body a revise form saved unchanged sends: the entry's own fields and its id. */
  lemma RevisedBodyFields(e: CashflowEntry, dateText: string)
    requires 0 <= e.amount && IsTrimmed(e.category) && IsTrimmed(e.description) && e.id > 0
    ensures CarriesEntry(FormBody(RevisedForm(e, dateText), Some(e.id)), e, dateText)
  {
    var form := RevisedForm(e, dateText);
    FormBodyWithId(form, e.id);
    RevisedPlainFields(e, dateText);
    CarriesWithId(FormBody(form, None), e, dateText);
  }

  /** A body with an entry's five fields carries the entry once its id is added. */
  lemma CarriesWithId(plain: Json, e: CashflowEntry, dateText: string)
    requires plain.Object?
    requires Get(plain, "date") == Str(dateText) && Get(plain, "type") == Str(KindText(e.kind))
    requires Get(plain, "category") == Str(e.category) && Get(plain, "description") == Str(e.description)
    requires Get(plain, "amount") == Number(FromInt(e.amount))
    ensures CarriesEntry(Object(plain.fields["id" := Number(FromInt(e.id))]), e, dateText)
  {
    var id := Number(FromInt(e.id));
    WithIdGet(plain.fields, id, "date");
    WithIdGet(plain.fields, id, "type");
    WithIdGet(plain.fields, id, "category");
    WithIdGet(plain.fields, id, "description");
    WithIdGet(plain.fields, id, "amount");
  }

  /** The fields of the body a revise form sends without its id: the entry's own. */
  lemma RevisedPlainFields(e: CashflowEntry, dateText: string)
    requires 0 <= e.amount && IsTrimmed(e.category) && IsTrimmed(e.description)
    ensures var body := FormBody(RevisedForm(e, dateText), None);
      body.Object? && Get(body, "date") == Str(dateText) && Get(body, "type") == Str(KindText(e.kind)) &&
      Get(body, "category") == Str(e.category) && Get(body, "description") == Str(e.description) &&
      Get(body, "amount") == Number(FromInt(e.amount))
  {
    FormBodyFields(RevisedForm(e, dateText));
    AmountOfToString(e.amount);
    TrimTrimmed(e.category);
    TrimTrimmed(e.description);
  }

  /** While an entry is being revised, the body is the plain one with the id added. */
  lemma FormBodyWithId(form: EntryForm, id: int)
    requires id != 0
    ensures FormBody(form, Some(id)) == Object(FormBody(form, None).fields["id" := Number(FromInt(id))])
  {
  }

  /** Adding the id to a body leaves its other fields as they were. */
  lemma WithIdGet(fields: map<string, Json>, id: Json, key: string)
    requires key != "id"
    ensures Get(Object(fields["id" := id]), key) == Get(Object(fields), key)
  {
  }

  /** An amount written by `toString` is sent as that number. */
  lemma AmountOfToString(n: nat)
    ensures AmountJson(NatToString(n)) == Number(FromInt(n))
  {
    ParseIntOfToString(n);
  }

  /** Some element of a non-empty set: the next one `Array.from` takes. */
  method PickOne<T>(s: set<T>) returns (x: T)
    requires s != {}
    ensures x in s
  {
    x :| x in s;
  }

  /** `Array.from(s)`: every element of s once, in some order. */
  method SetToList(s: set<int>) returns (ids: seq<int>)
    ensures forall y :: y in ids <==> y in s
    ensures forall i, j :: 0 <= i < j < |ids| ==> ids[i] != ids[j]
  {
    ids := [];
    var rest := s;
    while rest != {}
      invariant forall y :: y in s <==> y in rest || y in ids
      invariant forall y :: y in rest ==> y !in ids
      invariant forall i, j :: 0 <= i < j < |ids| ==> ids[i] != ids[j]
      decreases |rest|
    {
      var x := PickOne(rest);
      ids := ids + [x];
      rest := rest - {x};
    }
  }

  class CashflowPageState {
    var sortKey: Option<SortKey>
    var direction: Direction
    var timeframe: Timeframe
    /** The two date inputs of the custom range; "" when empty. */
    var dateFrom: string
    var dateTo: string
    var selected: set<int>
    /** The ids of the rows the table shows. */
    var visible: seq<int>
    /** The entry being revised in the form, if any. */
    var editingId: Option<int>
    /** The daily log of the data last fetched, if any has been. */
    var data: Option<seq<DailyLogEntry>>

    /** The page before anything is clicked: unsorted, all time, nothing selected. */
    constructor()
      ensures sortKey == None && direction == Asc && timeframe == All
      ensures dateFrom == "" && dateTo == "" && selected == {} && visible == [] && editingId == None
      ensures data == None
    {
      sortKey := None;
      direction := Asc;
      timeframe := All;
      dateFrom := "";
      dateTo := "";
      selected := {};
      visible := [];
      editingId := None;
      data := None;
    }

    /**
     * handleSort: no key changes nothing; the active key flips the direction;
     * another key becomes active, ascending.
     */
    method HandleSort(key: Option<SortKey>)
      modifies this
      ensures key.None? ==> sortKey == old(sortKey) && direction == old(direction)
      ensures key.Some? && key == old(sortKey) ==>
        sortKey == old(sortKey) && direction == (if old(direction) == Asc then Desc else Asc)
      ensures key.Some? && key != old(sortKey) ==> sortKey == key && direction == Asc
      ensures timeframe == old(timeframe) && selected == old(selected) && visible == old(visible)
      ensures dateFrom == old(dateFrom) && dateTo == old(dateTo) && editingId == old(editingId) && data == old(data)
    {
      if key.None? {
        return;
      }
      if key == sortKey {
        direction := if direction == Asc then Desc else Asc;
      } else {
        sortKey := key;
        direction := Asc;
      }
    }

    /** Rendering a log makes its entries' ids the visible ones. */
    method ShowLog(log: seq<DailyLogEntry>)
      modifies this
      ensures |visible| == |log| && forall i :: 0 <= i < |log| ==> visible[i] == log[i].entry.id
      ensures sortKey == old(sortKey) && direction == old(direction) && timeframe == old(timeframe)
      ensures selected == old(selected) && dateFrom == old(dateFrom) && dateTo == old(dateTo)
      ensures editingId == old(editingId) && data == old(data)
    {
      visible := seq(|log|, i requires 0 <= i < |log| => log[i].entry.id);
    }

    /** A row checkbox adds or removes its own id and no other. */
    method ClickRow(id: int, checked: bool)
      modifies this
      ensures selected == if checked then old(selected) + {id} else old(selected) - {id}
      ensures sortKey == old(sortKey) && direction == old(direction) && timeframe == old(timeframe)
      ensures visible == old(visible) && dateFrom == old(dateFrom) && dateTo == old(dateTo)
      ensures editingId == old(editingId) && data == old(data)
    {
      if checked {
        selected := selected + {id};
      } else {
        selected := selected - {id};
      }
    }

    /**
     * The select-all box adds, or removes, every visible id one at a time and
     * leaves the selection of rows not shown alone; afterwards the box reads
     * checked (when rows are shown) or clear.
     */
    method ClickSelectAll(checked: bool)
      modifies this
      ensures selected == if checked then old(selected) + (set y | y in visible) else old(selected) - (set y | y in visible)
      ensures checked && |visible| > 0 ==> SelectAllState(visible, selected) == Checked
      ensures !checked ==> SelectAllState(visible, selected) == Unchecked
      ensures sortKey == old(sortKey) && direction == old(direction) && timeframe == old(timeframe)
      ensures visible == old(visible) && dateFrom == old(dateFrom) && dateTo == old(dateTo)
      ensures editingId == old(editingId) && data == old(data)
    {
      var s := selected;
      var k := 0;
      while k < |visible|
        invariant 0 <= k <= |visible|
        invariant s == if checked then selected + (set y | y in visible[..k]) else selected - (set y | y in visible[..k])
      {
        assert visible[..k + 1] == visible[..k] + [visible[k]];
        if checked {
          s := s + {visible[k]};
        } else {
          s := s - {visible[k]};
        }
        k := k + 1;
      }
      assert visible[..k] == visible;
      selected := s;
      if !checked {
        SelectAllStates(visible, selected);
      }
    }

    /**
     * A timeframe button. Clicking the active one, unless it is the custom
     * one, does nothing; otherwise it becomes active, the date inputs are
     * cleared, the table is sorted newest first, the selection is emptied and
     * the data is fetched with the returned query.
     */
    method ClickFilter(t: Timeframe) returns (request: Option<map<string, string>>)
      modifies this
      ensures t == old(timeframe) && t != Custom ==>
        request == None && timeframe == old(timeframe) && sortKey == old(sortKey) &&
        direction == old(direction) && selected == old(selected) &&
        dateFrom == old(dateFrom) && dateTo == old(dateTo)
      ensures t != old(timeframe) || t == Custom ==>
        timeframe == t && dateFrom == "" && dateTo == "" && sortKey == Some(ByDate) && direction == Desc &&
        selected == {} && request == Some(RequestParams(t, "", ""))
      ensures visible == old(visible) && editingId == old(editingId) && data == old(data)
    {
      if t == timeframe && t != Custom {
        return None;
      }
      timeframe := t;
      dateFrom := "";
      dateTo := "";
      sortKey := Some(ByDate);
      direction := Desc;
      selected := {};
      request := Some(RequestParams(timeframe, dateFrom, dateTo));
    }

    /** Typing in the date inputs changes only their values. */
    method EditDateRange(from: string, to: string)
      modifies this
      ensures dateFrom == from && dateTo == to
      ensures sortKey == old(sortKey) && direction == old(direction) && timeframe == old(timeframe)
      ensures selected == old(selected) && visible == old(visible) && editingId == old(editingId) && data == old(data)
    {
      dateFrom := from;
      dateTo := to;
    }

    /**
     * Applying the custom range: only with both dates set and the first no
     * later than the second does it switch to the custom timeframe, sort
     * newest first, empty the selection and fetch; otherwise nothing changes.
     */
    method ApplyDateRange(dates: DateReader) returns (request: Option<map<string, string>>)
      modifies this
      ensures
        var from := dates(old(dateFrom));
        var to := dates(old(dateTo));
        var valid := old(dateFrom) != "" && old(dateTo) != "" && from.Some? && to.Some? && from.value <= to.value;
        (valid ==>
          timeframe == Custom && sortKey == Some(ByDate) && direction == Desc && selected == {} &&
          request == Some(map["from" := dateFrom, "to" := dateTo])) &&
        (!valid ==>
          request == None && timeframe == old(timeframe) && sortKey == old(sortKey) &&
          direction == old(direction) && selected == old(selected))
      ensures dateFrom == old(dateFrom) && dateTo == old(dateTo)
      ensures visible == old(visible) && editingId == old(editingId) && data == old(data)
    {
      var from := dates(dateFrom);
      var to := dates(dateTo);
      if dateFrom != "" && dateTo != "" && from.Some? && to.Some? && from.value <= to.value {
        timeframe := Custom;
        sortKey := Some(ByDate);
        direction := Desc;
        selected := {};
        request := Some(RequestParams(timeframe, dateFrom, dateTo));
      } else {
        request := None;
      }
    }

    /**
     * Bulk delete: nothing with an empty selection or without confirmation;
     * otherwise the request lists every selected id once, and the selection is
     * emptied when the server deletes them.
     */
    method BulkDelete(confirmed: bool, deleted: bool) returns (request: Option<seq<int>>)
      modifies this
      ensures old(selected) == {} || !confirmed ==> request == None && selected == old(selected)
      ensures old(selected) != {} && confirmed ==>
        request.Some? && (forall y :: y in request.value <==> y in old(selected)) &&
        (forall i, j :: 0 <= i < j < |request.value| ==> request.value[i] != request.value[j]) &&
        selected == if deleted then {} else old(selected)
      ensures sortKey == old(sortKey) && direction == old(direction) && timeframe == old(timeframe)
      ensures visible == old(visible) && dateFrom == old(dateFrom) && dateTo == old(dateTo)
      ensures editingId == old(editingId) && data == old(data)
    {
      if selected == {} || !confirmed {
        return None;
      }
      var ids := SetToList(selected);
      request := Some(ids);
      if deleted {
        selected := {};
      }
    }

    /** The data of a fetch arrived: its daily log replaces the one kept, and nothing else changes. */
    method Loaded(log: seq<DailyLogEntry>)
      modifies this
      ensures data == Some(log)
      ensures sortKey == old(sortKey) && direction == old(direction) && timeframe == old(timeframe)
      ensures selected == old(selected) && visible == old(visible) && dateFrom == old(dateFrom)
      ensures dateTo == old(dateTo) && editingId == old(editingId)
    {
      data := Some(log);
    }

    /** The add button opens an empty form: no entry is being revised. */
    method AddNew()
      modifies this`editingId
      ensures editingId == None
    {
      editingId := None;
    }

    /** Closing the form, by its buttons or a click beside it, forgets the entry being revised. */
    method CloseModal()
      modifies this`editingId
      ensures editingId == None
    {
      editingId := None;
    }

    /**
     * A revise button: the first entry of the fetched log with that id is
     * revised and returned to fill the form; without fetched data, or for an
     * id the log does not hold, nothing changes.
     */
    method Revise(id: int) returns (entry: Option<DailyLogEntry>)
      modifies this`editingId
      ensures entry.Some? <==> data.Some? && exists i :: 0 <= i < |data.value| && data.value[i].entry.id == id
      ensures entry.Some? ==>
        editingId == Some(id) && entry.value.entry.id == id &&
        exists i :: 0 <= i < |data.value| && data.value[i] == entry.value &&
          forall j :: 0 <= j < i ==> data.value[j].entry.id != id
      ensures entry.None? ==> editingId == old(editingId)
    {
      entry := None;
      if data.None? {
        return;
      }
      var log := data.value;
      var k := 0;
      while k < |log|
        invariant 0 <= k <= |log|
        invariant forall i :: 0 <= i < k ==> log[i].entry.id != id
      {
        if log[k].entry.id == id {
          entry := Some(log[k]);
          editingId := Some(id);
          return;
        }
        k := k + 1;
      }
    }

    /**
     * Submitting the entry form: refused by the guard, nothing is sent and
     * nothing changes; otherwise the body is sent (PUT when revising, POST
     * otherwise), and when the server accepts it the form is closed and the
     * entry being revised forgotten.
     */
    method Submit(form: EntryForm, accepted: bool) returns (sent: Option<ApiCall>)
      modifies this`editingId
      ensures !SubmitAllowed(form) ==> sent == None && editingId == old(editingId)
      ensures SubmitAllowed(form) ==>
        sent == Some(ApiCall(SubmitVerb(old(editingId)), FormBody(form, old(editingId)))) &&
        editingId == if accepted then None else old(editingId)
    {
      if !SubmitAllowed(form) {
        return None;
      }
      sent := Some(ApiCall(SubmitVerb(editingId), FormBody(form, editingId)));
      if accepted {
        editingId := None;
      }
    }
  }
}

=== FILE: js.dfy ===
/**
 * The parts of JavaScript that the dashboard's logic depends on: JSON request
 * bodies, numbers as JSON writes them, truthiness, `String.prototype.trim`,
 * `parseInt` and `parseFloat`, and converting a non-negative integer to text.
 */
module Js {
  import opened Wrappers

  /** 10^k. */
  function Pow10(k: nat): (r: nat)
    ensures r >= 1
  {
    if k == 0 then 1 else 10 * Pow10(k - 1)
  }

  /**
   * A finite decimal digits / 10^scale. JSON numbers are finite decimals; the
   * model keeps them exactly, in lowest terms (no trailing zero digit when
   * scale > 0), which is the form `String(x)` prints them in.
   */
  datatype Num = Num(digits: int, scale: nat)

  predicate Canonical(n: Num) {
    n.scale == 0 || n.digits % 10 != 0
  }

  type Decimal = n: Num | Canonical(n) witness Num(0, 0)

  /** The integer k as a number. */
  function FromInt(k: int): Decimal {
    Num(k, 0)
  }

  /** Strip trailing zero digits after the point: 1.50 becomes 1.5. */
  function Canonicalize(n: Num): (r: Decimal)
    ensures r.scale <= n.scale
    ensures r.digits * Pow10(n.scale - r.scale) == n.digits
    ensures n.digits >= 0 ==> r.digits >= 0
    decreases n.scale
  {
    if n.scale > 0 && n.digits % 10 == 0 then
      var r := Canonicalize(Num(n.digits / 10, n.scale - 1));
      assert Pow10(n.scale - r.scale) == 10 * Pow10(n.scale - 1 - r.scale);
      r
    else
      n
  }

  /** `Number.isInteger(n)`. */
  predicate IsInteger(n: Decimal) {
    n.scale == 0
  }

  /** n <= k, compared exactly. */
  predicate AtMost(n: Decimal, k: int) {
    n.digits <= k * Pow10(n.scale)
  }

  /** n < k, compared exactly. */
  predicate Below(n: Decimal, k: int) {
    n.digits < k * Pow10(n.scale)
  }

  /** The value of n in hundredths, defined when n has at most two decimal places. */
  function Hundredths(n: Decimal): int
    requires n.scale <= 2
  {
    n.digits * Pow10(2 - n.scale)
  }

  // ---------------------------------------------------------------------------
  // JSON

  /** A JSON value as JavaScript sees it after `JSON.parse`, plus `undefined`. */
  datatype Json =
    | Undefined
    | Null
    | Bool(b: bool)
    | Number(n: Decimal)
    | Str(s: string)
    | Array(items: seq<Json>)
    | Object(fields: map<string, Json>)

  /** JavaScript truthiness: `!!j`. */
  predicate Truthy(j: Json) {
    match j
    case Undefined => false
    case Null => false
    case Bool(b) => b
    case Number(n) => n.digits != 0
    case Str(s) => s != ""
    case Array(_) => true
    case Object(_) => true
  }

  /** Property access `j.key`; `undefined` when the property is absent. */
  function Get(j: Json, key: string): (r: Json)
    ensures !j.Object? ==> r == Undefined
  {
    if j.Object? && key in j.fields then j.fields[key] else Undefined
  }

  /** `!j || typeof j !== 'object'` fails: j is a non-null object or array. */
  predicate IsObjectValue(j: Json) {
    j.Object? || j.Array?
  }

  // ---------------------------------------------------------------------------
  // Whitespace and String.prototype.trim

  /** The characters `trim` removes: ECMAScript WhiteSpace and LineTerminator. */
  predicate IsWhitespace(c: char) {
    || c == ' ' || c == '\t' || c == '\n' || c == '\r'
    || c == '\U{000B}' || c == '\U{000C}' || c == '\U{00A0}' || c == '\U{1680}'
    || ('\U{2000}' <= c <= '\U{200A}')
    || c == '\U{2028}' || c == '\U{2029}' || c == '\U{202F}' || c == '\U{205F}'
    || c == '\U{3000}' || c == '\U{FEFF}'
  }

  /** Every character of s is whitespace (so `s.trim().length === 0`). */
  predicate IsBlank(s: string) {
    forall i :: 0 <= i < |s| ==> IsWhitespace(s[i])
  }

  /** Neither end of s is whitespace: trimming s changes nothing. */
  predicate IsTrimmed(s: string) {
    s != [] ==> !IsWhitespace(s[0]) && !IsWhitespace(s[|s| - 1])
  }

  function TrimStart(s: string): (r: string)
    ensures |r| <= |s| && r == s[|s| - |r|..]
    ensures forall i :: 0 <= i < |s| - |r| ==> IsWhitespace(s[i])
    ensures r != [] ==> !IsWhitespace(r[0])
  {
    if s != [] && IsWhitespace(s[0]) then TrimStart(s[1..]) else s
  }

  function TrimEnd(s: string): (r: string)
    ensures |r| <= |s| && r == s[..|r|]
    ensures forall i :: |r| <= i < |s| ==> IsWhitespace(s[i])
    ensures r != [] ==> !IsWhitespace(r[|r| - 1])
  {
    if s != [] && IsWhitespace(s[|s| - 1]) then TrimEnd(s[..|s| - 1]) else s
  }

  /** `s.trim()`: s without its leading and trailing whitespace. */
  function Trim(s: string): (r: string)
    ensures |r| <= |s|
    ensures IsTrimmed(r)
    ensures r == [] <==> IsBlank(s)
  {
    TrimSpec(s);
    TrimEnd(TrimStart(s))
  }

  lemma TrimSpec(s: string)
    ensures IsTrimmed(TrimEnd(TrimStart(s)))
    ensures TrimEnd(TrimStart(s)) == [] <==> IsBlank(s)
  {
    TrimBothEnds(s);
    TrimBlank(s);
  }

  /** Trimming both ends leaves no whitespace at either end. */
  lemma TrimBothEnds(s: string)
    ensures IsTrimmed(TrimEnd(TrimStart(s)))
  {
    var t := TrimStart(s);
    var r := TrimEnd(t);
    if r != [] {
      assert r[0] == t[0];
    }
  }

  /** Trimming both ends leaves nothing exactly when s is all whitespace. */
  lemma TrimBlank(s: string)
    ensures TrimEnd(TrimStart(s)) == [] <==> IsBlank(s)
  {
    var t := TrimStart(s);
    var r := TrimEnd(t);
    if r == [] {
      BlankJoin(s, |s| - |t|);
    } else {
      assert r[0] == s[|s| - |t|];
    }
  }

  /** A string whose prefix of length k and suffix after k are blank is blank. */
  lemma BlankJoin(s: string, k: nat)
    requires k <= |s|
    requires forall i :: 0 <= i < k ==> IsWhitespace(s[i])
    requires IsBlank(s[k..])
    ensures IsBlank(s)
  {
    forall i | k <= i < |s| ensures IsWhitespace(s[i]) {
      assert s[i] == s[k..][i - k];
    }
  }

  /** Trimming is idempotent: a stored trimmed value trims to itself. */
  lemma {:induction false} TrimTrimmed(s: string)
    requires IsTrimmed(s)
    ensures Trim(s) == s
  {
    assert TrimStart(s) == s;
    assert TrimEnd(s) == s;
  }

  /** Trimming removes whitespace only: every other character of s is still in `s.trim()`. */
  lemma TrimKeeps(s: string, k: nat)
    requires k < |s| && !IsWhitespace(s[k])
    ensures exists j :: 0 <= j < |Trim(s)| && Trim(s)[j] == s[k]
  {
    var t := TrimStart(s);
    var r := TrimEnd(t);
    var off := |s| - |t|;
    assert off <= k && t[k - off] == s[k];
    assert k - off < |r| && r[k - off] == s[k];
    assert Trim(s) == r;
    assert Trim(s)[k - off] == s[k];
  }

  lemma TrimIdempotent(s: string)
    ensures Trim(Trim(s)) == Trim(s)
  {
    TrimTrimmed(Trim(s));
  }

  // ---------------------------------------------------------------------------
  // Digits, parseInt, parseFloat and integer-to-text

  predicate IsDigit(c: char) {
    '0' <= c <= '9'
  }

  function DigitValue(c: char): nat
    requires IsDigit(c)
  {
    (c as int) - ('0' as int)
  }

  function DigitChar(d: nat): (c: char)
    requires d < 10
    ensures IsDigit(c) && DigitValue(c) == d
  {
    ('0' as int + d) as char
  }

  /** The length of the run of decimal digits at the start of s. */
  function DigitRun(s: string): (n: nat)
    ensures n <= |s|
    ensures forall i :: 0 <= i < n ==> IsDigit(s[i])
    ensures n < |s| ==> !IsDigit(s[n])
  {
    if s != [] && IsDigit(s[0]) then
      var n := 1 + DigitRun(s[1..]);
      assert forall i :: 1 <= i < n ==> s[i] == s[1..][i - 1];
      n
    else
      0
  }

  /** The value of a string of decimal digits. */
  function DigitsValue(s: string): nat
    requires forall i :: 0 <= i < |s| ==> IsDigit(s[i])
  {
    if s == [] then 0 else 10 * DigitsValue(s[..|s| - 1]) + DigitValue(s[|s| - 1])
  }

  /** The sign parseInt and parseFloat read after leading whitespace, and where the digits start. */
  function SignAndRest(t: string): (int, string) {
    if t != [] && t[0] == '-' then (-1, t[1..])
    else if t != [] && t[0] == '+' then (1, t[1..])
    else (1, t)
  }

  /**
   * `parseInt(s, 10)`: skip leading whitespace, read an optional sign and the
   * longest run of decimal digits; NaN (None) when there is no digit.
   */
  function ParseInt(s: string): (r: Option<int>)
    ensures r.None? <==> DigitRun(SignAndRest(TrimStart(s)).1) == 0
  {
    var (sign, rest) := SignAndRest(TrimStart(s));
    var n := DigitRun(rest);
    if n == 0 then None else Some(sign * DigitsValue(rest[..n]))
  }

  /** `String(n)` for a non-negative integer n: its decimal digits, no leading zero. */
  function NatToString(n: nat): (s: string)
    ensures s != [] && forall i :: 0 <= i < |s| ==> IsDigit(s[i])
    ensures |s| > 1 ==> s[0] != '0'
  {
    if n < 10 then [DigitChar(n)] else NatToString(n / 10) + [DigitChar(n % 10)]
  }

  lemma {:induction false} NatToStringValue(n: nat)
    ensures DigitsValue(NatToString(n)) == n
  {
    if n >= 10 {
      var s := NatToString(n);
      assert s[..|s| - 1] == NatToString(n / 10);
      NatToStringValue(n / 10);
    }
  }

  /** Text written by `n.toString()` is read back by `parseInt` as n. */
  lemma ParseIntOfToString(n: nat)
    ensures ParseInt(NatToString(n)) == Some(n)
  {
    var s := NatToString(n);
    assert !IsWhitespace(s[0]) && s[0] != '-' && s[0] != '+';
    assert TrimStart(s) == s;
    assert SignAndRest(s) == (1, s);
    assert DigitRun(s) == |s|;
    assert s[..|s|] == s;
    NatToStringValue(n);
  }

  /**
   * `parseFloat(s)` for plain decimal text: skip leading whitespace, read an
   * optional sign, digits, and optionally '.' and more digits; NaN (None) when
   * neither side of the point has a digit. Exponents and "Infinity" are not
   * part of this model.
   */
  function ParseFloat(s: string): (r: Option<Decimal>)
    ensures r.Some? && r.value.digits < 0 ==> SignAndRest(TrimStart(s)).0 == -1
  {
    var (sign, rest) := SignAndRest(TrimStart(s));
    var n := DigitRun(rest);
    var frac := FractionText(rest, n);
    if n == 0 && frac == "" then None
    else
      var v: int := DigitsValue(rest[..n] + frac);
      Some(Canonicalize(Num(if sign == -1 then -v else v, |frac|)))
  }

  /** The digits that follow a '.' at position n of t, if t has a '.' there. */
  function FractionText(t: string, n: nat): (f: string)
    requires n <= |t|
    ensures forall i :: 0 <= i < |f| ==> IsDigit(f[i])
  {
    if n < |t| && t[n] == '.' then t[n + 1..][..DigitRun(t[n + 1..])] else ""
  }

  /** The number of decimal digits of n is at most m when n < 10^m. */
  lemma {:induction false} NatToStringShort(n: nat, m: nat)
    requires 1 <= m && n < Pow10(m)
    ensures |NatToString(n)| <= m
  {
    if n >= 10 {
      assert m >= 2;
      assert n / 10 < Pow10(m - 1);
      NatToStringShort(n / 10, m - 1);
    }
  }

  /** s left-padded with '0' to width w. */
  function ZeroPad(s: string, w: nat): (r: string)
    ensures |r| == if |s| < w then w else |s|
    ensures (forall i :: 0 <= i < |s| ==> IsDigit(s[i])) ==> forall i :: 0 <= i < |r| ==> IsDigit(r[i])
  {
    if |s| < w then seq(w - |s|, _ => '0') + s else s
  }

  /** Euclidean division of a natural number by a positive one. */
  lemma DivMod(d: nat, p: nat)
    requires p > 0
    ensures d / p >= 0 && 0 <= d % p < p && (d / p) * p + d % p == d
  {
  }

  /** The digits `String(x)` writes before the point. */
  function WholeText(n: Decimal): string
    requires n.digits >= 0
  {
    DivMod(n.digits, Pow10(n.scale));
    NatToString(n.digits / Pow10(n.scale))
  }

  /** The digits `String(x)` writes after the point, zero-padded to the scale. */
  function FractionDigits(n: Decimal): string
    requires n.digits >= 0
  {
    ZeroPad(NatToString(n.digits % Pow10(n.scale)), n.scale)
  }

  /**
   * `String(x)` for 0 <= x < 10^21 (Number::toString): plain decimal notation
   * from 10^-6 up, and below that exponent notation, one significant digit
   * before the point (`1e-7`, `1.5e-7`).
   */
  function NumberToString(n: Decimal): string
    requires n.digits >= 0 && Below(n, Pow10(21))
  {
    if n.scale == 0 then NatToString(n.digits)
    else if n.digits * Pow10(6) >= Pow10(n.scale) then
      WholeText(n) + "." + FractionDigits(n)
    else
      var ds := NatToString(n.digits);
      assert n.digits < Pow10(n.scale) by {
        assert Pow10(6) >= 1;
      }
      NatToStringShort(n.digits, n.scale);
      [ds[0]] + (if |ds| > 1 then "." + ds[1..] else "") + "e-" + NatToString(n.scale - (|ds| - 1))
  }

  /** One more digit at the end multiplies what came before by ten. */
  lemma ShiftDigit(x: int, p: int, y: int, d: int)
    ensures 10 * (x * p + y) + d == x * (10 * p) + (10 * y + d)
  {
  }

  /** The value of two digit strings written one after the other. */
  lemma {:induction false} DigitsValueAppend(a: string, b: string)
    requires forall i :: 0 <= i < |a| ==> IsDigit(a[i])
    requires forall i :: 0 <= i < |b| ==> IsDigit(b[i])
    ensures DigitsValue(a + b) == DigitsValue(a) * Pow10(|b|) + DigitsValue(b)
  {
    if b == [] {
      assert a + b == a;
    } else {
      var c := a + b;
      var b' := b[..|b| - 1];
      assert c[..|c| - 1] == a + b';
      assert c[|c| - 1] == b[|b| - 1];
      DigitsValueAppend(a, b');
      ShiftDigit(DigitsValue(a), Pow10(|b'|), DigitsValue(b'), DigitValue(b[|b| - 1]));
    }
  }

  /** A string of zeros is worth nothing. */
  lemma {:induction false} ZerosValue(k: nat)
    ensures DigitsValue(seq(k, _ => '0')) == 0
  {
    if k > 0 {
      assert seq(k, _ => '0')[..k - 1] == seq(k - 1, _ => '0');
      ZerosValue(k - 1);
    }
  }

  /** Zero padding does not change the value of a digit string. */
  lemma ZeroPadValue(s: string, w: nat)
    requires forall i :: 0 <= i < |s| ==> IsDigit(s[i])
    ensures DigitsValue(ZeroPad(s, w)) == DigitsValue(s)
  {
    if |s| < w {
      ZerosValue(w - |s|);
      DigitsValueAppend(seq(w - |s|, _ => '0'), s);
    }
  }

  /** A run of k digits followed by a non-digit, or by the end, is the digit run. */
  lemma {:induction false} DigitRunIs(s: string, k: nat)
    requires k <= |s| && forall i :: 0 <= i < k ==> IsDigit(s[i])
    requires k < |s| ==> !IsDigit(s[k])
    ensures DigitRun(s) == k
  {
    if k > 0 {
      DigitRunIs(s[1..], k - 1);
    }
  }

  /** Text starting with a digit has no leading whitespace and no sign. */
  lemma DigitFirstUnsigned(s: string)
    requires s != [] && IsDigit(s[0])
    ensures TrimStart(s) == s && SignAndRest(TrimStart(s)) == (1, s)
  {
    assert !IsWhitespace(s[0]);
  }

  /** parseFloat of a string that starts with a digit: no whitespace and no sign to skip. */
  lemma ParseFloatUnsigned(s: string)
    requires s != [] && IsDigit(s[0])
    ensures ParseFloat(s) ==
      Some(Canonicalize(Num(DigitsValue(s[..DigitRun(s)] + FractionText(s, DigitRun(s))), |FractionText(s, DigitRun(s))|)))
  {
    DigitFirstUnsigned(s);
  }

  /** parseFloat reads a whole string of digits as that integer. */
  lemma ParseFloatOfDigits(s: string)
    requires s != [] && forall i :: 0 <= i < |s| ==> IsDigit(s[i])
    ensures ParseFloat(s) == Some(Canonicalize(Num(DigitsValue(s), 0)))
  {
    ParseFloatUnsigned(s);
    AllDigitsRead(s);
  }

  /** A string of digits is one digit run with no fraction after it. */
  lemma AllDigitsRead(s: string)
    requires forall i :: 0 <= i < |s| ==> IsDigit(s[i])
    ensures DigitRun(s) == |s| && FractionText(s, |s|) == ""
    ensures s[..DigitRun(s)] + FractionText(s, DigitRun(s)) == s
  {
    DigitRunIs(s, |s|);
    assert s[..|s|] + "" == s;
  }

  /** parseFloat reads digits, a point and more digits as the number they write. */
  lemma ParseFloatOfPoint(w: string, f: string)
    requires w != [] && forall i :: 0 <= i < |w| ==> IsDigit(w[i])
    requires forall i :: 0 <= i < |f| ==> IsDigit(f[i])
    ensures ParseFloat(w + "." + f) == Some(Canonicalize(Num(DigitsValue(w + f), |f|)))
  {
    ParseFloatUnsigned(w + "." + f);
    PointDigitsRead(w, f);
  }

  /** In digits, a point and digits, the run stops at the point and the fraction is the rest. */
  lemma PointDigitsRead(w: string, f: string)
    requires forall i :: 0 <= i < |w| ==> IsDigit(w[i])
    requires forall i :: 0 <= i < |f| ==> IsDigit(f[i])
    ensures var s := w + "." + f;
      DigitRun(s) == |w| && FractionText(s, |w|) == f && s[..DigitRun(s)] + FractionText(s, DigitRun(s)) == w + f
  {
    var s := w + "." + f;
    DigitRunIs(s, |w|);
    var after := s[|w| + 1..];
    assert after == f;
    AllDigitsRead(after);
    assert s[..|w|] == w;
  }

  /** The digits after the point fill the scale exactly. */
  lemma FractionDigitsLength(n: Decimal)
    requires n.digits >= 0 && n.scale > 0
    ensures |FractionDigits(n)| == n.scale
  {
    NatToStringShort(n.digits % Pow10(n.scale), n.scale);
  }

  /** Read together, the digits before and after the point are the number's digits. */
  lemma PlainDigitsValue(n: Decimal)
    requires n.digits >= 0 && n.scale > 0
    ensures DigitsValue(WholeText(n) + FractionDigits(n)) == n.digits
  {
    var p := Pow10(n.scale);
    DivMod(n.digits, p);
    var q: nat := n.digits / p;
    var r: nat := n.digits % p;
    var w := WholeText(n);
    var f := FractionDigits(n);
    FractionDigitsLength(n);
    NatToStringValue(q);
    NatToStringValue(r);
    ZeroPadValue(NatToString(r), n.scale);
    assert DigitsValue(w) == q && DigitsValue(f) == r && Pow10(|f|) == p;
    DigitsValueAppend(w, f);
  }

  /**
   * `parseFloat(String(x)) == x` wherever `String(x)` writes plain decimal
   * notation: integers, and fractions from 10^-6 up.
   */
  lemma ParseFloatOfToString(n: Decimal)
    requires n.digits >= 0 && Below(n, Pow10(21))
    requires n.scale == 0 || n.digits * Pow10(6) >= Pow10(n.scale)
    ensures ParseFloat(NumberToString(n)) == Some(n)
  {
    if n.scale == 0 {
      ParseFloatOfDigits(NatToString(n.digits));
      NatToStringValue(n.digits);
    } else {
      FractionDigitsLength(n);
      PlainDigitsValue(n);
      ParseFloatOfPoint(WholeText(n), FractionDigits(n));
    }
  }

  /** The index of the first '.' in s, or |s| when there is none. */
  function FirstDot(s: string): (k: nat)
    ensures k <= |s|
    ensures forall i :: 0 <= i < k ==> s[i] != '.'
    ensures k < |s| ==> s[k] == '.'
  {
    if s == [] then 0
    else if s[0] == '.' then 0
    else
      var k := 1 + FirstDot(s[1..]);
      assert forall i :: 1 <= i < k ==> s[i] == s[1..][i - 1];
      k
  }

  /** `s.split('.')[1] || ''`: the text between the first '.' and the next one. */
  function SecondPiece(s: string): string {
    var k := FirstDot(s);
    if k == |s| then "" else var rest := s[k + 1..]; rest[..FirstDot(rest)]
  }

  /** Text without a dot, a dot, and text without a dot: the second piece is the text after the dot. */
  lemma SecondPieceOfPoint(w: string, f: string)
    requires forall i :: 0 <= i < |w| ==> w[i] != '.'
    requires forall i :: 0 <= i < |f| ==> f[i] != '.'
    ensures '.' in w + "." + f
    ensures SecondPiece(w + "." + f) == f
  {
    var s := w + "." + f;
    assert s[|w|] == '.';
    assert FirstDot(s) == |w| by {
      assert forall i :: 0 <= i < |w| ==> s[i] == w[i];
    }
    assert s[|w| + 1..] == f;
    assert FirstDot(f) == |f|;
  }

  /**
   * How `new Date(s)`, and the database's cast of s to a date, read a string:
   * the day or instant it names, or None when it is not a valid date.
   */
  type DateReader = string -> Option<int>

  /** The query-string parameter `name` is present and non-empty (truthy). */
  predicate HasParam(query: map<string, string>, name: string) {
    name in query && query[name] != ""
  }

  /** `!j || typeof j !== 'string' || isNaN(new Date(j).getTime())` is false. */
  predicate ReadableDate(j: Json, dates: DateReader) {
    j.Str? && j.s != "" && dates(j.s).Some?
  }

  /** `!j || typeof j !== 'string' || j.trim().length === 0` is false. */
  predicate NonBlankString(j: Json) {
    j.Str? && j.s != "" && !IsBlank(j.s)
  }
}

=== FILE: ledger.dfy ===
/**
 * The running balance of the cashflow ledger: signed sums of entries (income
 * counts positive, expense negative) and the chronological order
 * (date ascending, then id ascending) the balance accumulates in.
 */
module Ledger {
  import opened Types
  import opened Ordering

  /** The entry's effect on the balance. */
  function Signed(e: CashflowEntry): int {
    if e.kind == Income then e.amount else -e.amount
  }

  /** Chronological order: by date, then by id for entries of the same day. */
  function ChronoKey(e: CashflowEntry): Key {
    Key(e.date, e.id)
  }

  /** No two positions hold entries with the same id (the table's primary key). */
  predicate IdsDistinct(s: seq<CashflowEntry>) {
    forall i, j :: 0 <= i < |s| && 0 <= j < |s| && s[i].id == s[j].id ==> i == j
  }

  /** The signed sum of the entries, accumulated left to right. */
  function SignedSum(s: seq<CashflowEntry>): int {
    if s == [] then 0 else SignedSum(s[..|s| - 1]) + Signed(s[|s| - 1])
  }

  /** r comes no later than e in chronological order. */
  predicate UpTo(r: CashflowEntry, e: CashflowEntry) {
    KeyLe(ChronoKey(r), ChronoKey(e))
  }

  /**
   * The signed sum of the entries of s that come no later than e in
   * chronological order, whatever order s lists them in.
   */
  function SumUpTo(s: seq<CashflowEntry>, e: CashflowEntry): int {
    if s == [] then 0
    else SumUpTo(s[..|s| - 1], e) + (if UpTo(s[|s| - 1], e) then Signed(s[|s| - 1]) else 0)
  }

  lemma {:induction false} SumUpToAppend(a: seq<CashflowEntry>, b: seq<CashflowEntry>, e: CashflowEntry)
    ensures SumUpTo(a + b, e) == SumUpTo(a, e) + SumUpTo(b, e)
    decreases |b|
  {
    if b == [] {
      assert a + b == a;
    } else {
      assert (a + b)[..|a + b| - 1] == a + b[..|b| - 1];
      SumUpToAppend(a, b[..|b| - 1], e);
    }
  }

  /** The sum up to e depends only on which entries there are, not on their order. */
  lemma {:induction false} SumUpToPermutation(a: seq<CashflowEntry>, b: seq<CashflowEntry>, e: CashflowEntry)
    requires multiset(a) == multiset(b)
    ensures SumUpTo(a, e) == SumUpTo(b, e)
    decreases |a|
  {
    if a != [] {
      var x := a[|a| - 1];
      var a' := a[..|a| - 1];
      assert a == a' + [x];
      assert x in multiset(b);
      var j :| 0 <= j < |b| && b[j] == x;
      RemoveAtMultiset(b, j);
      assert multiset(a') == multiset(a) - multiset{x};
      SumUpToPermutation(a', b[..j] + b[j + 1..], e);
      RemoveAtSumUpTo(b, j, e);
      SumUpToAppend(a', [x], e);
    }
  }

  /** Taking out the entry at j takes its contribution out of the sum up to e. */
  lemma RemoveAtSumUpTo(b: seq<CashflowEntry>, j: nat, e: CashflowEntry)
    requires j < |b|
    ensures SumUpTo(b, e) == SumUpTo(b[..j] + b[j + 1..], e) + SumUpTo([b[j]], e)
  {
    var left, mid, right := b[..j], b[j..], b[j + 1..];
    assert SumUpTo(b, e) == SumUpTo(left, e) + SumUpTo(mid, e) by {
      SumUpToAppend(left, mid, e);
      assert left + mid == b;
    }
    assert SumUpTo(mid, e) == SumUpTo([b[j]], e) + SumUpTo(right, e) by {
      SumUpToAppend([b[j]], right, e);
      assert [b[j]] + right == mid;
    }
    SumUpToAppend(left, right, e);
  }

  /** When every entry comes no later than e, the sum up to e is the whole signed sum. */
  lemma {:induction false} SumUpToAll(s: seq<CashflowEntry>, e: CashflowEntry)
    requires forall i :: 0 <= i < |s| ==> UpTo(s[i], e)
    ensures SumUpTo(s, e) == SignedSum(s)
  {
    if s != [] {
      SumUpToAll(s[..|s| - 1], e);
    }
  }

  /** When every entry comes after e, nothing is summed. */
  lemma {:induction false} SumUpToNone(s: seq<CashflowEntry>, e: CashflowEntry)
    requires forall i :: 0 <= i < |s| ==> !UpTo(s[i], e)
    ensures SumUpTo(s, e) == 0
  {
    if s != [] {
      SumUpToNone(s[..|s| - 1], e);
    }
  }

  /**
   * In a chronologically sorted sequence, the entries up to s[k] are exactly
   * s[0..k], so the order-free sum equals the prefix sum a single walk computes.
   */
  lemma SortedPrefixSum(s: seq<CashflowEntry>, k: int)
    requires StrictlySortedBy(s, ChronoKey)
    requires 0 <= k < |s|
    ensures SumUpTo(s, s[k]) == SignedSum(s[..k + 1])
  {
    assert s == s[..k + 1] + s[k + 1..];
    SumUpToAppend(s[..k + 1], s[k + 1..], s[k]);
    SumUpToAll(s[..k + 1], s[k]);
    var later := s[k + 1..];
    forall i | 0 <= i < |later| ensures !UpTo(later[i], s[k]) {
      assert later[i] == s[k + 1 + i];
      assert KeyLt(ChronoKey(s[k]), ChronoKey(s[k + 1 + i]));
    }
    SumUpToNone(s[k + 1..], s[k]);
  }

  /** The entries of s that satisfy keep, in their order: a `WHERE` clause. */
  function Where(s: seq<CashflowEntry>, keep: CashflowEntry -> bool): seq<CashflowEntry> {
    if s == [] then []
    else Where(s[..|s| - 1], keep) + (if keep(s[|s| - 1]) then [s[|s| - 1]] else [])
  }

  /** Where keeps exactly the entries that satisfy keep. */
  lemma {:induction false} WhereMembers(s: seq<CashflowEntry>, keep: CashflowEntry -> bool)
    ensures forall x :: x in Where(s, keep) <==> x in s && keep(x)
  {
    if s != [] {
      var init := s[..|s| - 1];
      WhereMembers(init, keep);
      assert s == init + [s[|s| - 1]];
    }
  }

  /** Filtering a table keeps its ids distinct. */
  lemma {:induction false} WhereIds(s: seq<CashflowEntry>, keep: CashflowEntry -> bool)
    requires IdsDistinct(s)
    ensures IdsDistinct(Where(s, keep))
  {
    if s != [] {
      var init := s[..|s| - 1];
      var last := s[|s| - 1];
      assert IdsDistinct(init) by {
        forall i, j | 0 <= i < |init| && 0 <= j < |init| && init[i].id == init[j].id ensures i == j {
          assert s[i] == init[i] && s[j] == init[j];
        }
      }
      WhereIds(init, keep);
      WhereMembers(init, keep);
      var w := Where(init, keep);
      forall i | 0 <= i < |w| ensures w[i].id != last.id {
        assert w[i] in init;
        var p :| 0 <= p < |init| && init[p] == w[i];
        assert s[p] == init[p];
      }
      if keep(last) {
        var r := Where(s, keep);
        assert r == w + [last];
        forall i, j | 0 <= i < |r| && 0 <= j < |r| && r[i].id == r[j].id ensures i == j {
          if i < |w| && j < |w| {
            assert r[i] == w[i] && r[j] == w[j];
          }
        }
      } else {
        assert Where(s, keep) == w;
      }
    }
  }

  /** Reading a table back to front keeps its ids distinct. */
  lemma ReverseIds(s: seq<CashflowEntry>)
    requires IdsDistinct(s)
    ensures IdsDistinct(Reverse(s))
  {
    var r := Reverse(s);
    forall i, j | 0 <= i < |r| && 0 <= j < |r| && r[i].id == r[j].id ensures i == j {
      assert s[|s| - 1 - i].id == s[|s| - 1 - j].id;
    }
  }

  /** The working copy sorted by (date asc, id asc). */
  function Chronological(s: seq<CashflowEntry>): (r: seq<CashflowEntry>)
    ensures |r| == |s| && multiset(r) == multiset(s)
    ensures IdsDistinct(s) ==> StrictlySortedBy(r, ChronoKey) && IdsDistinct(r)
  {
    var r := SortBy(s, ChronoKey);
    if IdsDistinct(s) then
      ChronologicalKeepsIds(s, r);
      r
    else
      r
  }

  lemma ChronologicalKeepsIds(s: seq<CashflowEntry>, r: seq<CashflowEntry>)
    requires IdsDistinct(s)
    requires multiset(r) == multiset(s)
    requires KeysDistinct(s, ChronoKey) ==> StrictlySortedBy(r, ChronoKey)
    ensures StrictlySortedBy(r, ChronoKey) && IdsDistinct(r)
  {
    assert KeysDistinct(s, ChronoKey);
    forall i, j | 0 <= i < j < |r| ensures r[i].id != r[j].id {
      assert KeyLt(ChronoKey(r[i]), ChronoKey(r[j]));
      assert r[i] in multiset(s) && r[j] in multiset(s);
      var p :| 0 <= p < |s| && s[p] == r[i];
      var q :| 0 <= q < |s| && s[q] == r[j];
      assert p != q;
    }
  }
}

=== FILE: material_api.dfy ===
/**
 * The stock endpoint: validating a delivery posted by the page, storing it,
 * and listing deliveries a page at a time, newest first, optionally
 * restricted to one origin, together with totals over every matching
 * delivery and the list of all origins.
 */
module MaterialApi {
  import opened Wrappers
  import opened Js
  import opened Types
  import opened Ordering
  import opened Validation

  // ---------------------------------------------------------------------------
  // validateStockEntry

  const MSG_BODY_MISSING: string := "Request body is missing."
  const MSG_BAD_DATE: string := "A valid date is required."
  const MSG_BAD_SUPPLIER: string := "Supplier name is required."
  const MSG_BAD_DRIVER: string := "Driver name is required."
  const MSG_BAD_ORIGIN: string := "Origin is required."

  function MissingMessage(grade: string): string {
    grade + " quality log data is missing."
  }

  function CountMessage(grade: string): string {
    grade + " count must be a non-negative integer up to 2147483647."
  }

  function VolumeMessage(grade: string): string {
    grade + " volume must be a non-negative number less than 100000000."
  }

  function DecimalsMessage(grade: string): string {
    grade + " volume cannot have more than 2 decimal places."
  }

  function PriceMessage(grade: string): string {
    grade + " price must be a non-negative integer up to 9223372036854776000."
  }

  /** A whole number of logs that fits an INT column. */
  predicate CountOk(j: Json) {
    j.Number? && IsInteger(j.n) && 0 <= j.n.digits <= MAX_INT
  }

  /** A volume in [0, 100000000). */
  predicate VolumeOk(j: Json) {
    j.Number? && j.n.digits >= 0 && Below(j.n, MAX_VOLUME)
  }

  /** The decimals rule, made only of numbers (others already failed VolumeOk). */
  predicate DecimalsOk(j: Json) {
    j.Number? ==> VolumeDecimalsOk(j.n)
  }

  /** A whole price that fits a BIGINT column. */
  predicate PriceOk(j: Json) {
    j.Number? && IsInteger(j.n) && 0 <= j.n.digits <= MAX_BIGINT
  }

  /** The checks made of one quality grade's log, in order, each with its message. */
  function LogChecks(grade: string, log: Json): seq<Check> {
    [ Check(IsObjectValue(log), MissingMessage(grade)),
      Check(CountOk(Get(log, "count")), CountMessage(grade)),
      Check(VolumeOk(Get(log, "volume")), VolumeMessage(grade)),
      Check(DecimalsOk(Get(log, "volume")), DecimalsMessage(grade)),
      Check(PriceOk(Get(log, "price")), PriceMessage(grade)) ]
  }

  /** The checks of the delivery's own fields, in order. */
  function FieldChecks(body: Json, dates: DateReader): seq<Check> {
    [ Check(ReadableDate(Get(body, "date"), dates), MSG_BAD_DATE),
      Check(NonBlankString(Get(body, "supplier")), MSG_BAD_SUPPLIER),
      Check(NonBlankString(Get(body, "driver")), MSG_BAD_DRIVER),
      Check(NonBlankString(Get(body, "origin")), MSG_BAD_ORIGIN) ]
  }

  /** Every check validateStockEntry makes, in the order it makes them. */
  function StockChecks(body: Json, dates: DateReader): seq<Check> {
    FieldChecks(body, dates) + LogChecks("Super", Get(body, "super")) + LogChecks("Rijek", Get(body, "rijek"))
  }

  /** A grade's log that passes every check. */
  predicate LogAccepted(log: Json) {
    IsObjectValue(log) && CountOk(Get(log, "count")) && VolumeOk(Get(log, "volume")) &&
    VolumeDecimalsOk(Get(log, "volume").n) && PriceOk(Get(log, "price"))
  }

  /** The checks of one grade's log: the message of the first that fails, or None. */
  function ValidateQualityLog(grade: string, log: Json): (r: Option<string>)
    ensures r == FirstFailure(LogChecks(grade, log))
    ensures r.None? <==> LogAccepted(log)
  {
    var cs := LogChecks(grade, log);
    assert FirstFailure(cs[4..]) == if !cs[4].ok then Some(cs[4].message) else FirstFailure(cs[5..]);
    assert FirstFailure(cs[3..]) == if !cs[3].ok then Some(cs[3].message) else FirstFailure(cs[4..]);
    assert FirstFailure(cs[2..]) == if !cs[2].ok then Some(cs[2].message) else FirstFailure(cs[3..]);
    assert FirstFailure(cs[1..]) == if !cs[1].ok then Some(cs[1].message) else FirstFailure(cs[2..]);
    var count := Get(log, "count");
    var volume := Get(log, "volume");
    var price := Get(log, "price");
    if !IsObjectValue(log) then Some(MissingMessage(grade))
    else if !CountOk(count) then Some(CountMessage(grade))
    else if !VolumeOk(volume) then Some(VolumeMessage(grade))
    else if !VolumeDecimalsOk(volume.n) then Some(DecimalsMessage(grade))
    else if !PriceOk(price) then Some(PriceMessage(grade))
    else None
  }

  /** Everything validateStockEntry demands of a delivery. */
  predicate StockAccepted(body: Json, dates: DateReader) {
    ReadableDate(Get(body, "date"), dates) && NonBlankString(Get(body, "supplier")) &&
    NonBlankString(Get(body, "driver")) && NonBlankString(Get(body, "origin")) &&
    LogAccepted(Get(body, "super")) && LogAccepted(Get(body, "rijek"))
  }

  /**
   * validateStockEntry: the message of the first failing check, or None; the
   * Rijek log is looked at only when everything before it passes.
   */
  function ValidateStockEntry(body: Json, dates: DateReader): (r: Option<string>)
    ensures r == FirstFailure(StockChecks(body, dates))
    ensures r.None? <==> StockAccepted(body, dates)
  {
    StockChecksInOrder(body, dates);
    if !ReadableDate(Get(body, "date"), dates) then Some(MSG_BAD_DATE)
    else if !NonBlankString(Get(body, "supplier")) then Some(MSG_BAD_SUPPLIER)
    else if !NonBlankString(Get(body, "driver")) then Some(MSG_BAD_DRIVER)
    else if !NonBlankString(Get(body, "origin")) then Some(MSG_BAD_ORIGIN)
    else
      var superError := ValidateQualityLog("Super", Get(body, "super"));
      if superError.Some? then superError
      else ValidateQualityLog("Rijek", Get(body, "rijek"))
  }

  /** The delivery's checks are decided field by field, then Super, then Rijek. */
  lemma StockChecksInOrder(body: Json, dates: DateReader)
    ensures FirstFailure(StockChecks(body, dates)) ==
      if !ReadableDate(Get(body, "date"), dates) then Some(MSG_BAD_DATE)
      else if !NonBlankString(Get(body, "supplier")) then Some(MSG_BAD_SUPPLIER)
      else if !NonBlankString(Get(body, "driver")) then Some(MSG_BAD_DRIVER)
      else if !NonBlankString(Get(body, "origin")) then Some(MSG_BAD_ORIGIN)
      else if FirstFailure(LogChecks("Super", Get(body, "super"))).Some? then FirstFailure(LogChecks("Super", Get(body, "super")))
      else FirstFailure(LogChecks("Rijek", Get(body, "rijek")))
  {
    var fc := FieldChecks(body, dates);
    var sc := LogChecks("Super", Get(body, "super"));
    var rc := LogChecks("Rijek", Get(body, "rijek"));
    assert FirstFailure(fc[3..]) == if !fc[3].ok then Some(fc[3].message) else FirstFailure(fc[4..]);
    assert FirstFailure(fc[2..]) == if !fc[2].ok then Some(fc[2].message) else FirstFailure(fc[3..]);
    assert FirstFailure(fc[1..]) == if !fc[1].ok then Some(fc[1].message) else FirstFailure(fc[2..]);
    FirstFailureAppend(fc, sc);
    FirstFailureAppend(fc + sc, rc);
  }

  // ---------------------------------------------------------------------------
  // The decimal-places rule

  /**
   * The rule as written: the text `String(volume)` either has no '.' or at most
   * two characters between its first '.' and the next.
   */
  predicate VolumeDecimalsAsWritten(n: Decimal)
    requires n.digits >= 0 && Below(n, MAX_VOLUME)
  {
    BelowRaised(n, MAX_VOLUME, Pow10(21));
    var s := NumberToString(n);
    !('.' in s && |SecondPiece(s)| > 2)
  }

  /** The rule as intended: the volume has at most two decimal places. */
  predicate VolumeDecimalsOk(n: Decimal) {
    n.scale <= 2
  }

  /** A number below k is below any larger bound. */
  lemma BelowRaised(n: Decimal, k: int, k': int)
    requires Below(n, k) && k <= k'
    ensures Below(n, k')
  {
    assert (k' - k) * Pow10(n.scale) >= 0;
  }

  /** 10^a <= 10^b when a <= b. */
  lemma {:induction false} Pow10Mono(a: nat, b: nat)
    requires a <= b
    ensures Pow10(a) <= Pow10(b)
  {
    if a < b {
      Pow10Mono(a, b - 1);
    }
  }

  /** Integer division recovers q from any a in [q*b, (q+1)*b). */
  lemma DivBetween(a: int, b: int, q: int)
    requires b > 0 && q * b <= a < (q + 1) * b
    ensures a / b == q
  {
    var d := a / b;
    assert d * b <= a < d * b + b;
    assert (d - q) * b < b && (q - d) * b < b;
    ProductAtLeast(d - q, b);
    ProductAtLeast(q - d, b);
  }

  /** A positive multiple of b is at least b. */
  lemma ProductAtLeast(x: int, b: int)
    requires b > 0
    ensures x >= 1 ==> x * b >= b
  {
    if x >= 1 {
      assert x * b == b + (x - 1) * b;
    }
  }

  /**
   * For volumes the plain decimal notation prints (every whole number, and
   * fractions from 10^-6 up), the rule as written is the intended one.
   */
  lemma VolumeRulesAgree(n: Decimal)
    requires n.digits >= 0 && Below(n, MAX_VOLUME)
    requires n.scale == 0 || n.digits * Pow10(6) >= Pow10(n.scale)
    ensures VolumeDecimalsAsWritten(n) <==> VolumeDecimalsOk(n)
  {
    BelowRaised(n, MAX_VOLUME, Pow10(21));
    if n.scale == 0 {
      assert NumberToString(n) == NatToString(n.digits);
    } else {
      var whole := WholeText(n);
      var frac := FractionDigits(n);
      assert NumberToString(n) == whole + "." + frac;
      FractionDigitsLength(n);
      SecondPieceOfPoint(whole, frac);
    }
  }

  /** A volume of d * 10^-s with s >= 7 is below the cap and below 10^-6. */
  lemma TinyVolumeBounds(d: int, s: nat)
    requires 1 <= d <= 9 && s >= 7
    ensures Canonical(Num(d, s)) && Below(Num(d, s), MAX_VOLUME) && Below(Num(d, s), Pow10(21))
    ensures d * Pow10(6) < Pow10(s) && 200 * d < Pow10(s)
  {
    Pow10Mono(7, s);
    Pow10SixSeven();
    ProductAtLeast(MAX_VOLUME, Pow10(s));
    ProductAtLeast(Pow10(21), Pow10(s));
  }

  lemma Pow10SixSeven()
    ensures Pow10(6) == 1000000 && Pow10(7) == 10000000
  {
  }

  /** A one-digit number below 10^-6 is written as that digit, "e-" and the exponent. */
  lemma ExponentText(n: Decimal)
    requires 1 <= n.digits <= 9 && n.scale > 0 && Below(n, Pow10(21))
    requires n.digits * Pow10(6) < Pow10(n.scale)
    ensures NumberToString(n) == [DigitChar(n.digits)] + "e-" + NatToString(n.scale)
  {
    assert NatToString(n.digits) == [DigitChar(n.digits)];
    ExponentBranch(n);
  }

  /** Below 10^-6 a number whose decimal text is one digit is written without a fraction part. */
  lemma ExponentBranch(n: Decimal)
    requires n.digits >= 0 && n.scale > 0 && Below(n, Pow10(21))
    requires n.digits * Pow10(6) < Pow10(n.scale) && |NatToString(n.digits)| == 1
    ensures NumberToString(n) == [NatToString(n.digits)[0]] + "e-" + NatToString(n.scale)
  {
  }

  /** `String(x)` writes such a volume in exponent notation, with no '.'. */
  lemma TinyVolumeText(d: int, s: nat)
    requires 1 <= d <= 9 && s >= 7
    ensures Canonical(Num(d, s)) && Below(Num(d, s), Pow10(21))
    ensures '.' !in NumberToString(Num(d, s))
  {
    TinyVolumeBounds(d, s);
    ExponentText(Num(d, s));
    var t := [DigitChar(d)] + "e-" + NatToString(s);
    forall i | 0 <= i < |t| ensures t[i] != '.' {
      if i >= 3 {
        assert t[i] == NatToString(s)[i - 3];
      }
    }
  }

  /** The NUMERIC(10, 2) column rounds such a volume to 0. */
  lemma TinyVolumeStoredAsZero(d: int, s: nat)
    requires 1 <= d <= 9 && s >= 7
    ensures Canonical(Num(d, s)) && StoredVolume(Num(d, s)) == 0
  {
    TinyVolumeBounds(d, s);
    var p := Pow10(s);
    DivBetween(2 * 100 * d + p, 2 * p, 0);
  }

  /**
   * A volume of d * 10^-s with s >= 7 prints in exponent notation (`5e-7`),
   * which has no '.', so the rule as written lets it through, although it has
   * s decimal places and the NUMERIC(10, 2) column stores it as 0.
   */
  lemma TinyVolumeSlipsThrough(d: int, s: nat)
    requires 1 <= d <= 9 && s >= 7
    ensures Canonical(Num(d, s))
    ensures VolumeDecimalsAsWritten(Num(d, s))
    ensures !VolumeDecimalsOk(Num(d, s))
    ensures StoredVolume(Num(d, s)) == 0
  {
    TinyVolumeText(d, s);
    TinyVolumeStoredAsZero(d, s);
  }

  /**
   * How a NUMERIC(10, 2) column stores a non-negative volume: rounded to
   * hundredths, halves away from zero. The result is in hundredths.
   */
  function StoredVolume(n: Decimal): (h: int)
    requires n.digits >= 0
    ensures h >= 0
  {
    DivMod(2 * 100 * n.digits + Pow10(n.scale), 2 * Pow10(n.scale));
    (2 * 100 * n.digits + Pow10(n.scale)) / (2 * Pow10(n.scale))
  }

  /** A volume with at most two decimal places is stored exactly. */
  lemma StoredVolumeExact(n: Decimal)
    requires n.digits >= 0 && VolumeDecimalsOk(n)
    ensures StoredVolume(n) == Hundredths(n)
    ensures StoredVolume(n) * Pow10(n.scale) == 100 * n.digits
  {
    var p := Pow10(n.scale);
    var h := Hundredths(n);
    assert h * p == 100 * n.digits by {
      if n.scale == 0 {
      } else if n.scale == 1 {
        assert Pow10(1) == 10;
      } else {
        assert Pow10(2) == 100 && Pow10(1) == 10;
      }
    }
    DivBetween(2 * 100 * n.digits + p, 2 * p, h);
  }

  // ---------------------------------------------------------------------------
  // Rows and mapRowToStockEntry

  /** A row of stock_entries as the database returns it; volumes in hundredths. */
  datatype StockRow = StockRow(
    id: int,
    supplier: string,
    driver: string,
    origin: string,
    date: int,
    superCount: int,
    superVolume: int,
    superPrice: int,
    rijekCount: int,
    rijekVolume: int,
    rijekPrice: int)

  /** mapRowToStockEntry: the flat row as a delivery with one log per grade. */
  function MapRowToStockEntry(row: StockRow): StockEntry {
    StockEntry(row.id, row.supplier, row.driver, row.origin, row.date,
      LogData(row.superCount, row.superVolume, row.superPrice),
      LogData(row.rijekCount, row.rijekVolume, row.rijekPrice))
  }

  /** The row a delivery is stored as: its logs flattened into columns. */
  function ToRow(e: StockEntry): StockRow {
    StockRow(e.id, e.supplier, e.driver, e.origin, e.date,
      e.superLog.count, e.superLog.volume, e.superLog.price,
      e.rijekLog.count, e.rijekLog.volume, e.rijekLog.price)
  }

  /** Mapping a row to a delivery loses nothing. */
  lemma RowRoundTrip(row: StockRow)
    ensures ToRow(MapRowToStockEntry(row)) == row
  {
  }

  /** Every delivery is the mapping of exactly one row. */
  lemma EntryRoundTrip(e: StockEntry)
    ensures MapRowToStockEntry(ToRow(e)) == e
  {
  }

  /** The deliveries of a list of rows, in the same order. */
  function Entries(rows: seq<StockRow>): (es: seq<StockEntry>)
    ensures |es| == |rows|
    ensures forall i :: 0 <= i < |rows| ==> es[i] == MapRowToStockEntry(rows[i])
  {
    seq(|rows|, i requires 0 <= i < |rows| => MapRowToStockEntry(rows[i]))
  }

  /** A log as its columns hold it. */
  predicate StoredLog(count: int, volume: int, price: int) {
    0 <= count <= MAX_INT && 0 <= volume < MAX_VOLUME * 100 && 0 <= price <= MAX_BIGINT
  }

  /** A name column: non-blank text within VARCHAR(255), without U+0000. */
  predicate StoredName(s: string) {
    !IsBlank(s) && |s| <= MAX_VARCHAR && StorableText(s)
  }

  /** What every row written through the endpoint satisfies. */
  predicate StoredRow(row: StockRow) {
    StoredName(row.supplier) && StoredName(row.driver) && StoredName(row.origin) &&
    StoredLog(row.superCount, row.superVolume, row.superPrice) &&
    StoredLog(row.rijekCount, row.rijekVolume, row.rijekPrice)
  }

  /**
   * What a VARCHAR(255) column makes of a text (PostgreSQL, section 8.3,
   * "Character Types"): a text that fits is stored as it is; a longer one is
   * cut to 255 characters when everything past them is spaces, and refused
   * (None) otherwise.
   */
  function VarcharStore(s: string): (r: Option<string>)
    ensures |s| <= MAX_VARCHAR ==> r == Some(s)
    ensures r.Some? ==>
      |r.value| <= MAX_VARCHAR && r.value == s[..|r.value|] && forall i :: |r.value| <= i < |s| ==> s[i] == ' '
    ensures r.None? ==> exists i :: MAX_VARCHAR <= i < |s| && s[i] != ' '
  {
    if |s| <= MAX_VARCHAR then Some(s)
    else if forall i :: MAX_VARCHAR <= i < |s| ==> s[i] == ' ' then Some(s[..MAX_VARCHAR])
    else None
  }

  /** Cutting trailing spaces keeps a text that is not blank not blank. */
  lemma VarcharKeepsNonBlank(s: string)
    requires !IsBlank(s) && VarcharStore(s).Some?
    ensures !IsBlank(VarcharStore(s).value)
  {
    var r := VarcharStore(s).value;
    var k :| 0 <= k < |s| && !IsWhitespace(s[k]);
    assert k < |r| && r[k] == s[k];
  }

  /** Cutting a text keeps a text without U+0000 without it. */
  lemma VarcharKeepsStorable(s: string)
    requires StorableText(s) && VarcharStore(s).Some?
    ensures StorableText(VarcharStore(s).value)
  {
  }

  /**
   * The three names, stored as sent (untrimmed), are taken by their
   * VARCHAR(255) columns: each is cut or kept by the length rule and holds no U+0000.
   */
  predicate FitsColumns(body: Json) {
    var supplier := Get(body, "supplier");
    var driver := Get(body, "driver");
    var origin := Get(body, "origin");
    supplier.Str? && driver.Str? && origin.Str? &&
    VarcharStore(supplier.s).Some? && VarcharStore(driver.s).Some? && VarcharStore(origin.s).Some? &&
    StorableText(supplier.s) && StorableText(driver.s) && StorableText(origin.s)
  }

  /** A name holding U+0000 is not taken by its column, so the INSERT fails. */
  lemma NulNameRefused(body: Json)
    requires Get(body, "supplier").Str? && Get(body, "driver").Str? && Get(body, "origin").Str?
    requires !StorableText(Get(body, "supplier").s) || !StorableText(Get(body, "driver").s) ||
      !StorableText(Get(body, "origin").s)
    ensures !FitsColumns(body)
  {
  }

  /** The log columns the database stores for an accepted grade. */
  function StoredLogOf(log: Json): (l: LogData)
    requires LogAccepted(log)
    ensures StoredLog(l.count, l.volume, l.price)
    ensures l.volume * Pow10(Get(log, "volume").n.scale) == 100 * Get(log, "volume").n.digits
    ensures l.count == Get(log, "count").n.digits && l.price == Get(log, "price").n.digits
  {
    var volume := Get(log, "volume").n;
    StoredVolumeExact(volume);
    assert Hundredths(volume) < MAX_VOLUME * 100 by {
      if volume.scale == 0 {
      } else if volume.scale == 1 {
        assert Pow10(1) == 10;
      } else {
        assert Pow10(2) == 100 && Pow10(1) == 10;
      }
    }
    LogData(Get(log, "count").n.digits, StoredVolume(volume), Get(log, "price").n.digits)
  }

  /**
   * The row the INSERT stores for an accepted delivery under the given id: the
   * names as sent, as their columns take them, the date as the database reads
   * it, each volume exactly.
   */
  function RowFromBody(id: int, body: Json, dates: DateReader): (row: StockRow)
    requires StockAccepted(body, dates) && FitsColumns(body)
    ensures row.id == id && StoredRow(row)
    ensures row.supplier == VarcharStore(Get(body, "supplier").s).value &&
      row.driver == VarcharStore(Get(body, "driver").s).value &&
      row.origin == VarcharStore(Get(body, "origin").s).value
    ensures |Get(body, "supplier").s| <= MAX_VARCHAR ==> row.supplier == Get(body, "supplier").s
    ensures |Get(body, "driver").s| <= MAX_VARCHAR ==> row.driver == Get(body, "driver").s
    ensures |Get(body, "origin").s| <= MAX_VARCHAR ==> row.origin == Get(body, "origin").s
  {
    var superLog := StoredLogOf(Get(body, "super"));
    var rijekLog := StoredLogOf(Get(body, "rijek"));
    var supplier := Get(body, "supplier").s;
    var driver := Get(body, "driver").s;
    var origin := Get(body, "origin").s;
    VarcharKeepsNonBlank(supplier);
    VarcharKeepsNonBlank(driver);
    VarcharKeepsNonBlank(origin);
    VarcharKeepsStorable(supplier);
    VarcharKeepsStorable(driver);
    VarcharKeepsStorable(origin);
    ToRow(StockEntry(id, VarcharStore(supplier).value, VarcharStore(driver).value, VarcharStore(origin).value,
      dates(Get(body, "date").s).value, superLog, rijekLog))
  }

  predicate StockIdsDistinct(rows: seq<StockRow>) {
    forall i, j :: 0 <= i < |rows| && 0 <= j < |rows| && rows[i].id == rows[j].id ==> i == j
  }

  /**
   * The table's invariant: ids are distinct (the primary key), positive and no
   * greater than the last id the sequence handed out; every row is stored.
   */
  predicate StockInvariant(rows: seq<StockRow>, lastId: int) {
    lastId >= 0 && StockIdsDistinct(rows) &&
    forall i :: 0 <= i < |rows| ==> 0 < rows[i].id <= lastId && StoredRow(rows[i])
  }

  /** POST keeps the invariant: the new row takes the next id. */
  lemma StockInsertKeepsInvariant(rows: seq<StockRow>, lastId: int, row: StockRow)
    requires StockInvariant(rows, lastId)
    requires row.id == lastId + 1 && StoredRow(row)
    ensures StockInvariant(rows + [row], lastId + 1)
  {
    var r := rows + [row];
    assert forall i :: 0 <= i < |rows| ==> r[i] == rows[i] && r[i].id != row.id;
    assert r[|rows|] == row;
  }

  // ---------------------------------------------------------------------------
  // GET: filter, order, page

  const DEFAULT_PAGE: int := 1
  const DEFAULT_LIMIT: int := 6

  /** `parseInt(query[name], 10) || default`: the default when missing, unreadable or 0. */
  function IntParamOr(query: map<string, string>, name: string, default: int): (r: int)
    ensures default != 0 ==> r != 0
    ensures name !in query ==> r == default
  {
    var p := if name in query then ParseInt(query[name]) else None;
    if p.None? || p.value == 0 then default else p.value
  }

  /** The rows a page starting at offset skips: `(page - 1) * limit`. */
  function Offset(page: int, limit: int): int {
    (page - 1) * limit
  }

  /** `LIMIT limit OFFSET offset`: at most limit elements, starting at offset. */
  function Page<T>(s: seq<T>, offset: nat, limit: nat): (r: seq<T>)
    ensures |r| <= limit
    ensures |r| == if offset >= |s| then 0 else if |s| - offset < limit then |s| - offset else limit
    ensures forall i :: 0 <= i < |r| ==> r[i] == s[offset + i]
  {
    if offset >= |s| then []
    else if |s| - offset < limit then s[offset..]
    else s[offset..offset + limit]
  }

  /** The ordering key of `ORDER BY date DESC, id DESC`, read ascending. */
  function StockKey(row: StockRow): Key {
    Key(row.date, row.id)
  }

  /** The rows newest first: latest date first, the larger id first on equal dates. */
  function NewestFirst(rows: seq<StockRow>): seq<StockRow> {
    Reverse(SortBy(rows, StockKey))
  }

  /**
   * Newest first lists each row once and strictly decreases in (date, id), so
   * the order, and with it every page, is fully determined.
   */
  lemma NewestFirstFacts(rows: seq<StockRow>)
    requires StockIdsDistinct(rows)
    ensures multiset(NewestFirst(rows)) == multiset(rows)
    ensures forall i, j :: 0 <= i < j < |rows| ==>
      KeyLt(StockKey(NewestFirst(rows)[j]), StockKey(NewestFirst(rows)[i]))
  {
    assert KeysDistinct(rows, StockKey);
    ReverseMultiset(SortBy(rows, StockKey));
    ReverseDescending(SortBy(rows, StockKey), StockKey);
  }

  /** `WHERE origin ILIKE pattern`; how ILIKE matches is the parameter. */
  function Matching(rows: seq<StockRow>, pattern: string, ilike: (string, string) -> bool): seq<StockRow> {
    if rows == [] then []
    else
      var prev := Matching(rows[..|rows| - 1], pattern, ilike);
      var last := rows[|rows| - 1];
      if ilike(last.origin, pattern) then prev + [last] else prev
  }

  /** The matching rows are the rows whose origin matches, each as often as in rows. */
  lemma {:induction false} MatchingMembers(rows: seq<StockRow>, pattern: string, ilike: (string, string) -> bool)
    ensures forall r :: multiset(Matching(rows, pattern, ilike))[r] ==
                        (if ilike(r.origin, pattern) then multiset(rows)[r] else 0)
  {
    if rows != [] {
      MatchingMembers(rows[..|rows| - 1], pattern, ilike);
      assert rows == rows[..|rows| - 1] + [rows[|rows| - 1]];
    }
  }

  /** The rows GET lists and sums: those matching the origin parameter when it is given. */
  /**
   * The origin filter can be bound: a non-empty `origin` is sent as the text
   * parameter of the three filtered queries, which fail on U+0000.
   */
  predicate OriginBindable(query: map<string, string>) {
    HasParam(query, "origin") ==> StorableText(query["origin"])
  }

  function Selected(rows: seq<StockRow>, query: map<string, string>, ilike: (string, string) -> bool): seq<StockRow> {
    if HasParam(query, "origin") then Matching(rows, query["origin"], ilike) else rows
  }

  /** The selection keeps the table's ids distinct. */
  lemma SelectedIds(rows: seq<StockRow>, query: map<string, string>, ilike: (string, string) -> bool)
    requires StockIdsDistinct(rows)
    ensures StockIdsDistinct(Selected(rows, query, ilike))
  {
    if HasParam(query, "origin") {
      MatchingIds(rows, query["origin"], ilike);
    }
  }

  lemma {:induction false} MatchingIds(rows: seq<StockRow>, pattern: string, ilike: (string, string) -> bool)
    requires StockIdsDistinct(rows)
    ensures StockIdsDistinct(Matching(rows, pattern, ilike))
  {
    if rows != [] {
      var init := rows[..|rows| - 1];
      var last := rows[|rows| - 1];
      assert StockIdsDistinct(init) by {
        forall i, j | 0 <= i < |init| && 0 <= j < |init| && init[i].id == init[j].id ensures i == j {
          assert init[i] == rows[i] && init[j] == rows[j];
        }
      }
      MatchingIds(init, pattern, ilike);
      MatchingMembers(init, pattern, ilike);
      var m := Matching(init, pattern, ilike);
      forall i | 0 <= i < |m| ensures m[i].id != last.id {
        assert m[i] in multiset(m);
        assert m[i] in multiset(init);
        var k :| 0 <= k < |init| && init[k] == m[i];
        assert rows[k] == m[i];
      }
    }
  }

  /** Row i of a listing is on page i / limit + 1, at position i % limit. */
  lemma PageOfRow<T>(s: seq<T>, limit: nat, i: nat)
    requires limit >= 1 && i < |s|
    ensures Offset(i / limit + 1, limit) == i - i % limit >= 0
    ensures i % limit < |Page(s, Offset(i / limit + 1, limit), limit)|
    ensures Page(s, Offset(i / limit + 1, limit), limit)[i % limit] == s[i]
  {
    assert Offset(i / limit + 1, limit) == (i / limit) * limit;
  }

  /** The number of pages a listing of n rows takes: `Math.ceil(n / limit)`. */
  function PageCount(n: nat, limit: nat): (k: nat)
    requires limit >= 1
    ensures (k - 1) * limit < n <= k * limit || (n == 0 && k == 0)
  {
    var k := (n + limit - 1) / limit;
    assert k * limit <= n + limit - 1 < k * limit + limit;
    k
  }

  /** Pages 1 to k of a listing, one after another. */
  function PagesUpTo<T>(s: seq<T>, limit: nat, k: nat): seq<T> {
    if k == 0 then [] else PagesUpTo(s, limit, k - 1) + Page(s, (k - 1) * limit, limit)
  }

  /** Pages 1 to k together are the first k * limit rows (or all of them). */
  lemma {:induction false} PagesUpToPrefix<T>(s: seq<T>, limit: nat, k: nat)
    ensures PagesUpTo(s, limit, k) == s[..if k * limit < |s| then k * limit else |s|]
  {
    if k > 0 {
      PagesUpToPrefix(s, limit, k - 1);
      var lo := (k - 1) * limit;
      assert lo + limit == k * limit;
      PrefixThenPage(s, lo, limit);
    }
  }

  /** The first lo rows (or all) followed by the page at lo are the first lo + limit rows (or all). */
  lemma PrefixThenPage<T>(s: seq<T>, lo: nat, limit: nat)
    ensures s[..if lo < |s| then lo else |s|] + Page(s, lo, limit) ==
      s[..if lo + limit < |s| then lo + limit else |s|]
  {
    var hi := if lo + limit < |s| then lo + limit else |s|;
    var r := s[..if lo < |s| then lo else |s|] + Page(s, lo, limit);
    assert |r| == hi;
    forall i | 0 <= i < hi ensures r[i] == s[i] {
    }
  }

  /** Walking every page lists every row exactly once, in order. */
  lemma PagesCoverListing<T>(s: seq<T>, limit: nat)
    requires limit >= 1
    ensures PagesUpTo(s, limit, PageCount(|s|, limit)) == s
  {
    PagesUpToPrefix(s, limit, PageCount(|s|, limit));
  }

  /**
   * The summary's totals are the totals of everything the pages list: summing a
   * column page by page over every page gives the summary's sum.
   */
  lemma SummaryCoversEveryPage(selected: seq<StockRow>, limit: nat, column: StockRow -> int)
    requires StockIdsDistinct(selected) && limit >= 1
    ensures SumOf(PagesUpTo(NewestFirst(selected), limit, PageCount(|selected|, limit)), column) ==
      SumOf(selected, column)
  {
    NewestFirstFacts(selected);
    PagesCoverListing(NewestFirst(selected), limit);
    SumOfPermutation(NewestFirst(selected), selected, column);
  }

  // ---------------------------------------------------------------------------
  // GET: the summary

  /** The sum of one column over the rows: `COALESCE(SUM(column), 0)`. */
  function SumOf(rows: seq<StockRow>, column: StockRow -> int): int {
    if rows == [] then 0 else SumOf(rows[..|rows| - 1], column) + column(rows[|rows| - 1])
  }

  lemma {:induction false} SumOfAppend(a: seq<StockRow>, b: seq<StockRow>, column: StockRow -> int)
    ensures SumOf(a + b, column) == SumOf(a, column) + SumOf(b, column)
    decreases |b|
  {
    if b == [] {
      assert a + b == a;
    } else {
      assert (a + b)[..|a + b| - 1] == a + b[..|b| - 1];
      SumOfAppend(a, b[..|b| - 1], column);
    }
  }

  /** A column's sum depends only on which rows there are, not on their order. */
  lemma {:induction false} SumOfPermutation(a: seq<StockRow>, b: seq<StockRow>, column: StockRow -> int)
    requires multiset(a) == multiset(b)
    ensures SumOf(a, column) == SumOf(b, column)
    decreases |a|
  {
    if a == [] {
      assert |b| == |multiset(b)|;
    } else {
      var x := a[|a| - 1];
      var a' := a[..|a| - 1];
      assert a == a' + [x];
      assert x in multiset(b);
      var j :| 0 <= j < |b| && b[j] == x;
      RemoveAt(b, j, column);
      assert multiset(a') == multiset(a) - multiset{x};
      SumOfPermutation(a', b[..j] + b[j + 1..], column);
      SumOfAppend(a', [x], column);
    }
  }

  /** Taking out the row at j takes it out of the multiset and its value out of the sum. */
  lemma RemoveAt(b: seq<StockRow>, j: nat, column: StockRow -> int)
    requires j < |b|
    ensures multiset(b[..j] + b[j + 1..]) == multiset(b) - multiset{b[j]}
    ensures SumOf(b, column) == SumOf(b[..j] + b[j + 1..], column) + column(b[j])
  {
    RemoveAtMultiset(b, j);
    RemoveAtSum(b, j, column);
  }

  lemma RemoveAtSum(b: seq<StockRow>, j: nat, column: StockRow -> int)
    requires j < |b|
    ensures SumOf(b, column) == SumOf(b[..j] + b[j + 1..], column) + column(b[j])
  {
    var left, mid, right := b[..j], b[j..], b[j + 1..];
    assert SumOf(b, column) == SumOf(left, column) + SumOf(mid, column) by {
      SumOfAppend(left, mid, column);
      assert left + mid == b;
    }
    assert SumOf(mid, column) == column(b[j]) + SumOf(right, column) by {
      SumOfAppend([b[j]], right, column);
      assert [b[j]] + right == mid;
      assert [b[j]][..0] == [];
    }
    SumOfAppend(left, right, column);
  }

  /** `SELECT DISTINCT origin`: each origin of the table once. */
  function DistinctOrigins(rows: seq<StockRow>): (r: seq<string>)
    ensures forall i, j :: 0 <= i < j < |r| ==> r[i] != r[j]
    ensures forall o :: o in r <==> exists k :: 0 <= k < |rows| && rows[k].origin == o
  {
    if rows == [] then []
    else
      var init := rows[..|rows| - 1];
      var prev := DistinctOrigins(init);
      var o := rows[|rows| - 1].origin;
      assert forall k :: 0 <= k < |init| ==> init[k] == rows[k];
      if o in prev then prev else prev + [o]
  }

  /** The summary GET returns; volumes in hundredths. */
  datatype Summary = Summary(
    totalVolume: int,
    totalValue: int,
    totalLogs: int,
    totalSuperVolume: int,
    totalRijekVolume: int,
    allOrigins: seq<string>)

  /** Totals over the selected rows; the origins of the whole table. */
  function Summarize(selected: seq<StockRow>, table: seq<StockRow>): Summary {
    var superVolume := SumOf(selected, (r: StockRow) => r.superVolume);
    var rijekVolume := SumOf(selected, (r: StockRow) => r.rijekVolume);
    Summary(
      superVolume + rijekVolume,
      SumOf(selected, (r: StockRow) => r.superPrice) + SumOf(selected, (r: StockRow) => r.rijekPrice),
      SumOf(selected, (r: StockRow) => r.superCount) + SumOf(selected, (r: StockRow) => r.rijekCount),
      superVolume,
      rijekVolume,
      DistinctOrigins(table))
  }

  // ---------------------------------------------------------------------------
  // The handler

  /** What the handler answers. */
  datatype Response =
    | Listed(entries: seq<StockEntry>, summary: Summary, totalCount: int)
    | Created(entry: StockEntry)
    | BadRequest(message: string)
    | MethodNotAllowed(allow: seq<string>)
    | ServerError

  /**
   * The database takes the paging parameters: LIMIT and OFFSET are BIGINTs
   * and may not be negative.
   */
  predicate PagingAccepted(limit: int, offset: int) {
    0 <= limit <= MAX_BIGINT && 0 <= offset <= MAX_BIGINT
  }

  class StockTable {
    var rows: seq<StockRow>
    /** The last value handed out by the id sequence (`SERIAL`). */
    var lastId: int

    ghost predicate Valid()
      reads this
    {
      StockInvariant(rows, lastId)
    }

    /** An empty table whose id sequence has not been used. */
    constructor()
      ensures Valid() && rows == [] && lastId == 0
    {
      rows := [];
      lastId := 0;
    }

    /**
     * GET: one page of the selected deliveries, newest first; how many are
     * selected; totals over all of them, not just the page; and every origin of
     * the table, whatever the filter.
     */
    method HandleGet(query: map<string, string>, ilike: (string, string) -> bool) returns (res: Response)
      requires Valid()
      ensures res.Listed? || res.ServerError?
      ensures
        var page := IntParamOr(query, "page", DEFAULT_PAGE);
        var limit := IntParamOr(query, "limit", DEFAULT_LIMIT);
        var offset := Offset(page, limit);
        var selected := Selected(rows, query, ilike);
        (res.ServerError? <==> !PagingAccepted(limit, offset) || !OriginBindable(query)) &&
        (res.Listed? ==>
          res.entries == Entries(Page(NewestFirst(selected), offset, limit)) &&
          res.totalCount == |selected| &&
          res.summary == Summarize(selected, rows))
    {
      var page := IntParamOr(query, "page", DEFAULT_PAGE);
      var limit := IntParamOr(query, "limit", DEFAULT_LIMIT);
      var offset := Offset(page, limit);
      if !PagingAccepted(limit, offset) || !OriginBindable(query) {
        return ServerError;
      }
      var selected := Selected(rows, query, ilike);
      var entries := Entries(Page(NewestFirst(selected), offset, limit));
      res := Listed(entries, Summarize(selected, rows), |selected|);
    }

    /** POST: store an accepted delivery under the next id and return it. */
    method HandlePost(body: Json, dates: DateReader) returns (res: Response)
      requires Valid()
      modifies this
      ensures Valid()
      ensures res.Created? || res.BadRequest? || res.ServerError?
      ensures !Truthy(body) ==> res == BadRequest(MSG_BODY_MISSING)
      ensures Truthy(body) && ValidateStockEntry(body, dates).Some? ==>
        res == BadRequest(ValidateStockEntry(body, dates).value)
      ensures Truthy(body) && ValidateStockEntry(body, dates).None? && !FitsColumns(body) ==>
        res == ServerError
      ensures Truthy(body) && ValidateStockEntry(body, dates).None? && FitsColumns(body) ==>
        rows == old(rows) + [RowFromBody(old(lastId) + 1, body, dates)] && lastId == old(lastId) + 1 &&
        res == Created(MapRowToStockEntry(rows[|rows| - 1]))
      ensures !res.Created? ==> rows == old(rows) && lastId == old(lastId)
    {
      if !Truthy(body) {
        return BadRequest(MSG_BODY_MISSING);
      }
      var validationError := ValidateStockEntry(body, dates);
      if validationError.Some? {
        return BadRequest(validationError.value);
      }
      if !FitsColumns(body) {
        return ServerError;
      }
      var row := RowFromBody(lastId + 1, body, dates);
      StockInsertKeepsInvariant(rows, lastId, row);
      lastId := lastId + 1;
      rows := rows + [row];
      res := Created(MapRowToStockEntry(row));
    }

    /** The handler: GET and POST, and 405 naming them for any other method. */
    method Handle(verb: string, query: map<string, string>, body: Json, dates: DateReader,
                  ilike: (string, string) -> bool) returns (res: Response)
      requires Valid()
      modifies this
      ensures Valid()
      ensures verb != "GET" && verb != "POST" ==>
        res == MethodNotAllowed(["GET", "POST"]) && rows == old(rows) && lastId == old(lastId)
      ensures verb == "GET" ==> rows == old(rows) && lastId == old(lastId) && (res.Listed? || res.ServerError?)
      ensures verb == "POST" ==> res.Created? || res.BadRequest? || res.ServerError?
    {
      if verb == "GET" {
        res := HandleGet(query, ilike);
      } else if verb == "POST" {
        res := HandlePost(body, dates);
      } else {
        res := MethodNotAllowed(["GET", "POST"]);
      }
    }
  }
}

=== FILE: material_page.dfy ===
/**
 * The material stock page without its DOM: the page counter and its
 * pagination buttons, the entry form's field checks (which collect every
 * problem before refusing), what the form sends, and what saving does to the
 * page counter and to the entry being revised.
 */
module MaterialPage {
  import opened Wrappers
  import opened Js
  import opened Types
  import opened MaterialApi

  /** Deliveries per page. */
  const ITEMS_PER_PAGE: int := 6

  /** `Math.ceil(totalCount / ITEMS_PER_PAGE)`. */
  function TotalPages(totalCount: nat): nat {
    PageCount(totalCount, ITEMS_PER_PAGE)
  }

  /** The pagination bar: hidden, or shown with its two buttons' disabled states. */
  datatype Pagination = Hidden | Shown(prevDisabled: bool, nextDisabled: bool, page: int, pages: int)

  /** renderPagination: hidden with at most one page. */
  function RenderPagination(currentPage: int, totalCount: nat): Pagination {
    var pages := TotalPages(totalCount);
    if pages <= 1 then Hidden
    else Shown(currentPage == 1, currentPage == pages, currentPage, pages)
  }

  /**
   * On a page within range, the buttons are enabled exactly when their
   * handlers would move: prev when the page is past the first, next when it
   * is before the last. The bar shows exactly when there are more than six
   * deliveries.
   */
  lemma PaginationMatchesHandlers(currentPage: int, totalCount: nat)
    requires 1 <= currentPage <= TotalPages(totalCount)
    ensures RenderPagination(currentPage, totalCount).Shown? <==> totalCount > ITEMS_PER_PAGE
    ensures RenderPagination(currentPage, totalCount).Shown? ==>
      (!RenderPagination(currentPage, totalCount).prevDisabled <==> currentPage > 1) &&
      (!RenderPagination(currentPage, totalCount).nextDisabled <==> currentPage < TotalPages(totalCount))
  {
  }

  /** The query the page fetches with: `page` and `limit` as decimal text. */
  function FetchQuery(page: nat): map<string, string> {
    map["page" := NatToString(page), "limit" := NatToString(ITEMS_PER_PAGE)]
  }

  /** The endpoint reads back the page the client asked for, six deliveries to a page. */
  lemma FetchQueryReadBack(page: nat)
    requires page >= 1
    ensures IntParamOr(FetchQuery(page), "page", DEFAULT_PAGE) == page
    ensures IntParamOr(FetchQuery(page), "limit", DEFAULT_LIMIT) == ITEMS_PER_PAGE
    ensures Offset(page, ITEMS_PER_PAGE) == (page - 1) * 6
  {
    var q := FetchQuery(page);
    assert "page" != "limit" by {
      assert "page"[0] != "limit"[0];
    }
    assert "page" in q && q["page"] == NatToString(page);
    assert "limit" in q && q["limit"] == NatToString(ITEMS_PER_PAGE);
    ReadBackParam(q, "page", page, DEFAULT_PAGE);
    ReadBackParam(q, "limit", ITEMS_PER_PAGE, DEFAULT_LIMIT);
  }

  /** A parameter written by `toString` from a positive number is read back as that number. */
  lemma ReadBackParam(q: map<string, string>, name: string, n: nat, default: int)
    requires n != 0 && name in q && q[name] == NatToString(n)
    ensures IntParamOr(q, name, default) == n
  {
    ParseIntOfToString(n);
  }

  // ---------------------------------------------------------------------------
  // The entry form's field checks

  /** The form's fields as text, as `FormData` returns them. */
  datatype StockForm = StockForm(
    date: string,
    time: string,
    supplier: string,
    driver: string,
    origin: string,
    superCount: string,
    superVolume: string,
    superPrice: string,
    rijekCount: string,
    rijekVolume: string,
    rijekPrice: string)

  /** The volume text has more than two characters between its first '.' and the next. */
  predicate TooManyDecimals(text: string) {
    '.' in text && |SecondPiece(text)| > 2
  }

  /** What validateIntegerField pushes for one field. */
  function IntegerFieldErrors(text: string, name: string): seq<string> {
    var num := ParseInt(text);
    if Trim(text) == "" then [name + " is required."]
    else if num.None? || num.value < 0 then [name + " must be a valid, non-negative integer."]
    else []
  }

  /** What validateVolumeField pushes for one field. */
  function VolumeFieldErrors(text: string, name: string): seq<string> {
    var num := ParseFloat(text);
    if Trim(text) == "" then [name + " is required."]
    else if num.None? || num.value.digits < 0 then [name + " must be a valid, non-negative number."]
    else if TooManyDecimals(text) then [name + " cannot have more than 2 decimal places."]
    else []
  }

  /** An integer field the form takes: a non-negative whole number after parseInt. */
  predicate IntegerFieldOk(text: string) {
    !IsBlank(text) && ParseInt(text).Some? && ParseInt(text).value >= 0
  }

  /** A volume field the form takes: a non-negative number with at most two decimals in its text. */
  predicate VolumeFieldOk(text: string) {
    !IsBlank(text) && ParseFloat(text).Some? && ParseFloat(text).value.digits >= 0 && !TooManyDecimals(text)
  }

  /** An integer field pushes one message when it is not acceptable, and none when it is. */
  lemma IntegerFieldErrorsMeaning(text: string, name: string)
    ensures IntegerFieldErrors(text, name) == [] <==> IntegerFieldOk(text)
    ensures |IntegerFieldErrors(text, name)| == Count(!IntegerFieldOk(text))
  {
  }

  /** A volume field pushes one message when it is not acceptable, and none when it is. */
  lemma VolumeFieldErrorsMeaning(text: string, name: string)
    ensures VolumeFieldErrors(text, name) == [] <==> VolumeFieldOk(text)
    ensures |VolumeFieldErrors(text, name)| == Count(!VolumeFieldOk(text))
  {
  }

  /** The text after the leading whitespace and the sign, where parseFloat reads its digits. */
  function Unsigned(s: string): string {
    SignAndRest(TrimStart(s)).1
  }

  /** The fraction text parseFloat reads after the whole digits. */
  function FractionOf(s: string): string {
    FractionText(Unsigned(s), DigitRun(Unsigned(s)))
  }

  /** Leading whitespace holds no dot. */
  lemma TrimStartNoDot(s: string)
    ensures forall i :: 0 <= i < |s| - |TrimStart(s)| ==> s[i] != '.'
  {
    forall i | 0 <= i < |s| - |TrimStart(s)| ensures s[i] != '.' {
      assert IsWhitespace(s[i]);
    }
  }

  /** The text after the sign is a suffix, and the sign is not a dot. */
  lemma SignAndRestSuffix(t: string)
    ensures |SignAndRest(t).1| <= |t| && SignAndRest(t).1 == t[|t| - |SignAndRest(t).1|..]
    ensures forall i :: 0 <= i < |t| - |SignAndRest(t).1| ==> t[i] != '.'
  {
  }

  /** The unsigned text is a suffix, and what precedes it holds no dot. */
  lemma UnsignedIsSuffix(s: string)
    ensures |Unsigned(s)| <= |s| && Unsigned(s) == s[|s| - |Unsigned(s)|..]
    ensures forall i :: 0 <= i < |s| - |Unsigned(s)| ==> s[i] != '.'
  {
    var t := TrimStart(s);
    var r := Unsigned(s);
    TrimStartNoDot(s);
    SignAndRestSuffix(t);
    assert r == t[|t| - |r|..];
    assert t == s[|s| - |t|..];
    assert r == s[|s| - |r|..];
    forall i | |s| - |t| <= i < |s| - |r| ensures s[i] != '.' {
      assert s[i] == t[i - (|s| - |t|)];
    }
  }

  /** A dot with no dot before it is the first dot. */
  lemma FirstDotAt(s: string, p: nat)
    requires p < |s| && s[p] == '.'
    requires forall i :: 0 <= i < p ==> s[i] != '.'
    ensures FirstDot(s) == p
  {
  }

  /** A run of digits holds no dot. */
  lemma DigitsBeforeDot(s: string)
    ensures FirstDot(s) >= DigitRun(s)
  {
    assert forall i :: 0 <= i < DigitRun(s) ==> s[i] != '.' by {
      forall i | 0 <= i < DigitRun(s) ensures s[i] != '.' {
        assert IsDigit(s[i]);
      }
    }
  }

  /** parseFloat's value has no more decimal places than the fraction text it read. */
  lemma ParseFloatScale(s: string)
    requires ParseFloat(s).Some?
    ensures ParseFloat(s).value.scale <= |FractionOf(s)|
  {
  }

  /** Where the text has a '.', the fraction text is the digit run after it. */
  lemma FractionTextAtDot(t: string, n: nat)
    requires n <= |t| && FractionText(t, n) != ""
    ensures n < |t| && t[n] == '.'
    ensures FractionText(t, n) == t[n + 1..][..DigitRun(t[n + 1..])]
  {
  }

  /**
   * In a text that ends with `rest`, with no dot before `rest` and a dot
   * right after the digit run that starts `rest`, that dot is the first.
   */
  lemma DotAfterDigits(s: string, rest: string)
    requires |rest| <= |s| && rest == s[|s| - |rest|..]
    requires forall i :: 0 <= i < |s| - |rest| ==> s[i] != '.'
    requires DigitRun(rest) < |rest| && rest[DigitRun(rest)] == '.'
    ensures FirstDot(s) == |s| - |rest| + DigitRun(rest)
    ensures s[FirstDot(s) + 1..] == rest[DigitRun(rest) + 1..]
  {
    var n := DigitRun(rest);
    var off := |s| - |rest|;
    assert s[off + n] == rest[n];
    forall i | off <= i < off + n ensures s[i] != '.' {
      assert s[i] == rest[i - off];
      assert IsDigit(rest[i - off]);
    }
    FirstDotAt(s, off + n);
  }

  /** The second piece runs from the first dot to the next one. */
  lemma SecondPieceLength(s: string)
    requires FirstDot(s) < |s|
    ensures |SecondPiece(s)| == FirstDot(s[FirstDot(s) + 1..])
  {
  }

  /** The fraction text parseFloat reads starts the second dot-separated piece of the text. */
  lemma FractionInSecondPiece(s: string)
    requires FractionOf(s) != ""
    ensures '.' in s && |SecondPiece(s)| >= |FractionOf(s)|
  {
    FractionAfterFirstDot(s);
    var after := s[FirstDot(s) + 1..];
    SecondPieceFrom(s, after);
    DigitsBeforeDot(after);
  }

  /** The fraction text parseFloat reads is the digit run right after the first dot. */
  lemma FractionAfterFirstDot(s: string)
    requires FractionOf(s) != ""
    ensures FirstDot(s) < |s|
    ensures FractionOf(s) == s[FirstDot(s) + 1..][..DigitRun(s[FirstDot(s) + 1..])]
  {
    FractionTextAtDot(Unsigned(s), DigitRun(Unsigned(s)));
    FirstDotInUnsigned(s);
  }

  /** A dot right after the leading digits of the unsigned text is the first dot of the text. */
  lemma FirstDotInUnsigned(s: string)
    requires DigitRun(Unsigned(s)) < |Unsigned(s)| && Unsigned(s)[DigitRun(Unsigned(s))] == '.'
    ensures FirstDot(s) < |s|
    ensures s[FirstDot(s) + 1..] == Unsigned(s)[DigitRun(Unsigned(s)) + 1..]
  {
    UnsignedIsSuffix(s);
    DotAfterDigits(s, Unsigned(s));
  }

  /** What follows the first dot of s starts the second piece, which runs to the next dot. */
  lemma SecondPieceFrom(s: string, after: string)
    requires FirstDot(s) < |s| && s[FirstDot(s) + 1..] == after
    ensures '.' in s && |SecondPiece(s)| == FirstDot(after)
  {
    assert s[FirstDot(s)] == '.';
    SecondPieceLength(s);
  }

  /**
   * A volume whose text passes the form's check has at most two decimal
   * places, so the endpoint's rule (as intended) takes it too.
   */
  lemma FormVolumeHasTwoDecimals(text: string)
    requires VolumeFieldOk(text)
    ensures VolumeDecimalsOk(ParseFloat(text).value)
  {
    ParseFloatScale(text);
    if FractionOf(text) != "" {
      FractionInSecondPiece(text);
    }
  }

  /** The messages pushed for the date, time and name fields, in order. */
  function TextErrors(form: StockForm): seq<string> {
    var datePart := Trim(form.date);
    var timePart := Trim(form.time);
    (if datePart == "" then ["Date is required."] else []) +
    (if timePart == "" then ["Time is required."] else []) +
    (if Trim(form.supplier) == "" then ["Supplier name is required."] else []) +
    (if Trim(form.driver) == "" then ["Driver name is required."] else []) +
    (if Trim(form.origin) == "" then ["Origin is required."] else []) +
    (if datePart == "" || timePart == "" then ["Date and time must form a valid timestamp."] else [])
  }

  /** Every message the form collects before it refuses, field by field. */
  function FormErrors(form: StockForm): seq<string> {
    TextErrors(form) +
    IntegerFieldErrors(form.superCount, "Super Count") +
    VolumeFieldErrors(form.superVolume, "Super Volume") +
    IntegerFieldErrors(form.superPrice, "Super Price") +
    IntegerFieldErrors(form.rijekCount, "Rijek Count") +
    VolumeFieldErrors(form.rijekVolume, "Rijek Volume") +
    IntegerFieldErrors(form.rijekPrice, "Rijek Price")
  }

  /** Every field of the form is acceptable on its own. */
  predicate FormOk(form: StockForm) {
    !IsBlank(form.date) && !IsBlank(form.time) && !IsBlank(form.supplier) &&
    !IsBlank(form.driver) && !IsBlank(form.origin) &&
    IntegerFieldOk(form.superCount) && VolumeFieldOk(form.superVolume) && IntegerFieldOk(form.superPrice) &&
    IntegerFieldOk(form.rijekCount) && VolumeFieldOk(form.rijekVolume) && IntegerFieldOk(form.rijekPrice)
  }

  /** The date, time and name fields push nothing exactly when none is blank, and at least one message per blank one. */
  lemma TextErrorsMeaning(form: StockForm)
    ensures TextErrors(form) == [] <==>
      !IsBlank(form.date) && !IsBlank(form.time) && !IsBlank(form.supplier) &&
      !IsBlank(form.driver) && !IsBlank(form.origin)
    ensures |TextErrors(form)| >= TextFailures(form)
  {
  }

  /** The form collects no message exactly when every field is acceptable. */
  lemma FormErrorsMeaning(form: StockForm)
    ensures FormErrors(form) == [] <==> FormOk(form)
  {
    TextErrorsMeaning(form);
    IntegerFieldErrorsMeaning(form.superCount, "Super Count");
    VolumeFieldErrorsMeaning(form.superVolume, "Super Volume");
    IntegerFieldErrorsMeaning(form.superPrice, "Super Price");
    IntegerFieldErrorsMeaning(form.rijekCount, "Rijek Count");
    VolumeFieldErrorsMeaning(form.rijekVolume, "Rijek Volume");
    IntegerFieldErrorsMeaning(form.rijekPrice, "Rijek Price");
  }

  /**
   * The form collects every problem instead of stopping at the first: at
   * least one message for each field that is not acceptable.
   */
  lemma FormErrorsCoverFailures(form: StockForm)
    ensures |FormErrors(form)| >= FailingFields(form)
  {
    TextErrorsMeaning(form);
    IntegerFieldErrorsMeaning(form.superCount, "Super Count");
    VolumeFieldErrorsMeaning(form.superVolume, "Super Volume");
    IntegerFieldErrorsMeaning(form.superPrice, "Super Price");
    IntegerFieldErrorsMeaning(form.rijekCount, "Rijek Count");
    VolumeFieldErrorsMeaning(form.rijekVolume, "Rijek Volume");
    IntegerFieldErrorsMeaning(form.rijekPrice, "Rijek Price");
    assert |FormErrors(form)| == |TextErrors(form)| +
      |IntegerFieldErrors(form.superCount, "Super Count")| + |VolumeFieldErrors(form.superVolume, "Super Volume")| +
      |IntegerFieldErrors(form.superPrice, "Super Price")| + |IntegerFieldErrors(form.rijekCount, "Rijek Count")| +
      |VolumeFieldErrors(form.rijekVolume, "Rijek Volume")| + |IntegerFieldErrors(form.rijekPrice, "Rijek Price")|;
  }

  function Count(b: bool): nat {
    if b then 1 else 0
  }

  /** How many of the five text fields are blank. */
  function TextFailures(form: StockForm): nat {
    Count(IsBlank(form.date)) + Count(IsBlank(form.time)) + Count(IsBlank(form.supplier)) +
    Count(IsBlank(form.driver)) + Count(IsBlank(form.origin))
  }

  /** How many of the form's eleven fields are not acceptable. */
  function FailingFields(form: StockForm): nat {
    TextFailures(form) +
    Count(!IntegerFieldOk(form.superCount)) + Count(!VolumeFieldOk(form.superVolume)) +
    Count(!IntegerFieldOk(form.superPrice)) + Count(!IntegerFieldOk(form.rijekCount)) +
    Count(!VolumeFieldOk(form.rijekVolume)) + Count(!IntegerFieldOk(form.rijekPrice))
  }

  /**
   * validateIntegerField: a blank field is required; text that parseInt does
   * not read as a non-negative number is refused and gives NaN (None); any
   * other text gives its parsed value.
   */
  method ValidateIntegerField(text: string, name: string, errors: seq<string>) returns (num: Option<int>, out: seq<string>)
    ensures out == errors + IntegerFieldErrors(text, name)
    ensures num.Some? <==> IntegerFieldOk(text)
    ensures num.Some? ==> num == ParseInt(text)
  {
    out := errors;
    if Trim(text) == "" {
      out := out + [name + " is required."];
      return None, out;
    }
    num := ParseInt(text);
    if num.None? || num.value < 0 {
      out := out + [name + " must be a valid, non-negative integer."];
      return None, out;
    }
  }

  /**
   * validateVolumeField: a blank field is required; text that parseFloat does
   * not read as a non-negative number is refused and gives NaN (None); too
   * many decimals are reported, but the parsed value is still returned.
   */
  method ValidateVolumeField(text: string, name: string, errors: seq<string>) returns (num: Option<Decimal>, out: seq<string>)
    ensures out == errors + VolumeFieldErrors(text, name)
    ensures num.Some? <==> !IsBlank(text) && ParseFloat(text).Some? && ParseFloat(text).value.digits >= 0
    ensures num.Some? ==> num == ParseFloat(text)
  {
    out := errors;
    if Trim(text) == "" {
      out := out + [name + " is required."];
      return None, out;
    }
    num := ParseFloat(text);
    if num.None? || num.value.digits < 0 {
      out := out + [name + " must be a valid, non-negative number."];
      return None, out;
    }
    if '.' in text && |SecondPiece(text)| > 2 {
      out := out + [name + " cannot have more than 2 decimal places."];
    }
  }

  /** One grade's log as the form sends it. */
  datatype FormLog = FormLog(count: int, volume: Decimal, price: int)

  /** The delivery the form sends: the instant, the trimmed names and both logs. */
  datatype StockDraft = StockDraft(date: int, supplier: string, driver: string, origin: string,
                                   superLog: FormLog, rijekLog: FormLog)

  /**
   * Checking the form: it throws when the date and time are both given but do
   * not form a timestamp (`toISOString` on an invalid date); otherwise it is
   * refused with every collected message, or it is ready to send.
   */
  datatype FormCheck = Threw | Refused(errors: seq<string>) | Ready(draft: StockDraft)

  /** `new Date(date + 'T' + time)`: how the browser reads the combined text. */
  function Timestamp(form: StockForm, stamps: DateReader): Option<int> {
    stamps(Trim(form.date) + "T" + Trim(form.time))
  }

  /** Both date and time are given but do not make a timestamp. */
  predicate StampThrows(form: StockForm, stamps: DateReader) {
    Trim(form.date) != "" && Trim(form.time) != "" && Timestamp(form, stamps).None?
  }

  /** The submit handler's checks, pushing every message onto one list. */
  method CheckForm(form: StockForm, stamps: DateReader) returns (check: FormCheck)
    ensures check.Threw? <==> StampThrows(form, stamps)
    ensures check.Refused? <==> !StampThrows(form, stamps) && !FormOk(form)
    ensures check.Refused? ==> check.errors == FormErrors(form)
    ensures check.Ready? ==>
      var d := check.draft;
      Timestamp(form, stamps) == Some(d.date) &&
      d.supplier == Trim(form.supplier) && d.driver == Trim(form.driver) && d.origin == Trim(form.origin) &&
      Some(d.superLog.count) == ParseInt(form.superCount) && Some(d.superLog.volume) == ParseFloat(form.superVolume) &&
      Some(d.superLog.price) == ParseInt(form.superPrice) && Some(d.rijekLog.count) == ParseInt(form.rijekCount) &&
      Some(d.rijekLog.volume) == ParseFloat(form.rijekVolume) && Some(d.rijekLog.price) == ParseInt(form.rijekPrice)
  {
    var errors := TextErrors(form);
    var stamp: Option<int> := None;
    if Trim(form.date) != "" && Trim(form.time) != "" {
      stamp := Timestamp(form, stamps);
      if stamp.None? {
        return Threw;
      }
    }
    var superCount, superVolume, superPrice, rijekCount, rijekVolume, rijekPrice;
    superCount, errors := ValidateIntegerField(form.superCount, "Super Count", errors);
    superVolume, errors := ValidateVolumeField(form.superVolume, "Super Volume", errors);
    superPrice, errors := ValidateIntegerField(form.superPrice, "Super Price", errors);
    rijekCount, errors := ValidateIntegerField(form.rijekCount, "Rijek Count", errors);
    rijekVolume, errors := ValidateVolumeField(form.rijekVolume, "Rijek Volume", errors);
    rijekPrice, errors := ValidateIntegerField(form.rijekPrice, "Rijek Price", errors);
    assert errors == FormErrors(form);
    FormErrorsMeaning(form);
    if errors != [] {
      return Refused(errors);
    }
    assert FormOk(form);
    check := Ready(StockDraft(stamp.value, Trim(form.supplier), Trim(form.driver), Trim(form.origin),
      FormLog(superCount.value, superVolume.value, superPrice.value),
      FormLog(rijekCount.value, rijekVolume.value, rijekPrice.value)));
  }

  // ---------------------------------------------------------------------------
  // What the endpoint makes of a draft

  /** One grade's log as JSON. */
  function LogJson(log: FormLog): Json {
    Object(map["count" := Number(FromInt(log.count)), "volume" := Number(log.volume),
               "price" := Number(FromInt(log.price))])
  }

  /** The body the form posts; `iso` is the instant as `toISOString` writes it. */
  function DraftBody(d: StockDraft, iso: string): Json {
    Object(map["date" := Str(iso), "supplier" := Str(d.supplier), "driver" := Str(d.driver),
               "origin" := Str(d.origin), "super" := LogJson(d.superLog), "rijek" := LogJson(d.rijekLog)])
  }

  /** The fields of a posted body, one by one. */
  lemma DraftBodyFields(d: StockDraft, iso: string)
    ensures Get(DraftBody(d, iso), "date") == Str(iso)
    ensures Get(DraftBody(d, iso), "supplier") == Str(d.supplier)
    ensures Get(DraftBody(d, iso), "driver") == Str(d.driver)
    ensures Get(DraftBody(d, iso), "origin") == Str(d.origin)
    ensures Get(DraftBody(d, iso), "super") == LogJson(d.superLog)
    ensures Get(DraftBody(d, iso), "rijek") == LogJson(d.rijekLog)
  {
  }

  /** The fields of a posted log, one by one. */
  lemma LogJsonFields(log: FormLog)
    ensures Get(LogJson(log), "count") == Number(FromInt(log.count))
    ensures Get(LogJson(log), "volume") == Number(log.volume)
    ensures Get(LogJson(log), "price") == Number(FromInt(log.price))
  {
  }

  /** The bounds the endpoint checks and the form does not. */
  predicate WithinColumns(log: FormLog) {
    log.count <= MAX_INT && Below(log.volume, MAX_VOLUME) && log.price <= MAX_BIGINT
  }

  /** A log the form accepted and that fits the columns passes the endpoint's checks. */
  lemma FormLogAccepted(log: FormLog, countText: string, volumeText: string, priceText: string)
    requires IntegerFieldOk(countText) && VolumeFieldOk(volumeText) && IntegerFieldOk(priceText)
    requires Some(log.count) == ParseInt(countText) && Some(log.volume) == ParseFloat(volumeText)
    requires Some(log.price) == ParseInt(priceText)
    requires WithinColumns(log)
    ensures LogAccepted(LogJson(log))
  {
    LogJsonFields(log);
    FormVolumeHasTwoDecimals(volumeText);
  }

  /**
   * A draft the form is ready to send is accepted by the endpoint when the
   * endpoint can read its timestamp back and both logs fit their columns:
   * the form's own checks cover everything else.
   */
  lemma ReadyDraftAccepted(form: StockForm, d: StockDraft, iso: string, dates: DateReader)
    requires FormOk(form)
    requires d.supplier == Trim(form.supplier) && d.driver == Trim(form.driver) && d.origin == Trim(form.origin)
    requires Some(d.superLog.count) == ParseInt(form.superCount) && Some(d.superLog.volume) == ParseFloat(form.superVolume)
    requires Some(d.superLog.price) == ParseInt(form.superPrice) && Some(d.rijekLog.count) == ParseInt(form.rijekCount)
    requires Some(d.rijekLog.volume) == ParseFloat(form.rijekVolume) && Some(d.rijekLog.price) == ParseInt(form.rijekPrice)
    requires iso != "" && dates(iso).Some?
    requires WithinColumns(d.superLog) && WithinColumns(d.rijekLog)
    ensures ValidateStockEntry(DraftBody(d, iso), dates).None?
  {
    DraftBodyFields(d, iso);
    TrimIdempotent(form.supplier);
    TrimIdempotent(form.driver);
    TrimIdempotent(form.origin);
    FormLogAccepted(d.superLog, form.superCount, form.superVolume, form.superPrice);
    FormLogAccepted(d.rijekLog, form.rijekCount, form.rijekVolume, form.rijekPrice);
  }

  // ---------------------------------------------------------------------------
  // The revise form

  /** The number a stored volume of h hundredths arrives as: `Number("12.50")` is 12.5. */
  function VolumeNumber(h: nat): Decimal {
    Canonicalize(Num(h, 2))
  }

  /** The volume number is worth h hundredths, with at most two decimals, and is below the cap when h is. */
  lemma VolumeNumberFacts(h: nat)
    ensures VolumeNumber(h).scale <= 2 && VolumeNumber(h).digits >= 0
    ensures Hundredths(VolumeNumber(h)) == h
    ensures h < MAX_VOLUME * 100 ==> Below(VolumeNumber(h), MAX_VOLUME)
  {
    var n := VolumeNumber(h);
    assert Pow10(1) == 10 && Pow10(2) == 100;
    assert n.digits * Pow10(2 - n.scale) == h;
  }

  /** `String(volume)` as the revise form writes a stored volume of h hundredths. */
  function VolumeText(h: nat): string
    requires h < MAX_VOLUME * 100
  {
    VolumeNumberFacts(h);
    BelowRaised(VolumeNumber(h), MAX_VOLUME, Pow10(21));
    NumberToString(VolumeNumber(h))
  }

  /** Text parseFloat reads a number from is not blank. */
  lemma ParsedIsNotBlank(s: string)
    requires ParseFloat(s).Some?
    ensures !IsBlank(s)
  {
    var t := TrimStart(s);
    assert t != [];
    assert !IsWhitespace(t[0]) && t[0] == s[|s| - |t|];
  }

  /** A stored volume written by the revise form passes the volume check and reads back as itself. */
  lemma PrefilledVolume(h: nat)
    requires h < MAX_VOLUME * 100
    ensures VolumeFieldOk(VolumeText(h))
    ensures ParseFloat(VolumeText(h)) == Some(VolumeNumber(h)) && Hundredths(VolumeNumber(h)) == h
  {
    var n := VolumeNumber(h);
    VolumeNumberFacts(h);
    BelowRaised(n, MAX_VOLUME, Pow10(21));
    assert n.scale == 0 || n.digits * Pow10(6) >= Pow10(n.scale) by {
      if n.scale > 0 {
        assert Pow10(n.scale) <= 100 by {
          assert Pow10(1) == 10 && Pow10(2) == 100;
        }
        assert Pow10(6) == 1000000;
        ProductAtLeast(n.digits, Pow10(6));
      }
    }
    ParseFloatOfToString(n);
    VolumeRulesAgree(n);
    ParsedIsNotBlank(VolumeText(h));
  }

  /** A stored count or price written by the revise form passes the integer check and reads back as itself. */
  lemma PrefilledInteger(k: nat)
    ensures IntegerFieldOk(NatToString(k)) && ParseInt(NatToString(k)) == Some(k)
  {
    ParseIntOfToString(k);
    var s := NatToString(k);
    assert !IsWhitespace(s[0]);
  }

  /**
   * The revise form filled from a stored delivery: its names, its counts and
   * prices by `toString`, its volumes by `String`; `dateText` and `timeText`
   * are its instant as the browser writes it in local time.
   */
  function PrefilledForm(e: StockEntry, dateText: string, timeText: string): StockForm
    requires StoredRow(ToRow(e))
  {
    StockForm(dateText, timeText, e.supplier, e.driver, e.origin,
      NatToString(e.superLog.count), VolumeText(e.superLog.volume), NatToString(e.superLog.price),
      NatToString(e.rijekLog.count), VolumeText(e.rijekLog.volume), NatToString(e.rijekLog.price))
  }

  /**
   * Saving a revise form left as it was filled passes every check of the
   * form, and reads back the stored counts, volumes and prices.
   */
  lemma PrefilledFormOk(e: StockEntry, dateText: string, timeText: string)
    requires StoredRow(ToRow(e)) && !IsBlank(dateText) && !IsBlank(timeText)
    ensures FormOk(PrefilledForm(e, dateText, timeText))
    ensures var f := PrefilledForm(e, dateText, timeText);
      ParseInt(f.superCount) == Some(e.superLog.count) && ParseInt(f.superPrice) == Some(e.superLog.price) &&
      ParseInt(f.rijekCount) == Some(e.rijekLog.count) && ParseInt(f.rijekPrice) == Some(e.rijekLog.price) &&
      ParseFloat(f.superVolume) == Some(VolumeNumber(e.superLog.volume)) &&
      ParseFloat(f.rijekVolume) == Some(VolumeNumber(e.rijekLog.volume)) &&
      Hundredths(VolumeNumber(e.superLog.volume)) == e.superLog.volume &&
      Hundredths(VolumeNumber(e.rijekLog.volume)) == e.rijekLog.volume
  {
    PrefilledInteger(e.superLog.count);
    PrefilledInteger(e.superLog.price);
    PrefilledInteger(e.rijekLog.count);
    PrefilledInteger(e.rijekLog.price);
    PrefilledVolume(e.superLog.volume);
    PrefilledVolume(e.rijekLog.volume);
  }

  // ---------------------------------------------------------------------------
  // The page's state

  /** What the server made of a sent form: the API call returned, or it threw. */
  datatype SaveOutcome = Saved | Failed

  /** The request a ready form makes: a new delivery, or a revision of one. */
  datatype Request = Create(draft: StockDraft) | Update(id: int, draft: StockDraft)

  /** `if (currentEditingId)`: a delivery is being revised (the id 0 is falsy). */
  predicate Revising(editingId: Option<int>) {
    editingId.Some? && editingId.value != 0
  }

  /** The request a ready draft makes, given the delivery being revised. */
  function RequestFor(editingId: Option<int>, draft: StockDraft): Request {
    if Revising(editingId) then Update(editingId.value, draft) else Create(draft)
  }

  /** The listing the page last loaded: one page of deliveries and the total count. */
  datatype PageData = PageData(entries: seq<StockEntry>, totalCount: nat)

  /** Every delivery of a listing is one the endpoint stored. */
  predicate ListingStored(data: PageData) {
    forall i :: 0 <= i < |data.entries| ==> StoredRow(ToRow(data.entries[i]))
  }

  class MaterialPageState {
    var currentPage: int
    /** The delivery being revised in the form, if any. */
    var editingId: Option<int>
    /** The listing last loaded, if one has been. */
    var data: Option<PageData>

    ghost predicate Valid()
      reads this
    {
      currentPage >= 1 && (data.Some? ==> ListingStored(data.value))
    }

    /** The page before anything is loaded: page 1, nothing being revised. */
    constructor()
      ensures Valid() && currentPage == 1 && editingId == None && data == None
    {
      currentPage := 1;
      editingId := None;
      data := None;
    }

    /** A listing of stored deliveries arrived from the endpoint. */
    method Loaded(listing: PageData)
      requires Valid() && ListingStored(listing)
      modifies this
      ensures Valid() && data == Some(listing)
      ensures currentPage == old(currentPage) && editingId == old(editingId)
    {
      data := Some(listing);
    }

    /** The previous-page button: back one page, but never below page 1. */
    method Prev() returns (refetch: bool)
      requires Valid()
      modifies this
      ensures Valid()
      ensures refetch <==> old(currentPage) > 1
      ensures currentPage == if refetch then old(currentPage) - 1 else old(currentPage)
      ensures editingId == old(editingId) && data == old(data)
    {
      refetch := currentPage > 1;
      if refetch {
        currentPage := currentPage - 1;
      }
    }

    /** The next-page button: forward one page, but never past the last page, and not before a listing has loaded. */
    method Next() returns (refetch: bool)
      requires Valid()
      modifies this
      ensures Valid()
      ensures refetch <==> old(data).Some? && old(currentPage) < TotalPages(old(data).value.totalCount)
      ensures currentPage == if refetch then old(currentPage) + 1 else old(currentPage)
      ensures refetch ==> data.Some? && currentPage <= TotalPages(data.value.totalCount)
      ensures editingId == old(editingId) && data == old(data)
    {
      refetch := false;
      if data.None? {
        return;
      }
      var totalPages := TotalPages(data.value.totalCount);
      if currentPage < totalPages {
        currentPage := currentPage + 1;
        refetch := true;
      }
    }

    /** The add button: a new delivery, nothing being revised. */
    method AddNew()
      modifies this
      ensures editingId == None
      ensures currentPage == old(currentPage) && data == old(data)
    {
      editingId := None;
    }

    /**
     * A revise button: the first delivery of the loaded listing with that id
     * is revised and returned to fill the form; an id the listing does not
     * hold changes nothing.
     */
    method Revise(id: int) returns (entry: Option<StockEntry>)
      requires Valid()
      modifies this
      ensures Valid()
      ensures entry.Some? <==>
        old(data).Some? && exists i :: 0 <= i < |old(data).value.entries| && old(data).value.entries[i].id == id
      ensures entry.Some? ==>
        editingId == Some(id) && entry.value.id == id && StoredRow(ToRow(entry.value)) && data.Some? &&
        exists i :: 0 <= i < |data.value.entries| && data.value.entries[i] == entry.value &&
          forall j :: 0 <= j < i ==> data.value.entries[j].id != id
      ensures entry.None? ==> editingId == old(editingId)
      ensures currentPage == old(currentPage) && data == old(data)
    {
      entry := None;
      if data.None? {
        return;
      }
      var entries := data.value.entries;
      var k := 0;
      while k < |entries|
        invariant 0 <= k <= |entries|
        invariant forall i :: 0 <= i < k ==> entries[i].id != id
      {
        if entries[k].id == id {
          editingId := Some(id);
          entry := Some(entries[k]);
          return;
        }
        k := k + 1;
      }
    }

    /** Closing the form forgets the delivery being revised. */
    method CloseModal()
      modifies this
      ensures editingId == None
      ensures currentPage == old(currentPage) && data == old(data)
    {
      editingId := None;
    }

    /**
     * The end of the submit handler as written, once the form is checked:
     * nothing happens unless the form is ready. It closes the form, which
     * forgets the delivery being revised, before it asks whether one was being
     * revised, so every successful save goes back to page 1, an edit included.
     */
    method SubmitAsWritten(check: FormCheck, outcome: SaveOutcome) returns (request: Option<Request>)
      requires Valid()
      modifies this
      ensures Valid() && data == old(data)
      ensures request.Some? <==> check.Ready?
      ensures !check.Ready? ==> currentPage == old(currentPage) && editingId == old(editingId)
      ensures check.Ready? ==>
        request.value == RequestFor(old(editingId), check.draft) && editingId == None &&
        currentPage == if outcome == Saved then 1 else old(currentPage)
    {
      if !check.Ready? {
        return None;
      }
      request := Some(RequestFor(editingId, check.draft));
      if outcome == Saved {
        CloseModal();
        if !Revising(editingId) {
          currentPage := 1;
        }
      }
      editingId := None;
    }

    /**
     * The end of the submit handler as its comment intends: a successful save
     * of a new delivery goes back to page 1, a successful revision stays on
     * its page. Whatever the server answers, once a request is made nothing is
     * being revised any more; a form that threw or was refused changes nothing.
     */
    method Submit(check: FormCheck, outcome: SaveOutcome) returns (request: Option<Request>)
      requires Valid()
      modifies this
      ensures Valid() && data == old(data)
      ensures request.Some? <==> check.Ready?
      ensures !check.Ready? ==> currentPage == old(currentPage) && editingId == old(editingId)
      ensures check.Ready? ==>
        request.value == RequestFor(old(editingId), check.draft) && editingId == None &&
        currentPage == if outcome == Saved && !Revising(old(editingId)) then 1 else old(currentPage)
    {
      if !check.Ready? {
        return None;
      }
      var wasRevising := Revising(editingId);
      request := Some(RequestFor(editingId, check.draft));
      if outcome == Saved {
        CloseModal();
        if !wasRevising {
          currentPage := 1;
        }
      }
      editingId := None;
    }
  }

  /**
   * A concrete revision: on page 3, revising delivery 7, a ready form that
   * the server saves. As written the page becomes 1; as intended it stays 3.
   */
  method RevisionSaveKeepsPage(draft: StockDraft) returns (asWritten: int, intended: int)
    ensures asWritten == 1 && intended == 3
  {
    var before := new MaterialPageState();
    before.currentPage := 3;
    before.editingId := Some(7);
    var r := before.SubmitAsWritten(Ready(draft), Saved);
    asWritten := before.currentPage;

    var after := new MaterialPageState();
    after.currentPage := 3;
    after.editingId := Some(7);
    r := after.Submit(Ready(draft), Saved);
    intended := after.currentPage;
  }

  /** The method a request goes out with: POST for a new delivery, PUT for a revision. */
  function Verb(r: Request): string {
    if r.Create? then "POST" else "PUT"
  }

  /** The body a request carries: the draft's fields, and the id for a revision. */
  function RequestBody(r: Request, iso: string): Json {
    var body := DraftBody(r.draft, iso);
    if r.Update? then Object(body.fields["id" := Number(FromInt(r.id))]) else body
  }

  /** `response.ok`: the page counts a 2xx answer as saved and anything else as failed. */
  function OutcomeOf(res: Response): SaveOutcome {
    if res.Listed? || res.Created? then Saved else Failed
  }

  /**
   * The submit handler as written, sent to the stock endpoint. A revision goes
   * out as PUT, which the endpoint answers with 405: the save fails, the table
   * is unchanged and the page stays where it was, so the page reset of
   * `SubmitAsWritten` does not show against this endpoint. A new delivery the
   * endpoint stores takes the page back to page 1.
   */
  method SubmitToEndpoint(page: MaterialPageState, table: StockTable, check: FormCheck, iso: string,
                          dates: DateReader, ilike: (string, string) -> bool) returns (answer: Option<Response>)
    requires page.Valid() && table.Valid()
    modifies page, table
    ensures page.Valid() && table.Valid()
    ensures answer.Some? <==> check.Ready?
    ensures check.Ready? && Revising(old(page.editingId)) ==>
      answer == Some(MethodNotAllowed(["GET", "POST"])) && page.currentPage == old(page.currentPage) &&
      table.rows == old(table.rows) && table.lastId == old(table.lastId)
    ensures check.Ready? && !Revising(old(page.editingId)) ==>
      page.currentPage == if answer.value.Created? then 1 else old(page.currentPage)
  {
    if !check.Ready? {
      var none := page.SubmitAsWritten(check, Failed);
      return None;
    }
    var request := RequestFor(page.editingId, check.draft);
    var res := table.Handle(Verb(request), map[], RequestBody(request, iso), dates, ilike);
    var sent := page.SubmitAsWritten(check, OutcomeOf(res));
    answer := Some(res);
  }
}

=== FILE: ordering.dfy ===
/**
 * Sorting by a two-part key, as the dashboard does with `ORDER BY date, id`
 * and with JavaScript's stable `Array.prototype.sort`: a stable insertion sort
 * and the facts about it that the ledger and the pages rely on.
 */
module Ordering {

  /** A sort key compared lexicographically: first `major`, then `minor`. */
  datatype Key = Key(major: int, minor: int)

  predicate KeyLe(a: Key, b: Key) {
    a.major < b.major || (a.major == b.major && a.minor <= b.minor)
  }

  predicate KeyLt(a: Key, b: Key) {
    a.major < b.major || (a.major == b.major && a.minor < b.minor)
  }

  predicate SortedBy<T>(s: seq<T>, key: T -> Key) {
    forall i, j :: 0 <= i < j < |s| ==> KeyLe(key(s[i]), key(s[j]))
  }

  predicate StrictlySortedBy<T>(s: seq<T>, key: T -> Key) {
    forall i, j :: 0 <= i < j < |s| ==> KeyLt(key(s[i]), key(s[j]))
  }

  /** No two positions of s carry the same key. */
  predicate KeysDistinct<T>(s: seq<T>, key: T -> Key) {
    forall i, j :: 0 <= i < |s| && 0 <= j < |s| && i != j ==> key(s[i]) != key(s[j])
  }

  /** Taking out the element at j takes one copy of it out of the multiset. */
  lemma RemoveAtMultiset<T>(b: seq<T>, j: nat)
    requires j < |b|
    ensures multiset(b[..j] + b[j + 1..]) == multiset(b) - multiset{b[j]}
  {
    var left, right := b[..j], b[j + 1..];
    assert b == left + [b[j]] + right;
    assert multiset(b) == multiset(left) + multiset{b[j]} + multiset(right);
    assert multiset(left + right) == multiset(left) + multiset(right);
  }

  /** Insert x before the first element whose key is not smaller than x's. */
  function Insert<T(==)>(x: T, s: seq<T>, key: T -> Key): (r: seq<T>)
    requires SortedBy(s, key)
    ensures |r| == |s| + 1
    ensures multiset(r) == multiset(s) + multiset{x}
    ensures SortedBy(r, key)
    ensures StrictlySortedBy(s, key) && (forall y :: y in s ==> key(y) != key(x)) ==> StrictlySortedBy(r, key)
  {
    if s == [] || KeyLe(key(x), key(s[0])) then
      InsertAtHead(x, s, key);
      [x] + s
    else
      var rest := Insert(x, s[1..], key);
      InsertAfterHead(x, s, rest, key);
      InsertAfterHeadStrict(x, s, rest, key);
      [s[0]] + rest
  }

  /** Putting x in front of a sorted s whose head is not smaller keeps it sorted. */
  lemma InsertAtHead<T>(x: T, s: seq<T>, key: T -> Key)
    requires SortedBy(s, key) && (s == [] || KeyLe(key(x), key(s[0])))
    ensures SortedBy([x] + s, key)
    ensures StrictlySortedBy(s, key) && (forall y :: y in s ==> key(y) != key(x)) ==> StrictlySortedBy([x] + s, key)
  {
    if s != [] {
      HeadIsLeast(s, key);
    }
  }

  lemma HeadIsLeast<T>(s: seq<T>, key: T -> Key)
    requires s != [] && SortedBy(s, key)
    ensures forall y :: y in s ==> KeyLe(key(s[0]), key(y))
    ensures StrictlySortedBy(s, key) ==> forall y :: y in s[1..] ==> KeyLt(key(s[0]), key(y))
  {
    forall y | y in s ensures KeyLe(key(s[0]), key(y)) {
      var k :| 0 <= k < |s| && s[k] == y;
    }
    if StrictlySortedBy(s, key) {
      forall y | y in s[1..] ensures KeyLt(key(s[0]), key(y)) {
        var k :| 0 <= k < |s[1..]| && s[1..][k] == y;
        assert s[k + 1] == y;
      }
    }
  }

  /** Dropping the head keeps a strictly sorted sequence strictly sorted. */
  lemma StrictTail<T>(s: seq<T>, key: T -> Key)
    requires s != [] && StrictlySortedBy(s, key)
    ensures StrictlySortedBy(s[1..], key)
  {
    forall i, j | 0 <= i < j < |s[1..]| ensures KeyLt(key(s[1..][i]), key(s[1..][j])) {
      assert s[1..][i] == s[i + 1] && s[1..][j] == s[j + 1];
    }
  }

  /** Keeping the head of s in front of x inserted into its tail keeps the result sorted, and a permutation. */
  lemma InsertAfterHead<T>(x: T, s: seq<T>, rest: seq<T>, key: T -> Key)
    requires s != [] && !KeyLe(key(x), key(s[0]))
    requires SortedBy(s, key) && SortedBy(rest, key)
    requires multiset(rest) == multiset(s[1..]) + multiset{x}
    ensures multiset([s[0]] + rest) == multiset(s) + multiset{x}
    ensures SortedBy([s[0]] + rest, key)
  {
    assert s == [s[0]] + s[1..];
    HeadIsLeast(s, key);
    var r := [s[0]] + rest;
    forall j | 0 <= j < |rest| ensures KeyLe(key(s[0]), key(rest[j])) {
      assert rest[j] in multiset(rest);
      if rest[j] != x {
        assert rest[j] in multiset(s[1..]);
        assert rest[j] in s;
      }
    }
    forall i, j | 0 <= i < j < |r| ensures KeyLe(key(r[i]), key(r[j])) {
      if i > 0 { assert r[i] == rest[i - 1] && r[j] == rest[j - 1]; } else { assert r[j] == rest[j - 1]; }
    }
  }

  /** The same, strictly: with distinct keys, the head stays strictly before the rest. */
  lemma InsertAfterHeadStrict<T>(x: T, s: seq<T>, rest: seq<T>, key: T -> Key)
    requires s != [] && !KeyLe(key(x), key(s[0])) && SortedBy(s, key)
    requires multiset(rest) == multiset(s[1..]) + multiset{x}
    requires StrictlySortedBy(s[1..], key) && (forall y :: y in s[1..] ==> key(y) != key(x)) ==> StrictlySortedBy(rest, key)
    ensures StrictlySortedBy(s, key) && (forall y :: y in s ==> key(y) != key(x)) ==> StrictlySortedBy([s[0]] + rest, key)
  {
    if StrictlySortedBy(s, key) && (forall y :: y in s ==> key(y) != key(x)) {
      StrictTail(s, key);
      HeadIsLeast(s, key);
      forall y | y in s[1..] ensures key(y) != key(x) {
        assert y in s;
      }
      var r := [s[0]] + rest;
      forall j | 0 <= j < |rest| ensures KeyLt(key(s[0]), key(rest[j])) {
        assert rest[j] in multiset(rest);
        if rest[j] != x {
          assert rest[j] in multiset(s[1..]);
          assert rest[j] in s[1..];
        }
      }
      forall i, j | 0 <= i < j < |r| ensures KeyLt(key(r[i]), key(r[j])) {
        if i > 0 { assert r[i] == rest[i - 1] && r[j] == rest[j - 1]; } else { assert r[j] == rest[j - 1]; }
      }
    }
  }

  /**
   * Stable insertion sort by key. It returns a permutation of s in key order,
   * strictly increasing when no two elements of s share a key.
   */
  function SortBy<T(==)>(s: seq<T>, key: T -> Key): (r: seq<T>)
    ensures |r| == |s|
    ensures multiset(r) == multiset(s)
    ensures SortedBy(r, key)
    ensures KeysDistinct(s, key) ==> StrictlySortedBy(r, key)
  {
    if s == [] then []
    else
      var tail := SortBy(s[1..], key);
      SortStep(s, tail, key);
      Insert(s[0], tail, key)
  }

  /** What inserting the head of s into its sorted tail needs: distinct keys stay distinct, none equals the head's. */
  lemma SortStep<T>(s: seq<T>, tail: seq<T>, key: T -> Key)
    requires s != [] && multiset(tail) == multiset(s[1..])
    ensures multiset(s) == multiset(tail) + multiset{s[0]}
    ensures KeysDistinct(s, key) ==> KeysDistinct(s[1..], key) && forall y :: y in tail ==> key(y) != key(s[0])
  {
    assert s == [s[0]] + s[1..];
    if KeysDistinct(s, key) {
      forall y | y in tail ensures key(y) != key(s[0]) {
        assert y in multiset(tail);
        assert y in s[1..];
        var k :| 0 <= k < |s[1..]| && s[1..][k] == y;
        assert s[k + 1] == y;
      }
      forall i, j | 0 <= i < |s[1..]| && 0 <= j < |s[1..]| && i != j ensures key(s[1..][i]) != key(s[1..][j]) {
        assert s[1..][i] == s[i + 1] && s[1..][j] == s[j + 1];
      }
    }
  }

  /** `s` read back to front. */
  function Reverse<T>(s: seq<T>): (r: seq<T>)
    ensures |r| == |s|
    ensures forall i :: 0 <= i < |s| ==> r[i] == s[|s| - 1 - i]
  {
    if s == [] then [] else Reverse(s[1..]) + [s[0]]
  }

  lemma {:induction false} ReverseMultiset<T>(s: seq<T>)
    ensures multiset(Reverse(s)) == multiset(s)
  {
    if s != [] {
      ReverseMultiset(s[1..]);
      assert s == [s[0]] + s[1..];
    }
  }

  /** Reading an increasing sequence back to front gives a decreasing one. */
  lemma ReverseDescending<T>(s: seq<T>, key: T -> Key)
    requires StrictlySortedBy(s, key)
    ensures forall i, j :: 0 <= i < j < |s| ==> KeyLt(key(Reverse(s)[j]), key(Reverse(s)[i]))
  {
  }
}

=== FILE: types.dfy ===
/** The record shapes the dashboard passes around (its `types.ts`), with dates as numbers. */
module Types {

  /**
   * Text a PostgreSQL text column (CHAR, VARCHAR or TEXT) can hold: any text
   * without the character U+0000. A statement binding such a text fails.
   */
  predicate StorableText(s: string) {
    '\0' !in s
  }

  /** `'income' | 'expense'`. */
  datatype EntryType = Income | Expense

  /**
   * A row of the cashflow ledger: `DailyCashflowLogEntry` without its
   * running balance. `date` is a day number; `amount` is in whole currency units.
   */
  datatype CashflowEntry = CashflowEntry(
    id: int,
    date: int,
    kind: EntryType,
    category: string,
    description: string,
    amount: int)

  /** `DailyCashflowLogEntry` with its `runningBalance` filled in. */
  datatype DailyLogEntry = DailyLogEntry(entry: CashflowEntry, runningBalance: int)

  /** One line of an income or expense breakdown. */
  datatype CashflowItem = CashflowItem(category: string, amount: int)

  /** What the cashflow query returns. */
  datatype CashflowData = CashflowData(
    income: seq<CashflowItem>,
    expenses: seq<CashflowItem>,
    dailyLog: seq<DailyLogEntry>)

  /** One quality grade of a delivery; `volume` is in hundredths of a cubic metre. */
  datatype LogData = LogData(count: int, volume: int, price: int)

  /** A material stock delivery; `date` is an instant (a timestamp). */
  datatype StockEntry = StockEntry(
    id: int,
    supplier: string,
    driver: string,
    origin: string,
    date: int,
    superLog: LogData,
    rijekLog: LogData)

  /** The largest value of a PostgreSQL BIGINT column, 2^63 - 1. */
  const MAX_BIGINT: int := 9223372036854775807

  /** The largest value of a PostgreSQL INT column, 2^31 - 1. */
  const MAX_INT: int := 2147483647

  /** The longest text a VARCHAR(255) column stores. */
  const MAX_VARCHAR: int := 255

  /** Volumes must stay below this (a NUMERIC(10, 2) column). */
  const MAX_VOLUME: int := 100000000
}

=== FILE: validation.dfy ===
/**
 * First-failure validation: the validators check conditions in a fixed order
 * and report the message of the first one that fails, or nothing.
 */
module Validation {
  import opened Wrappers

  /** One condition of a validator and the message reported when it fails. */
  datatype Check = Check(ok: bool, message: string)

  /** The message of the first failing check, or None when every check passes. */
  function FirstFailure(cs: seq<Check>): Option<string> {
    if cs == [] then None
    else if !cs[0].ok then Some(cs[0].message)
    else FirstFailure(cs[1..])
  }

  /**
   * FirstFailure reports nothing exactly when every check passes, and otherwise
   * the message of a failing check all of whose predecessors pass.
   */
  lemma {:induction false} FirstFailureMeaning(cs: seq<Check>)
    ensures FirstFailure(cs).None? <==> AllPass(cs)
    ensures FirstFailure(cs).Some? ==>
      exists i :: 0 <= i < |cs| && !cs[i].ok && FirstFailure(cs).value == cs[i].message && AllPass(cs[..i])
  {
    if cs != [] {
      if !cs[0].ok {
        assert AllPass(cs[..0]);
      } else {
        FirstFailureMeaning(cs[1..]);
        if FirstFailure(cs[1..]).Some? {
          var i :| 0 <= i < |cs[1..]| && !cs[1..][i].ok && FirstFailure(cs[1..]).value == cs[1..][i].message && AllPass(cs[1..][..i]);
          assert cs[..i + 1] == [cs[0]] + cs[1..][..i];
          assert AllPass(cs[..i + 1]);
        } else {
          assert forall i :: 1 <= i < |cs| ==> cs[1..][i - 1] == cs[i];
        }
      }
    }
  }

  /** Every check in cs passes. */
  predicate AllPass(cs: seq<Check>) {
    forall i :: 0 <= i < |cs| ==> cs[i].ok
  }

  /** Validating a + b is validating a, and validating b only when a passes. */
  lemma {:induction false} FirstFailureAppend(a: seq<Check>, b: seq<Check>)
    ensures FirstFailure(a + b) == if FirstFailure(a).Some? then FirstFailure(a) else FirstFailure(b)
  {
    if a == [] {
      assert a + b == b;
    } else {
      assert (a + b)[1..] == a[1..] + b;
      FirstFailureAppend(a[1..], b);
    }
  }
}

=== FILE: wrappers.dfy ===
/** The optional value used throughout the model for JavaScript's `null`/`undefined` results. */
module Wrappers {

  datatype Option<+T> = None | Some(value: T)
}
